=== FILE: README.md ===
# simstreamdata session engine, in Dafny

This project models the core of simstreamdata, a generator of synthetic
streaming-media event logs. Simulated users move through a graph of pages
("Home", "NextVideo", "AdStart", "Login", …) session after session. Each
event is scheduled by a discrete-event clock, and each event is turned into
a message for a topic of the output sink.

## What is modelled

The model follows the Go packages it comes from, one Dafny module per
source file, plus a few helper modules:

- **Weighted** (`pkg/models/weighted_random_thing_generator.go`): the
  weighted chooser, as a class with `items`, `ready` and `totalWeight`.
  - On first use it sorts its items, then binary-searches the cumulative
    weights for a uniform target.
  - The sort is modelled as the swaps it performs.
  - The binary search is proved equal to "the first index whose cumulative
    weight exceeds the target". That index always carries positive weight,
    and each item's share is disjoint from the others.
- **StateGraph** (`pkg/models/state.go`):
  - states are objects with three transition tables;
  - adding a transition is refused once its table's mass would pass 1.0;
  - the next state is a walk over the combined table in map order;
  - the state machine, and the map from "auth|level" to a chooser;
  - building the page graph from the configured session pages and
    transitions.
- **Sessions** (`pkg/models/session.go`):
  - the session ID counter;
  - one event of a session (redirect, video, advertising, think time);
  - the ad helpers, the pre-roll and mid-roll checks, `IsDone`;
  - the next session's start after an exponential gap, and the warm-up
    loop of the first start.
- **Lifecycle**: the churn rule of `User.NextEvent` and what ending a
  session leaves behind.
- **Users** (`pkg/models/user.go`):
  - the slice queue and the user queue;
  - user creation, with its first session on a freshly built page graph;
  - `NextEvent`;
  - the topic routing of `Serialize`;
  - genre-preference adjustment;
  - `weightedRandomSelect`.
- **Config** (`pkg/config/config.go`):
  - parsing runtimes, movie CSV records and IMDb title lines;
  - loading the catalogue with its genre index;
  - `NextMovie`.
- **Simulator** (`pkg/simulator/simulator.go`):
  - the weighted preference, content-type and subscription choices;
  - random genre preferences;
  - the conversion of subscription chances;
  - `initializeUsers`, as a class holding the user queue.
- **GoNum**, **Text**, **MapSums**: Go's integer semantics (int64
  wrap-around, truncating float conversion, `strconv.Atoi`), the `strings`
  functions the parsers use, and sums over maps of probabilities.

**Time.** Instants and durations are integers counting nanoseconds, as
`time.Duration` does. `time.Time{}` is the constant `ZeroTime`.

**Randomness and clocks are parameters.**
- Every draw from `rand` or `*rand.Rand` becomes an argument of the operation
  that makes it: uniform floats, `Intn` results, exponential and normal
  samples.
- So does every reading of `time.Now()`.
- So does every order in which Go iterates a map.

A draw is constrained only to the range Go guarantees, so each property
holds for every outcome of the random source.

**Panics become errors.**
- `rand.Intn` of a non-positive bound becomes `Err`/`Fail`.
- So does a nil dereference, an index out of range, or an `Add` after use.

## Model

| member | source | states |
|---|---|---|
| GoNum.Wrap64 | pkg/models/session.go:86-91 | the int64 increment of a counter: the result is in int64 range, congruent to the input modulo 2^64, and equal to it when no overflow occurs |
| GoNum.Trunc | pkg/simulator/simulator.go:177 | float-to-int conversion truncates toward zero: the result is within one of the input, on the same side of zero |
| GoNum.WholeMinutes | pkg/models/user.go:267 | `Duration.Minutes()` converted to int is the whole number of minutes, truncated toward zero, for either sign |
| GoNum.DigitChar | pkg/models/session.go:193 | formatting a digit yields a digit character that reads back as that digit |
| GoNum.DecimalString | pkg/models/session.go:193 | `%d` formatting of a non-negative number gives a non-empty string of digits |
| GoNum.HornerSnoc | pkg/config/config.go:290 | appending a digit to a numeral multiplies its value by ten and adds the digit |
| GoNum.HornerAtLeast | pkg/config/config.go:290 | a numeral's value never drops below the accumulator, and a leading digit contributes at least its place value |
| GoNum.DecimalStringValue | pkg/config/config.go:290 | the decimal string of n reads back as n |
| GoNum.Atoi | pkg/config/config.go:290 | `strconv.Atoi` returns a value in int64 range, and a range error carries the clamped bound of int64 |
| GoNum.ScanUintValue | pkg/config/config.go:290 | scanning a digit string whose value fits in uint64 returns that value |
| GoNum.AtoiDecimalString | pkg/config/config.go:290 | `Atoi` inverts decimal formatting for every n up to MaxInt64 |
| GoNum.AtoiRejectsNonDigits | pkg/config/config.go:290 | after the optional sign, an empty rest or a rest of at most 19 characters with a non-digit in it is a syntax error (longer ones can hit the range check first, as in Go) |
| Text.TrimLeft | pkg/config/config.go:285 | the result is a suffix of the input that does not start with a space, and everything dropped is space |
| Text.Word | pkg/config/config.go:285 | the result is the longest space-free prefix of the input |
| Text.Fields | pkg/config/config.go:285 | `strings.Fields` yields only non-empty, space-free fields |
| Text.FieldsOfSpacedWords | pkg/config/config.go:285-286 | the same, stated on the concatenation itself |
| Text.FieldsOfLastWord | pkg/config/config.go:285-286 | a single word is a single field |
| Text.FieldsAfterSpace | pkg/config/config.go:285 | leading spaces do not change the fields |
| Text.FieldsOfWord | pkg/config/config.go:285 | a word followed by space or the end is the first field, followed by the fields of the rest |
| Text.WordOf | pkg/config/config.go:285 | the word at the front of a word followed by space is that word |
| Text.IndexFrom | pkg/config/config.go:212 | the separator search returns the first occurrence at or after k, or -1 when there is none |
| Text.Split | pkg/config/config.go:212 | `strings.Split` returns at least one piece |
| Text.SplitPieces | pkg/config/config.go:212 | no piece but the last contains the separator, and a string without it splits into itself |
| Text.JoinSplit | pkg/config/config.go:212 | joining the pieces of a split with its separator restores the string |
| Text.SplitJoin | pkg/config/config.go:267 | splitting pieces joined by a separator whose first character none of them contains gives the pieces back |
| Text.NoOccurrence | pkg/config/config.go:212 | a string without the separator's first character is a single piece |
| Text.FirstOccurrence | pkg/config/config.go:212 | a split stops at the first occurrence of the separator, then splits the rest |
| Text.RemoveAll | pkg/config/config.go:289 | `strings.Replace(s, ",", "", -1)` leaves no comma, never lengthens, and changes nothing without one |
| Text.RemoveAllNoSpace | pkg/config/config.go:289 | removing commas from a space-free string keeps it space-free |
| Config.MinutesDuration | pkg/config/config.go:294 | `time.Duration(n) * time.Minute` is in int64 range and exact when the product fits |
| Config.ParseRuntime | pkg/config/config.go:280-296 | a parsed runtime is in int64 range, and an empty string gives a random 60 to 180 minutes |
| Config.MinutesOf | pkg/config/config.go:289-294 | the number part parses exactly when `Atoi` succeeds, to that many minutes |
| Config.ParseRuntimeDecimal | pkg/config/config.go:280-296 | "<n> min" parses to n minutes for every n up to MaxInt64 |
| Config.DigitsHaveNoSpace | pkg/config/config.go:285 | a digit string contains no space |
| Config.ParseRuntimeMinutes | pkg/config/config.go:285-294 | "<num> min" parses as the comma-free number part |
| Config.ParseRuntimeIgnoresCommas | pkg/config/config.go:289 | thousands separators in the number do not change the runtime |
| Config.ParseRuntimeNeedsUnit | pkg/config/config.go:286-287 | a number without a unit is rejected |
| Config.ParseRuntimeNeedsMinutes | pkg/config/config.go:286-287 | any unit other than "min" is rejected |
| Config.MovieFromRecord | pkg/config/config.go:257-269 | a record of at least 11 fields never panics, and an accepted movie has at least one genre and an int64 runtime |
| Config.MovieRecordRoundTrip | pkg/config/config.go:257-269 | a record built from a movie's fields (runtime as "<n> min", genres joined by ", ") is read back as that movie |
| Config.AtoiValue | pkg/config/config.go:214 | `Atoi` with its error dropped gives an int64 value, and 0 on a syntax error |
| Config.VideoFromLine | pkg/config/config.go:211-227 | a line is read exactly when it has at least nine tab-separated parts, and the video has an int64 runtime and at least one genre |
| Config.VideoLineRoundTrip | pkg/config/config.go:211-227 | nine tab-free fields joined by tabs are read back field by field: adult flag, "\N" runtime as 0, n minutes, genres split on commas |
| Config.LoadVideos | pkg/config/config.go:204-234 | loading succeeds exactly when every line after the header reads, and then yields one video per such line, in order |
| Config.Repeat | pkg/config/config.go:271-273 | n copies of a movie |
| Config.IndexMovieContents | pkg/config/config.go:271-273 | indexing a movie appends it to each of its genres' lists once per listing of that genre, and adds no other key |
| Config.IndexMovie | pkg/config/config.go:271-273 | the genres present afterwards are those present before plus the movie's genres, and a genre the movie does not list keeps its list |
| Config.IndexMovieKeepsIndexed | pkg/config/config.go:270-273 | the genre index stays the index of the movie list when a movie is appended to both |
| Config.CountPositive | pkg/config/config.go:271 | a genre occurs in a list exactly when it is counted in it |
| Config.ReadRecord | pkg/config/config.go:249-261 | the CSV reader refuses a record whose field count differs from the first record's, and a record of 11 or more fields never panics |
| Config.LoadAll | pkg/config/config.go:248-276 | loading only appends movies, at most one per record |
| Config.LoadAllIndexed | pkg/config/config.go:248-276 | after loading, the genre index is still the index of the movie list |
| Config.LoadAllPasses | pkg/config/config.go:248-276 | loading succeeds exactly when every record is accepted or skipped for a bad runtime |
| Config.LoadAllMovies | pkg/config/config.go:248-276 | a successful load appends exactly the accepted movies, in file order |
| Config.LoadAllStep | pkg/config/config.go:253-273 | a refused or panicking record stops the load, a skipped one is passed over, an accepted one is appended and indexed |
| Config.AcceptedMovies | pkg/config/config.go:263-270 | at most one movie per record |
| Config.MovieFor | pkg/config/config.go:146-154 | the draw succeeds exactly when a genre key exists and its list is non-empty, and then returns the drawn movie of that genre |
| Config.Config.constructor | pkg/config/config.go:298-299 | a fresh configuration has no movies and an empty genre index |
| Config.Config.LoadMovies | pkg/config/config.go:238-277 | the movie list and genre index are those of `LoadAll` over the records after the header, and the index stays consistent |
| Config.Config.NextMovie | pkg/config/config.go:146-154 | fails exactly when the genre index is empty; otherwise returns a movie of the catalogue that lists the drawn genre |
| Config.Outcomes | pkg/config/config.go:248-261 | one outcome per record, each from `ReadRecord` |
| MapSums.MapSumRemove | pkg/models/state.go:87-90 | the mass of a table is any entry plus the mass of the rest |
| MapSums.SeqSumIsMapSum | pkg/models/state.go:87-90 | summing a table in any enumeration order gives its mass |
| MapSums.SeqSumFrame | pkg/models/state.go:123-128 | the running sum depends only on the entries visited |
| MapSums.MapSumNonNegative | pkg/models/state.go:87-90 | a table of non-negative probabilities has non-negative mass, at least each entry |
| MapSums.MapSumUpdate | pkg/models/state.go:94 | setting an entry changes the mass by the new minus the old probability |
| MapSums.TableBoundPreserved | pkg/models/state.go:91-94 | an accepted transition keeps the table non-negative with mass at most 1.0 |
| Weighted.Weights | pkg/models/weighted_random_thing_generator.go:14-17 | the weights of the items, position by position |
| Weighted.SumSnoc | pkg/models/weighted_random_thing_generator.go:27-28 | adding an item adds its weight to the total |
| Weighted.SumUpdate | pkg/models/weighted_random_thing_generator.go:57-69 | replacing one weight changes the total by the difference |
| Weighted.SumNonNegative | pkg/models/weighted_random_thing_generator.go:36 | non-negative weights have a non-negative total that bounds each weight |
| Weighted.CumFirst | pkg/models/weighted_random_thing_generator.go:40-43 | the first cumulative weight is the first weight |
| Weighted.CumNext | pkg/models/weighted_random_thing_generator.go:40-43 | each cumulative weight adds the next weight |
| Weighted.CumLast | pkg/models/weighted_random_thing_generator.go:40-43 | the last cumulative weight is the total |
| Weighted.CumTail | pkg/models/weighted_random_thing_generator.go:40-43 | cumulative weights of a tail shift by the head |
| Weighted.CumMonotone | pkg/models/weighted_random_thing_generator.go:39-45 | with non-negative weights the cumulative weights never decrease, which is what makes the binary search sound |
| Weighted.FirstAbove | pkg/models/weighted_random_thing_generator.go:39-45 | the reference selection index is at most the number of items |
| Weighted.FirstAboveIsFirst | pkg/models/weighted_random_thing_generator.go:39-45 | every earlier cumulative weight is at most the target, and the chosen one exceeds it |
| Weighted.FirstAboveSelects | pkg/models/weighted_random_thing_generator.go:36-45 | for a target in [0, total) the chosen item exists, has positive weight, and the target falls in its share |
| Weighted.SharesAreDisjoint | pkg/models/weighted_random_thing_generator.go:36-45 | for non-negative weights, a target in item k's share, the `weight(k)` targets just below the running total through item k, selects item k |
| Weighted.TotalWeight | pkg/simulator/simulator.go:184-187 | the summing loop computes the total weight |
| Weighted.BinarySearch | pkg/models/weighted_random_thing_generator.go:39-45 | `sort.Search` returns an index between its bounds |
| Weighted.BinarySearchBoundary | pkg/models/weighted_random_thing_generator.go:39-45 | `sort.Search` keeps the predicate false before its result and true at it |
| Weighted.BinarySearchIsFirstAbove | pkg/models/weighted_random_thing_generator.go:39-45 | for non-negative weights the binary search finds the reference index |
| Weighted.CumulativeWeight | pkg/models/weighted_random_thing_generator.go:40-43 | the inner loop computes the cumulative weight up to i |
| Weighted.SearchIndex | pkg/models/weighted_random_thing_generator.go:39-45 | the search loop returns `sort.Search`'s index, with the predicate false just before it and true at it |
| Weighted.ApplySwaps | pkg/models/weighted_random_thing_generator.go:57-69 | sorting by swaps keeps the length |
| Weighted.ApplySwapsKeeps | pkg/models/weighted_random_thing_generator.go:55-70 | `prepare` permutes the items and keeps the total weight |
| Weighted.SwapKeeps | pkg/models/weighted_random_thing_generator.go:57-69 | one swap permutes the items and keeps the total |
| Weighted.Generator.constructor | pkg/models/weighted_random_thing_generator.go:19-21 | a new chooser is empty, unprepared, with total 0 |
| Weighted.Generator.Add | pkg/models/weighted_random_thing_generator.go:23-29 | fails exactly after first use; otherwise appends the item, keeping the total equal to the sum of weights |
| Weighted.Generator.Prepare | pkg/models/weighted_random_thing_generator.go:55-70 | the items are permuted by the sort's swaps, the total is unchanged, and the chooser is ready |
| Weighted.Generator.RandomThing | pkg/models/weighted_random_thing_generator.go:31-53 | prepares on first use only; fails exactly when the total is not positive; otherwise returns the item at the chosen index |
| Weighted.Chosen | pkg/models/weighted_random_thing_generator.go:47-52 | the index returned is always an item's, with the fallback to the last |
| Weighted.ChosenSelects | pkg/models/weighted_random_thing_generator.go:31-53 | for a legal target the fallback never fires: the chosen item is the reference one, with positive weight, and the target is in its share |
| StateGraph.Merge | pkg/models/state.go:111-120 | the merged table has the keys of both tables |
| StateGraph.WalkFromEnds | pkg/models/state.go:121-129 | the walk finds nothing exactly when p reaches the running total plus the remaining mass |
| StateGraph.WalkFrom | pkg/models/state.go:121-129 | a state the walk finds is one of the enumerated keys, and in the table |
| StateGraph.Walk | pkg/models/state.go:121-129 | a found state is an enumerated key of the table; no keys, no state; a `p` below the first key's probability picks that key |
| StateGraph.SeqSumNonNegative | pkg/models/state.go:121-129 | the running total of non-negative probabilities is non-negative |
| StateGraph.WalkEndsIffBeyondMass | pkg/models/state.go:121-129 | `GetNextState` returns nil exactly when p is at least the table's mass, in any iteration order |
| StateGraph.WalkFromPositive | pkg/models/state.go:121-129 | a state found by the walk is in the table with positive probability |
| StateGraph.WalkNeverPicksZero | pkg/models/state.go:121-129 | `GetNextState` never moves along a zero-probability transition |
| StateGraph.State.constructor | pkg/models/state.go:39-51 | a new state has the given fields and three empty tables |
| StateGraph.State.Combined | pkg/models/state.go:111-120 | the combined table has the keys of the three tables, each probability their sum |
| StateGraph.State.AddTransition | pkg/models/state.go:86-96 | refused exactly when the table's mass plus p passes 1.0; otherwise sets the target's probability; other tables unchanged |
| StateGraph.State.AddLateralTransition | pkg/models/state.go:98-100 | `addTransition` on the lateral table only |
| StateGraph.State.AddUpgradeTransition | pkg/models/state.go:102-104 | `addTransition` on the upgrade table only |
| StateGraph.State.AddDowngradeTransition | pkg/models/state.go:106-108 | `addTransition` on the downgrade table only |
| StateGraph.State.GetNextState | pkg/models/state.go:110-130 | nil exactly when the walk over the combined table finds nothing, otherwise the state it finds |
| StateGraph.Mass | pkg/models/state.go:87-90 | the summing loop computes the table's mass |
| StateGraph.WalkTable | pkg/models/state.go:121-129 | the accumulating loop returns the walk's result |
| StateGraph.MergeSums | pkg/models/state.go:111-120 | merging the three tables into an empty one sums each target's probabilities |
| StateGraph.MergeOf | pkg/models/state.go:111-120 | a table with the keys of both and the summed values is their merge |
| StateGraph.AddAll | pkg/models/state.go:112-114 | one `combinedTransitions[state] += prob` loop computes the merge |
| StateGraph.StateMachine.constructor | pkg/models/state.go:53-57 | no states, no current state, a fresh empty chooser |
| StateGraph.StateMachine.AddState | pkg/models/state.go:59-62 | appends the state, and adds it to the chooser exactly when the chooser is unused |
| StateGraph.StateMachine.UpdateState | pkg/models/state.go:77-84 | moves to the next state when one is drawn, stays otherwise |
| StateGraph.AuthLevelStateMap.constructor | pkg/models/state.go:132-136 | no buckets |
| StateGraph.AuthLevelStateMap.Add | pkg/models/state.go:138-144 | creates the "auth\|level" bucket if missing and appends the state, failing exactly when that bucket was already drawn from; other buckets unchanged |
| StateGraph.AuthLevelStateMap.AddGenerator | pkg/models/state.go:140-142 | a new empty bucket, others unchanged |
| StateGraph.AuthLevelStateMap.Install | pkg/models/state.go:140-142 | a given fresh chooser becomes the key's empty bucket |
| StateGraph.AuthLevelStateMap.AddTo | pkg/models/state.go:143 | appends to an existing bucket exactly when it is unused |
| StateGraph.AuthLevelStateMap.GetRandomState | pkg/models/state.go:146-152 | nil for an unknown bucket; otherwise the bucket is sorted on first use and the drawn item's state returned, failing exactly when its weights sum to 0 or less |
| StateGraph.Bucket | pkg/models/state.go:158-170 | a bucket holds at most one item per page so far |
| StateGraph.BucketFrame | pkg/models/state.go:158-170 | later states do not change the bucket of earlier pages |
| StateGraph.BucketEmpty | pkg/models/state.go:158-170 | a bucket is empty exactly when no page so far has its auth and level |
| StateGraph.LookupFrame | pkg/models/state.go:169 | later states do not change the page lookup of earlier pages |
| StateGraph.LookupKeys | pkg/models/state.go:169 | a page name is looked up exactly when some page has it, and maps to one of the states built |
| StateGraph.LookupLastWins | pkg/models/state.go:169 | a page name maps to the state of its last page |
| StateGraph.Laterals | pkg/models/state.go:172-180 | the lateral tables of the built states |
| StateGraph.Step | pkg/models/state.go:173-179 | one configured transition changes no state's presence |
| StateGraph.ApplyTransitions | pkg/models/state.go:172-180 | applying the configured transitions changes no state's presence |
| StateGraph.StepWithinMass | pkg/models/state.go:173-179 | one configured transition keeps every lateral table's mass within 1.0 |
| StateGraph.ApplyTransitionsWithinMass | pkg/models/state.go:172-180 | every lateral table of the built graph has mass at most 1.0, provided every configured probability is non-negative |
| StateGraph.EmptyTables | pkg/models/state.go:47 | every new state's lateral table is empty |
| StateGraph.InitialTablesWithinMass | pkg/models/state.go:154-183 | the initial graph respects the mass bound |
| StateGraph.BuiltStep | pkg/models/state.go:158-170 | one page keeps the construction invariant |
| StateGraph.LookupStep | pkg/models/state.go:169 | one page updates the lookup at its name |
| StateGraph.MadeForStep | pkg/models/state.go:159-166 | one page's state carries that page's fields |
| StateGraph.BucketsStep | pkg/models/state.go:168 | one page appends to its bucket only |
| StateGraph.AddPageState | pkg/models/state.go:159-168 | a fresh state with the page's fields, appended to its bucket |
| StateGraph.RegisterPage | pkg/models/state.go:158-170 | one loop iteration keeps the construction invariant |
| StateGraph.RegisterPages | pkg/models/state.go:158-170 | the first loop builds one state per page and buckets them |
| StateGraph.AddConfiguredTransitions | pkg/models/state.go:172-180 | the lateral tables become those of applying the transitions; upgrades and downgrades are untouched |
| StateGraph.AddConfiguredTransition | pkg/models/state.go:173-179 | one transition is added between looked-up endpoints, only when both exist |
| StateGraph.InitializeStatesWithAuthLevel | pkg/models/state.go:154-183 | one fresh state per page; buckets for exactly the pages' auth and level, each holding its pages' states and weights in order; lateral tables from the configured transitions |
| StateGraph.BlankLaterals | pkg/models/state.go:47 | blank states have empty lateral tables |
| Sessions.Counter.constructor | pkg/models/session.go:82 | the counter starts at 0 |
| Sessions.Counter.Next | pkg/models/session.go:86-91 | increments with int64 wrap-around and returns the new value, one more than before short of overflow |
| Sessions.AdStarted | pkg/models/session.go:191-206 | a 30-second ad starting now, its impression due when the ad ends, last-ad time now; walk position kept |
| Sessions.ImpressionScheduled | pkg/models/session.go:208-216 | next event five seconds from now, the ad ending on a draw of 0.8 or more; position kept |
| Sessions.AdFinished | pkg/models/session.go:218-222 | ad cleared, "NextVideo" a minute from now; position kept |
| Sessions.AdSequenceStarted | pkg/models/session.go:331-351 | an ad of the given type starting now, "AdStart" due at once, last-ad time now; position kept |
| Sessions.AdvanceFacts | pkg/models/session.go:132-181 | the session finishes exactly when no state is drawn; only `NextVideo` can fail; a move advances one item; ad events keep the position; a non-negative think time never moves time back |
| Sessions.NextVideoStep | pkg/models/session.go:143-162 | it fails exactly when there is no current movie (the runtime read at line 159 goes through nil) or no next movie; otherwise the new movie ends its runtime after the next event, the previous state is the old current one, and the walk advances one item; a failure changes only the next event time; a non-negative think time never moves time back |
| Sessions.NextVideoStepFixed | pkg/models/session.go:145-148 | the corrected step fails only when no movie can be drawn, agrees with the code whenever a movie is playing, and without one waits the think time and plays the drawn movie |
| Sessions.NextVideoWithoutMovieFails | pkg/models/session.go:145-159 | with no current movie, a move to `NextVideo` fails as written even when a movie could be drawn, and the corrected step plays it |
| Sessions.Since | pkg/models/session.go:370 | `time.Since` is the difference when it fits in int64; above the range it is the largest int64, below it the smallest |
| Sessions.SinceZeroTimeSaturates | pkg/models/session.go:370 | from 1970 on, the time since the zero `time.Time` saturates to the largest int64 |
| Sessions.FreshSessionPassesCooldown | pkg/models/session.go:369-370 | a fresh session, whose last ad time is the zero time, passes any pre-roll cooldown a `Duration` can hold |
| Sessions.InWindowExact | pkg/models/session.go:381 | the window test is exactly bp < elapsed < bp + window |
| Sessions.NextStartWholeSeconds | pkg/models/session.go:467-470 | the next start is the last one plus a whole number of seconds, the truncated gap plus sample |
| Sessions.NextStartTime | pkg/models/session.go:467-470 | the step is an int64 duration; a gap plus sample of under a second in size does not move the start; one of at least a second (and not enough to wrap) moves it by at least a second |
| Sessions.FirstTimeStamp | pkg/models/session.go:479-488 | a warm-up result lies after the threshold |
| Sessions.FirstTimeStampArrives | pkg/models/session.go:479-488 | with gaps of at least a second and enough samples, the warm-up loop terminates |
| Sessions.FirstTimeStampStalls | pkg/models/session.go:479-488 | when every step truncates to zero seconds, a candidate at or before the threshold never passes it, for any number of samples |
| Sessions.FirstTimeStampNeverArrivesWithoutBeta | pkg/models/session.go:474-488 | with `beta` 0 the warm-up starts at its threshold and every sample is 0, so with a session gap under a second the loop never ends |
| Sessions.PickFirstTimeStamp | pkg/models/session.go:479-488 | the loop returns the warm-up result, a start after `start - beta` seconds |
| Sessions.Session.constructor | pkg/models/session.go:106-121 | the struct literal of a new session |
| Sessions.Session.IncrementEvent | pkg/models/session.go:132-181 | with no current state it fails (nil dereference); otherwise the session becomes `Advance` of the drawn next state |
| Sessions.Session.Apply | pkg/models/session.go:134-180 | the switch on the next state |
| Sessions.Session.PlayNextVideo | pkg/models/session.go:143-162 | the `NextVideo` case |
| Sessions.Session.StartAd | pkg/models/session.go:191-206 | `startAd` |
| Sessions.Session.ScheduleNextAdImpression | pkg/models/session.go:208-216 | `scheduleNextAdImpression` |
| Sessions.Session.FinishAdAndResumeContent | pkg/models/session.go:218-222 | `finishAdAndResumeContent` |
| Sessions.Session.StartAdSequence | pkg/models/session.go:331-351 | `startAdSequence` |
| Sessions.Session.ShouldInsertPreRollAd | pkg/models/session.go:369-375 | true exactly when the cooldown has elapsed and the draw is under the frequency, and then the last-ad time becomes now; nothing else changes |
| Sessions.Session.ShouldInsertMidRollAd | pkg/models/session.go:378-386 | fails without current content (nil dereference); otherwise true exactly when some breakpoint's window holds the elapsed time |
| Sessions.Session.IsDone | pkg/models/session.go:388-399 | done exactly when finished, or when no content and no ad is playing and the next event is overdue (`now` after it); so a session whose next event is not yet due is done only if finished |
| Sessions.Session.MarkAsFinished | pkg/models/session.go:401-404 | only `finished` changes, and the session is then done |
| Sessions.Session.NextSession | pkg/models/session.go:125-130 | a new session after the next start time, sharing alpha, beta, graph, auth, level and configuration; it fails exactly as `NewSession` does |
| Sessions.NewSession | pkg/models/session.go:93-122 | fails exactly when the bucket is missing, empty or weightless, or a `NextVideo` start finds no movie; otherwise a fresh session on the drawn state with the next ID; a `NextVideo` start plays a movie ending its runtime later |
| Sessions.DrawState | pkg/models/session.go:96 | draws from the bucket, failing exactly when it is missing, empty or weightless |
| Sessions.OpenOn | pkg/models/session.go:97-121 | fails exactly when the state is `NextVideo` and no movie can be drawn; otherwise the new session with the next ID |
| Lifecycle.Churns | pkg/models/user.go:208-213 | an anonymous state always churns; without an attrition rate only an anonymous state churns; a draw under the rate churns |
| Users.Pop | pkg/models/user.go:53-60 | nothing from an empty queue, otherwise the head with the rest left |
| Users.DrainInOrder | pkg/models/user.go:49-60 | dequeuing until empty yields the items in enqueue order |
| Users.EnqueuedComesLast | pkg/models/user.go:49-51 | an enqueued item is dequeued after all earlier ones |
| Users.SliceQueue.constructor | pkg/models/user.go:45-47 | an empty queue |
| Users.SliceQueue.Enqueue | pkg/models/user.go:49-51 | appends the item |
| Users.SliceQueue.Dequeue | pkg/models/user.go:53-60 | removes and returns the head, or reports empty |
| Users.UserQueue.constructor | pkg/models/user.go:67-71 | a fresh empty slice queue |
| Users.UserQueue.Enqueue | pkg/models/user.go:73-75 | appends the user |
| Users.UserQueue.Dequeue | pkg/models/user.go:77-83 | removes and returns the first user, reporting empty exactly when the queue was |
| Users.AdjustedCounts | pkg/models/user.go:311-319 | after adjusting, a genre is present exactly when it was or the video lists it, with its weight raised by the number of listings |
| Users.User.constructor | pkg/models/user.go:179-201 | the struct literal of a new user |
| Users.User.NextEvent | pkg/models/user.go:205-221 | with no current state it fails and nothing changes; otherwise one event; when the session is then done it churns (next event at the zero time) or moves to the next session; the genre preferences and the state map object stay, and the session counter and the choosers move only when a next session is drawn |
| Users.User.ChurnOrContinue | pkg/models/user.go:207-220 | a churned session keeps its data, its next event time becomes the zero time, and the counter and choosers do not move; otherwise the next session replaces it after one draw from its chooser and one session ID, or a refusal leaves it and takes no ID |
| Users.User.OpenNext | pkg/models/user.go:217-218 | the current session is replaced by the one `NextSession` opens (one draw from the chooser, the counter one up), or on a refusal stays, with the counter where it was |
| Users.User.Serialize | pkg/models/user.go:231-308 | fails exactly on a nil current state, a `NextVideo` without a movie, or an ad page without an ad; otherwise each page goes to its topic (auth, watch, listen, ad, page views) with the base fields of the session, stamped with the Unix second that holds `now` (rounded down, as `Unix()` does) |
| Users.User.AdjustGenrePreferences | pkg/models/user.go:311-319 | each genre of the video gains one per listing; genres are added with weight 1 the first time |
| Users.PageWeights | pkg/models/state.go:158-168 | the weights of the pages in one bucket |
| Users.BucketWeights | pkg/models/state.go:168 | a bucket's weights are its pages' weights |
| Users.BucketMember | pkg/models/state.go:168 | every item of a bucket is a page of that bucket with its weight |
| Users.PickedStartsOn | pkg/models/user.go:176-177 | the first session starts on one of its bucket's configured pages |
| Users.FreshChooser | pkg/models/user.go:176-177 | a bucket of the fresh graph has the total weight of its pages, and a missing bucket has none |
| Users.BuildGraph | pkg/models/user.go:176 | the graph is built for the configured pages, with the user's bucket of their weights |
| Users.OpenFirstSession | pkg/models/user.go:175-177 | fails when the user's pages have no weight; succeeds when they have some and a movie can be drawn; the session starts on one of the user's pages at the warm-up time |
| Users.NewUser | pkg/models/user.go:162-202 | fails when the warm-up runs out or the first session fails; otherwise a fresh user with the next user ID, the given fields and a first session begun at the warm-up time |
| Users.ReachedIndex | pkg/models/user.go:342-347 | the index where the running remainder first reaches 0 or below |
| Users.ReachedIndexIsFirst | pkg/models/user.go:342-347 | it is the first index whose cumulative weight reaches the draw, and one exists for a draw in range |
| Users.ReachedIndexPicksZeroWeight | pkg/models/user.go:342-347 | with weights [0, 1] and draw 0 the code picks the zero-weight video, where the reference rule picks index 1 |
| Users.ReachedIndexNeverPicksLast | pkg/models/user.go:342-347 | with weights [1, 1] both possible draws stop at index 0, so the second video is never picked, where the reference rule picks each for one draw |
| Users.WeightedRandomSelect | pkg/models/user.go:334-350 | as written: fails exactly when the total is not positive or the reached index has no video; otherwise the video at the reached index, or nil |
| Users.WeightedRandomSelectFixed | pkg/models/user.go:334-350 | the intended rule: the first index whose cumulative weight exceeds the draw, which for non-negative weights has positive weight |
| Simulator.PreferenceWeights | pkg/simulator/simulator.go:185-187 | the weights of the preferences |
| Simulator.ContentWeights | pkg/simulator/simulator.go:226-228 | the weights of the content types |
| Simulator.PreferredSelects | pkg/simulator/simulator.go:183-196 | for a legal draw the fallback never fires: the chosen preference is the reference one, with positive weight, and the draw is in its share |
| Simulator.SelectRandomPreference | pkg/simulator/simulator.go:183-196 | fails exactly when the total is not positive; otherwise the preference the remainder loop stops at |
| Simulator.ContentPickedSelects | pkg/simulator/simulator.go:229-237 | for a legal draw the running-sum loop stops at the reference index, never at the "audio" default |
| Simulator.PickContentType | pkg/simulator/simulator.go:224-238 | fails exactly when the total is not positive; otherwise the type the running sum first exceeds the draw at |
| Simulator.SelectedNameSelects | pkg/simulator/simulator.go:210-216 | for a legal draw a positive-weight preference is selected, the same as `selectRandomPreference` |
| Simulator.SelectRandomPreferences | pkg/simulator/simulator.go:202-219 | fails exactly for a negative count, or a positive count with no weight; otherwise count names, each the selection of its own draw |
| Simulator.GenreWeightsKeys | pkg/simulator/simulator.go:161-169 | the map has exactly the configured genre names |
| Simulator.GenreWeightsLastWins | pkg/simulator/simulator.go:163-167 | a repeated name keeps its last entry's weight |
| Simulator.GenreWeightsFactor | pkg/simulator/simulator.go:163-167 | every weight is a configured weight times a factor from 1 to 10 |
| Simulator.GenerateRandomGenrePreferences | pkg/simulator/simulator.go:161-169 | the loop builds the genre map |
| Simulator.ConvertedEntries | pkg/simulator/simulator.go:171-181 | one preference per chance, same name, weight the truncated percentage: within one below it, and 0 to 100 for a chance in [0, 1] |
| Simulator.Converted | pkg/simulator/simulator.go:171-181 | one preference per chance, in order, named by the chance's type |
| Simulator.ConvertedTotal | pkg/simulator/simulator.go:171-181 | truncation loses less than one point of total weight per chance |
| Simulator.ConvertToPreferences | pkg/simulator/simulator.go:171-181 | the loop fills the slice with the conversion |
| Simulator.WeightedRandomSubscriptionType | pkg/simulator/simulator.go:155-158 | fails exactly when the converted weights total 0 or less; otherwise the selected subscription type |
| Simulator.Simulator.constructor | pkg/simulator/simulator.go:50-57 | a fresh empty user queue |
| Simulator.Simulator.CreateUser | pkg/simulator/simulator.go:119-140 | fails when the levels or auth levels have no weight; otherwise a fresh user, i minutes after the start, on the drawn level and auth, with randomized genre weights and log-normal alpha and beta |
| Simulator.LogNormal | pkg/simulator/simulator.go:114-116 | the sample lies above (below) the mean exactly when the normal draw is positive (negative), and it is negative exactly when the draw is below minus twice the mean: it is a normal sample with deviation 0.5, not exponentiated, so not log-normal |
| Simulator.Simulator.InitializeUsers | pkg/simulator/simulator.go:118-144 | appends one created user per index in order, keeping the queue's prefix; succeeds with exactly `NUsers` users (none for a negative count); no weighted level or auth level means no user at all |

## Left out

- `time.Now()` is a parameter: one instant serves every reading within an operation, and wall-clock drift between the readings is not modelled.
- The exponential sample added to `NextEventTime` is read as a whole number of nanoseconds (`time.Duration(seconds)`), as the code does.
- Floating point is modelled as exact reals. Rounding, NaN and the result of an out-of-range float-to-int conversion are not modelled.
- Overflow is not modelled for `ItemInSession`, genre-preference counts, `genre.Weight * randomFactor` and weight totals. The ID counters and `Duration * Minute` do wrap.
- Users.User.Serialize: the JSON encoding, the device and faker properties and `SessionDuration` are not modelled. So `Serialize` states only the routing, the base fields with the timestamp, and the success flag; it never returns a marshalling error.
- Serialize's call to `handleAdEvent` when an ad page has no ad is modelled as the failure it ends in (a nil `CurrentAd` is dereferenced). Its schedule changes before that point are not kept.
- `IncrementEvent_Old`, `handleTransition`, `handleContent`, `scheduleNextAdImpression_Old`, `HandleNextVideoEvent`, `StartVideo`, `CheckVideoProgress`, `ShouldContinueSession` and the log-only `Session.EndSession` are left out: nothing that `RunSimulation` reaches calls them. `handleAdEvent` and the `scheduleNextEvent` it calls are reached through `Serialize` (pkg/models/user.go:282, pkg/models/session.go:294); they are modelled only as far as the nil `CurrentAd` failure described above, and `scheduleNextEventAt` is not reached.
- `CurrentContent` is never assigned by the code, so it is a fixed field of the session: `IsDone` and `shouldInsertMidRollAd` read it, and nothing writes it.
- Sessions.PickFirstTimeStamp: the Go loop draws exponential samples until it arrives. The model takes a finite list of samples and returns `None` when they run out; `FirstTimeStampArrives` gives enough samples for arrival. The Go loop need not arrive at all: with `beta` 0 and a session gap under a second it never ends (`FirstTimeStampNeverArrivesWithoutBeta`).
- StateGraph.InitializeStatesWithAuthLevel: the local `StateMachine` it fills and then discards has no effect and is not built. A refused transition is only logged, so it is modelled as skipped.
- `WatchVideo` and `DecidesToContinueWatching` are a one-line call and a single uniform draw. They are not modelled separately.
- `RunSimulation`, `showProgress`, the output sinks (file, Kafka, console) and `determineOutputDestination` are left out as I/O. The `Simulator.Users` slice and its RNG field are left out because nothing in the core reads them.
- `LoadConfig` (YAML/JSON through Viper), file opening, gzip and `bufio.Scanner` errors are left out as I/O. The loaders take the lines or CSV records as values.
- Go's map iteration order is a parameter: the enumeration of keys in `GetNextState`, `addTransition` and `NextMovie`. `sort.Slice` in `prepare` is modelled by the swaps it performs.
- Simulator.GenerateRandomGenrePreferences: does not model the int64 wrap of `weight * factor`.
- The bound of 1.0 on transition probability is checked per table (lateral, upgrade, downgrade), as the code does. So the combined table that `GetNextState` walks for a state can carry a mass of up to 3.0.
- `randomViewingHours` (pkg/simulator/simulator.go:198-200) is a single `rand.Intn(41)` draw, 0 to 40 hours, that nothing in the code calls; it is not modelled.
- The chooser's `Add` does not reject non-positive weights, as the code does; only `RandomThing` fails when the total is not positive.

## Findings

| source | as written | input that shows it | evidently intended | confidence | as-written member | corrected member |
|---|---|---|---|---|---|---|
| pkg/models/user.go:342-347 | the remainder is tested with `r <= 0` after subtracting, so the first index whose cumulative weight *reaches* the draw is chosen | weights [1, 1], draws 0 and 1 (all that `Intn(2)` gives): index 0 both times, so the second video is never chosen; weights [0, 1], draw 0: index 0, a video of weight 0, is returned | choose the first index whose cumulative weight *exceeds* the draw, which never has weight 0 | not executed | Users.ReachedIndexNeverPicksLast | Users.WeightedRandomSelectFixed |
| pkg/models/session.go:145-159 | on a move to `NextVideo` with no current movie, the branch at lines 145-148 waits the think time but draws no movie, and line 159 reads `CurrentMovie.RuntimeMinutes` through nil | a session that opened on a page other than `NextVideo` (so `CurrentMovie` is nil) whose walk then draws a `NextVideo` state, with a catalogue that has movies: a nil dereference | draw the next movie on that branch, as the other two branches do | not executed | Sessions.NextVideoWithoutMovieFails | Sessions.NextVideoStepFixed |

=== FILE: config.dfy ===
/** The simulator's configuration and its content catalogue: the settings
    record, the movie list with its genre index, the parsers for the movie CSV
    records and the IMDb title lines, and the random choice of the next
    movie. */
module Config {
  import opened Wrappers
  import opened GoNum
  import opened Text
  import opened MapSums

  datatype ContentType = ContentType(kind: string, weight: int)
  datatype Preference = Preference(name: string, weight: int)
  datatype SubscriptionChance = SubscriptionChance(kind: string, chance: real)

  /** A page a new session may start on, with its weight. */
  datatype SessionPage =
    SessionPage(page: string, httpMethod: string, status: int, auth: string, level: string, weight: int)

  /** The identity of a state of the page graph. */
  datatype StateConfig = StateConfig(page: string, httpMethod: string, status: int, auth: string, level: string)

  datatype Transition = Transition(source: StateConfig, dest: StateConfig, p: real)

  /** Advertising settings; the two durations are in nanoseconds. */
  datatype AdConfig = AdConfig(
    audioAdFrequency: real,
    videoAdFrequency: real,
    preRollFrequency: real,
    preRollCooldown: int,
    midRollWindow: int)

  /** A movie of the catalogue; `runtime` is a duration in nanoseconds. */
  datatype Movie = Movie(movieId: string, name: string, runtime: int, genres: seq<string>, star: string)

  /** A title of the IMDb basics file; `runtime` is a duration in nanoseconds. */
  datatype Video = Video(
    id: string,
    titleType: string,
    primaryTitle: string,
    originalTitle: string,
    isAdult: bool,
    startYear: string,
    endYear: string,
    runtime: int,
    genres: seq<string>)

  /** The settings the core reads and never changes. `startTime` is an instant
      in nanoseconds since the Unix epoch. */
  datatype Settings = Settings(
    alpha: real,
    beta: real,
    sessionGap: real,
    nUsers: int,
    startTime: int,
    attritionRate: real,
    contentTypes: seq<ContentType>,
    adConfig: AdConfig,
    genres: seq<Preference>,
    levels: seq<Preference>,
    authLevels: seq<Preference>,
    subscriptionChances: seq<SubscriptionChance>,
    newSessionPages: seq<SessionPage>,
    transitions: seq<Transition>)

  /** `time.Duration(n) * time.Minute`, with int64 wrap-around. */
  function MinutesDuration(n: int): (d: int)
    ensures InInt64(d)
    ensures InInt64(n * Minute) ==> d == n * Minute
  {
    Wrap64(n * Minute)
  }

  // ---------------------------------------------------------------------
  // parseRuntime

  /** `parseRuntime(s)`: an empty runtime is a random 60..180 minutes (`draw`
      is the `rand.Intn(121)` it takes); otherwise `s` must be two fields, a
      number that may contain thousands commas and the word "min". */
  function ParseRuntime(s: string, draw: int): (r: Result<int>)
    requires 0 <= draw < 121
    ensures r.Ok? ==> InInt64(r.value)
    ensures s == [] ==> r.Ok? && 60 * Minute <= r.value <= 180 * Minute
  {
    if s == [] then Ok(MinutesDuration(draw + 60))
    else
      var parts := Fields(s);
      if |parts| != 2 || parts[1] != "min" then Err("invalid runtime format")
      else MinutesOf(RemoveAll(parts[0], ','))
  }

  /** The duration of the number of minutes written in `digits`, or Atoi's
      error. */
  function MinutesOf(digits: string): (r: Result<int>)
    ensures r.Ok? <==> Atoi(digits).Parsed?
    ensures r.Ok? ==> r.value == MinutesDuration(Atoi(digits).n)
  {
    match Atoi(digits)
    case Parsed(n) => Ok(MinutesDuration(n))
    case SyntaxError => Err("invalid syntax")
    case RangeError(_) => Err("value out of range")
  }

  /** A runtime written as a decimal number of minutes followed by " min" is
      read back as that many minutes. */
  lemma ParseRuntimeDecimal(n: nat, draw: int)
    requires n <= MaxInt64 && 0 <= draw < 121
    ensures ParseRuntime(DecimalString(n) + " min", draw) == Ok(MinutesDuration(n))
  {
    var num := DecimalString(n);
    DigitsHaveNoSpace(num);
    FieldsOfTwoWords(num, "min", num + " min");
    assert RemoveAll(num, ',') == num by {
      forall i | 0 <= i < |num| ensures num[i] != ',' {
        assert IsDigit(num[i]);
      }
    }
    AtoiDecimalString(n);
  }

  lemma DigitsHaveNoSpace(s: string)
    requires AllDigits(s)
    ensures NoSpace(s)
  {
    forall i | 0 <= i < |s| ensures !IsSpace(s[i]) {
      assert IsDigit(s[i]);
    }
  }

  /** A runtime of the form "N min" is the duration of the number N, read
      with its commas removed. */
  lemma ParseRuntimeMinutes(num: string, draw: int)
    requires 0 <= draw < 121
    requires num != [] && NoSpace(num)
    ensures ParseRuntime(num + " min", draw) == MinutesOf(RemoveAll(num, ','))
  {
    FieldsOfTwoWords(num, "min", num + " min");
  }

  /** Thousands separators are dropped: a number with commas reads as the
      same number without them. */
  lemma ParseRuntimeIgnoresCommas(num: string, draw: int)
    requires 0 <= draw < 121
    requires num != [] && NoSpace(num) && RemoveAll(num, ',') != []
    ensures ParseRuntime(num + " min", draw) == ParseRuntime(RemoveAll(num, ',') + " min", draw)
  {
    var t := RemoveAll(num, ',');
    ParseRuntimeMinutes(num, draw);
    RemoveAllNoSpace(num, ',');
    ParseRuntimeMinutes(t, draw);
  }

  /** A number without a unit is refused. */
  lemma ParseRuntimeNeedsUnit(num: string, draw: int)
    requires 0 <= draw < 121
    requires num != [] && NoSpace(num)
    ensures ParseRuntime(num, draw).Err?
  {
    FieldsOfLastWord(num);
  }

  /** A unit other than "min" is refused. */
  lemma ParseRuntimeNeedsMinutes(num: string, unit: string, draw: int)
    requires 0 <= draw < 121
    requires num != [] && NoSpace(num) && unit != [] && NoSpace(unit) && unit != "min"
    ensures ParseRuntime(num + " " + unit, draw).Err?
  {
    FieldsOfSpacedWords(num, unit);
  }

  // ---------------------------------------------------------------------
  // One CSV record of the movie files

  /** What the loader does with one record: keep the movie, skip the record
      (a runtime that does not parse is logged and skipped), panic (a record
      too short for the fields read), or stop with the CSV reader's error. */
  datatype RecordOutcome =
    | Accepted(movie: Movie)
    | Skipped(reason: string)
    | Panicked(reason: string)
    | Refused(reason: string)

  /** The movie of one CSV record: id, name, runtime (field 4), the genres
      (field 5, separated by ", ") and the star (field 10). */
  function MovieFromRecord(record: seq<string>, draw: int): (o: RecordOutcome)
    requires 0 <= draw < 121
    ensures |record| >= 11 ==> !o.Panicked?
    ensures o.Accepted? ==> |o.movie.genres| >= 1 && InInt64(o.movie.runtime)
  {
    if |record| <= 4 then Panicked("index out of range")
    else
      match ParseRuntime(record[4], draw)
      case Err(e) => Skipped(e)
      case Ok(runtime) =>
        if |record| <= 10 then Panicked("index out of range")
        else Accepted(Movie(record[0], record[1], runtime, Split(record[5], ", "), record[10]))
  }

  /** Writing a movie out as a record (runtime as "N min", genres joined with
      ", ") and reading it back gives the same movie. */
  lemma MovieRecordRoundTrip(m: Movie, minutes: nat, record: seq<string>, draw: int)
    requires 0 <= draw < 121 && minutes <= MaxInt64
    requires m.runtime == MinutesDuration(minutes)
    requires |m.genres| >= 1 && forall i :: 0 <= i < |m.genres| ==> ',' !in m.genres[i]
    requires |record| >= 11
    requires record[0] == m.movieId && record[1] == m.name && record[10] == m.star
    requires record[4] == DecimalString(minutes) + " min"
    requires record[5] == Join(m.genres, ", ")
    ensures MovieFromRecord(record, draw) == Accepted(m)
  {
    ParseRuntimeDecimal(minutes, draw);
    SplitJoin(m.genres, ", ");
  }

  // ---------------------------------------------------------------------
  // One line of the IMDb title file

  /** The int `strconv.Atoi` hands back even when it reports an error: 0 on a
      syntax error and the clamped value on a range error. */
  function AtoiValue(s: string): (n: int)
    ensures InInt64(n)
    ensures Atoi(s).SyntaxError? ==> n == 0
  {
    match Atoi(s)
    case Parsed(n) => n
    case SyntaxError => 0
    case RangeError(c) => c
  }

  /** The video of one tab-separated title line; a line with fewer than nine
      fields makes the loader panic. The runtime error is ignored, so a
      runtime of "\N" is zero minutes. */
  function VideoFromLine(line: string): (r: Result<Video>)
    ensures r.Ok? <==> |Split(line, "\t")| >= 9
    ensures r.Ok? ==> InInt64(r.value.runtime) && |r.value.genres| >= 1
  {
    var parts := Split(line, "\t");
    if |parts| < 9 then Err("index out of range")
    else
      Ok(Video(
        parts[0], parts[1], parts[2], parts[3], parts[4] == "1", parts[5], parts[6],
        MinutesDuration(AtoiValue(parts[7])), Split(parts[8], ",")))
  }

  /** A line written as nine tab-free fields is read back field by field;
      "1" in the fifth field and only "1" marks an adult title, and the
      runtime is the number of minutes written or zero for "\N". */
  lemma VideoLineRoundTrip(fields: seq<string>)
    requires |fields| == 9 && forall i :: 0 <= i < 9 ==> '\t' !in fields[i]
    ensures VideoFromLine(Join(fields, "\t")).Ok?
    ensures
      var v := VideoFromLine(Join(fields, "\t")).value;
      v.id == fields[0] && v.titleType == fields[1] && v.primaryTitle == fields[2]
      && v.originalTitle == fields[3] && (v.isAdult <==> fields[4] == "1")
      && v.startYear == fields[5] && v.endYear == fields[6]
      && v.genres == Split(fields[8], ",")
      && (fields[7] == "\\N" ==> v.runtime == 0)
      && (forall n: nat :: n <= MaxInt64 && fields[7] == DecimalString(n) ==> v.runtime == MinutesDuration(n))
  {
    SplitJoin(fields, "\t");
    forall n: nat | n <= MaxInt64 && fields[7] == DecimalString(n)
      ensures AtoiValue(fields[7]) == n
    {
      AtoiDecimalString(n);
    }
    assert Atoi("\\N") == SyntaxError;
  }

  /** `LoadVideosFromIMDb` after the file has been read into lines: the
      header line is skipped and every other line becomes a video, in order;
      the first short line panics. */
  method LoadVideos(lines: seq<string>) returns (r: Result<seq<Video>>)
    ensures r.Ok? <==> forall i :: 1 <= i < |lines| ==> VideoFromLine(lines[i]).Ok?
    ensures r.Ok? ==> |r.value| == if lines == [] then 0 else |lines| - 1
    ensures r.Ok? ==> forall i :: 0 <= i < |r.value| ==> VideoFromLine(lines[i + 1]) == Ok(r.value[i])
  {
    var videos: seq<Video> := [];
    if lines == [] {
      return Ok(videos);
    }
    var k := 1;
    while k < |lines|
      invariant 1 <= k <= |lines|
      invariant |videos| == k - 1
      invariant forall i :: 1 <= i < k ==> VideoFromLine(lines[i]).Ok?
      invariant forall i :: 0 <= i < |videos| ==> VideoFromLine(lines[i + 1]) == Ok(videos[i])
    {
      var v := VideoFromLine(lines[k]);
      if v.Err? {
        return Err(v.error);
      }
      videos := videos + [v.value];
      k := k + 1;
    }
    return Ok(videos);
  }

  // ---------------------------------------------------------------------
  // The genre index

  /** The movies listed under genre `g`; a missing genre has none. */
  function Lookup(gm: map<string, seq<Movie>>, g: string): seq<Movie> {
    if g in gm then gm[g] else []
  }

  /** How often `g` occurs in `gs`. */
  function Count(gs: seq<string>, g: string): nat {
    if gs == [] then 0 else (if gs[0] == g then 1 else 0) + Count(gs[1..], g)
  }

  function Repeat(m: Movie, n: nat): (ms: seq<Movie>)
    ensures |ms| == n && forall i :: 0 <= i < n ==> ms[i] == m
  {
    if n == 0 then [] else [m] + Repeat(m, n - 1)
  }

  /** Appending movie `m` to the list of each genre of `gs`, in order. */
  function IndexMovie(gm: map<string, seq<Movie>>, m: Movie, gs: seq<string>): (r: map<string, seq<Movie>>)
    ensures forall g :: g in r <==> g in gm || g in gs
    ensures forall g :: g !in gs && g in gm ==> r[g] == gm[g]
    decreases |gs|
  {
    if gs == [] then gm else IndexMovie(gm[gs[0] := Lookup(gm, gs[0]) + [m]], m, gs[1..])
  }

  /** Indexing a movie adds one copy of it to each genre per listing of that
      genre, and touches no other genre. */
  lemma {:induction false} IndexMovieContents(gm: map<string, seq<Movie>>, m: Movie, gs: seq<string>, g: string)
    ensures Lookup(IndexMovie(gm, m, gs), g) == Lookup(gm, g) + Repeat(m, Count(gs, g))
    ensures g in IndexMovie(gm, m, gs) <==> g in gm || Count(gs, g) > 0
    decreases |gs|
  {
    if gs != [] {
      var gm' := gm[gs[0] := Lookup(gm, gs[0]) + [m]];
      IndexMovieContents(gm', m, gs[1..], g);
      if gs[0] == g {
        assert Repeat(m, Count(gs, g)) == [m] + Repeat(m, Count(gs[1..], g));
      }
    }
  }

  /** Every movie of the index is in the movie list and lists the genre it is
      filed under, and no genre has an empty list. */
  ghost predicate IndexedFrom(gm: map<string, seq<Movie>>, movies: seq<Movie>) {
    forall g :: g in gm ==> gm[g] != [] && forall i :: 0 <= i < |gm[g]| ==> gm[g][i] in movies && g in gm[g][i].genres
  }

  lemma IndexMovieKeepsIndexed(gm: map<string, seq<Movie>>, movies: seq<Movie>, m: Movie)
    requires IndexedFrom(gm, movies)
    ensures IndexedFrom(IndexMovie(gm, m, m.genres), movies + [m])
  {
    var gm': map<string, seq<Movie>> := IndexMovie(gm, m, m.genres);
    forall g: string | g in gm'
      ensures gm'[g] != [] && forall i :: 0 <= i < |gm'[g]| ==> gm'[g][i] in movies + [m] && g in gm'[g][i].genres
    {
      IndexMovieContents(gm, m, m.genres, g);
      var c := Count(m.genres, g);
      if c > 0 {
        CountPositive(m.genres, g);
      }
      forall i | 0 <= i < |gm'[g]| ensures gm'[g][i] in movies + [m] && g in gm'[g][i].genres {
        if i < |Lookup(gm, g)| {
          assert gm'[g][i] == gm[g][i];
        } else {
          assert gm'[g][i] == m;
          CountPositive(m.genres, g);
        }
      }
    }
  }

  lemma {:induction false} CountPositive(gs: seq<string>, g: string)
    ensures Count(gs, g) > 0 <==> g in gs
    decreases |gs|
  {
    if gs != [] {
      CountPositive(gs[1..], g);
      assert g in gs <==> gs[0] == g || g in gs[1..];
    }
  }

  // ---------------------------------------------------------------------
  // Loading the movie CSV files

  /** One record as the loader sees it: `encoding/csv` refuses a record whose
      field count differs from the header's (`width`); otherwise the record
      is parsed. */
  function ReadRecord(width: nat, record: seq<string>, draw: int): (o: RecordOutcome)
    requires 0 <= draw < 121
    ensures o.Refused? <==> |record| != width
    ensures width >= 11 ==> !o.Panicked?
  {
    if |record| != width then Refused("wrong number of fields") else MovieFromRecord(record, draw)
  }

  /** The catalogue after a sequence of record outcomes: the movies kept, the
      genre index, and whether the load finished (`Pass`) or stopped at a
      refused record or a panic (`Fail`). */
  datatype Loaded = Loaded(movies: seq<Movie>, genreMap: map<string, seq<Movie>>, outcome: Outcome)

  function LoadAll(movies: seq<Movie>, gm: map<string, seq<Movie>>, outs: seq<RecordOutcome>): (l: Loaded)
    ensures |movies| <= |l.movies| <= |movies| + |outs| && l.movies[..|movies|] == movies
    decreases |outs|
  {
    if outs == [] then Loaded(movies, gm, Pass)
    else
      match outs[0]
      case Refused(e) => Loaded(movies, gm, Fail(e))
      case Panicked(e) => Loaded(movies, gm, Fail(e))
      case Skipped(_) => LoadAll(movies, gm, outs[1..])
      case Accepted(m) => LoadAll(movies + [m], IndexMovie(gm, m, m.genres), outs[1..])
  }

  /** Loading keeps the index consistent with the movie list. */
  lemma {:induction false} LoadAllIndexed(movies: seq<Movie>, gm: map<string, seq<Movie>>, outs: seq<RecordOutcome>)
    requires IndexedFrom(gm, movies)
    ensures IndexedFrom(LoadAll(movies, gm, outs).genreMap, LoadAll(movies, gm, outs).movies)
    decreases |outs|
  {
    if outs != [] {
      match outs[0]
      case Refused(_) =>
      case Panicked(_) =>
      case Skipped(_) => LoadAllIndexed(movies, gm, outs[1..]);
      case Accepted(m) =>
        IndexMovieKeepsIndexed(gm, movies, m);
        LoadAllIndexed(movies + [m], IndexMovie(gm, m, m.genres), outs[1..]);
    }
  }

  /** The load passes exactly when no record is refused or panics. */
  lemma {:induction false} LoadAllPasses(movies: seq<Movie>, gm: map<string, seq<Movie>>, outs: seq<RecordOutcome>)
    ensures LoadAll(movies, gm, outs).outcome == Pass
      <==> forall i :: 0 <= i < |outs| ==> outs[i].Accepted? || outs[i].Skipped?
    decreases |outs|
  {
    if outs != [] {
      var rest := outs[1..];
      assert forall i :: 1 <= i < |outs| ==> outs[i] == rest[i - 1];
      match outs[0]
      case Refused(_) =>
      case Panicked(_) =>
      case Skipped(_) => LoadAllPasses(movies, gm, rest);
      case Accepted(m) => LoadAllPasses(movies + [m], IndexMovie(gm, m, m.genres), rest);
    }
  }

  /** A load that passes keeps the movies of the accepted records, in order. */
  lemma {:induction false} LoadAllMovies(movies: seq<Movie>, gm: map<string, seq<Movie>>, outs: seq<RecordOutcome>)
    ensures LoadAll(movies, gm, outs).outcome == Pass ==> LoadAll(movies, gm, outs).movies == movies + AcceptedMovies(outs)
    decreases |outs|
  {
    if outs != [] {
      var rest := outs[1..];
      match outs[0]
      case Refused(_) =>
      case Panicked(_) =>
      case Skipped(_) =>
        LoadAllMovies(movies, gm, rest);
      case Accepted(m) =>
        LoadAllMovies(movies + [m], IndexMovie(gm, m, m.genres), rest);
        assert movies + [m] + AcceptedMovies(rest) == movies + AcceptedMovies(outs);
    }
  }

  /** What the first record outcome does to the catalogue. */
  lemma LoadAllStep(movies: seq<Movie>, gm: map<string, seq<Movie>>, outs: seq<RecordOutcome>)
    requires outs != []
    ensures outs[0].Refused? || outs[0].Panicked? ==> LoadAll(movies, gm, outs) == Loaded(movies, gm, Fail(outs[0].reason))
    ensures outs[0].Skipped? ==> LoadAll(movies, gm, outs) == LoadAll(movies, gm, outs[1..])
    ensures outs[0].Accepted? ==>
      LoadAll(movies, gm, outs) == LoadAll(movies + [outs[0].movie], IndexMovie(gm, outs[0].movie, outs[0].movie.genres), outs[1..])
  {
  }

  /** The movies of the accepted records, in order. */
  function AcceptedMovies(outs: seq<RecordOutcome>): (ms: seq<Movie>)
    ensures |ms| <= |outs|
  {
    if outs == [] then []
    else (if outs[0].Accepted? then [outs[0].movie] else []) + AcceptedMovies(outs[1..])
  }

  /** The movie `NextMovie` hands back for its draws: the `movieDraw`-th
      movie of the `genreDraw`-th genre in the iteration order `keys`, or the
      panic of `Intn(0)` when there is no genre or the genre lists no movie. */
  function MovieFor(gm: map<string, seq<Movie>>, keys: seq<string>, genreDraw: int, movieDraw: int): (r: Result<Movie>)
    requires |keys| > 0 ==> 0 <= genreDraw < |keys|
    requires 0 <= genreDraw < |keys| && keys[genreDraw] in gm && gm[keys[genreDraw]] != []
      ==> 0 <= movieDraw < |gm[keys[genreDraw]]|
    ensures r.Ok? <==> |keys| > 0 && keys[genreDraw] in gm && gm[keys[genreDraw]] != []
    ensures r.Ok? ==> r.value == gm[keys[genreDraw]][movieDraw]
  {
    if |keys| == 0 then Err("invalid argument to Intn")
    else
      var g := keys[genreDraw];
      if g !in gm || gm[g] == [] then Err("invalid argument to Intn")
      else Ok(gm[g][movieDraw])
  }

  /** The configuration with the catalogue it loads. */
  class Config {
    const settings: Settings
    var movies: seq<Movie>
    var genreMap: map<string, seq<Movie>>

    ghost predicate Valid()
      reads this
    {
      IndexedFrom(genreMap, movies)
    }

    /** The configuration as `InitializeMovies` starts it: no movies and an
        empty genre index. */
    constructor (settings: Settings)
      ensures Valid()
      ensures this.settings == settings && movies == [] && genreMap == map[]
    {
      this.settings := settings;
      movies := [];
      genreMap := map[];
    }

    /** `LoadMovies` on the records of one CSV file, header first. Each row's
        runtime draw is in `draws` (the draw is used only for an empty
        runtime). */
    method LoadMovies(records: seq<seq<string>>, draws: seq<int>) returns (r: Outcome)
      requires Valid()
      requires |draws| == |records| && forall i :: 0 <= i < |draws| ==> 0 <= draws[i] < 121
      modifies this
      ensures Valid()
      ensures records == [] ==> r == Pass && unchanged(this)
      ensures records != [] ==>
        var l := LoadAll(old(movies), old(genreMap), Outcomes(|records[0]|, records[1..], draws[1..]));
        movies == l.movies && genreMap == l.genreMap && r == l.outcome
    {
      if records == [] {
        return Pass;
      }
      var width := |records[0]|;
      ghost var outs := Outcomes(width, records[1..], draws[1..]);
      ghost var l := LoadAll(movies, genreMap, outs);
      LoadAllIndexed(movies, genreMap, outs);
      var k := 1;
      while k < |records|
        invariant 1 <= k <= |records|
        invariant l == LoadAll(movies, genreMap, outs[k - 1..])
      {
        var o := ReadRecord(width, records[k], draws[k]);
        assert o == outs[k - 1];
        LoadAllStep(movies, genreMap, outs[k - 1..]);
        assert outs[k - 1..][1..] == outs[k..];
        if o.Refused? || o.Panicked? {
          return Fail(o.reason);
        }
        if o.Accepted? {
          var m := o.movie;
          movies := movies + [m];
          genreMap := IndexMovie(genreMap, m, m.genres);
        }
        k := k + 1;
      }
      assert outs[k - 1..] == [];
      return Pass;
    }

    /** `NextMovie`: a genre chosen uniformly from the index (`keys` is the
        order the map iteration produced, `genreDraw` the `Intn` over it) and
        a movie chosen uniformly from that genre (`movieDraw`). An empty index
        panics. */
    method NextMovie(keys: seq<string>, genreDraw: int, movieDraw: int) returns (r: Result<Movie>)
      requires IsEnumeration(keys, genreMap.Keys)
      requires |keys| > 0 ==> 0 <= genreDraw < |keys|
      requires 0 <= genreDraw < |keys| && keys[genreDraw] in genreMap && genreMap[keys[genreDraw]] != []
        ==> 0 <= movieDraw < |genreMap[keys[genreDraw]]|
      ensures Valid() ==> (r.Err? <==> genreMap == map[])
      ensures r.Ok? ==>
                0 <= genreDraw < |keys| && keys[genreDraw] in genreMap
                && 0 <= movieDraw < |genreMap[keys[genreDraw]]|
                && r.value == genreMap[keys[genreDraw]][movieDraw]
      ensures Valid() && r.Ok? ==> r.value in movies && keys[genreDraw] in r.value.genres
      ensures r == MovieFor(genreMap, keys, genreDraw, movieDraw)
    {
      if |keys| == 0 {
        assert genreMap.Keys == {} by {
          forall g | g in genreMap ensures false {
          }
        }
        return Err("invalid argument to Intn");
      }
      assert keys[0] in genreMap;
      var chosen := genreMap[keys[genreDraw]];
      if |chosen| == 0 {
        return Err("invalid argument to Intn");
      }
      return Ok(chosen[movieDraw]);
    }
  }

  /** The outcome of each record of `rows`, with its runtime draw. */
  function Outcomes(width: nat, rows: seq<seq<string>>, draws: seq<int>): (outs: seq<RecordOutcome>)
    requires |draws| == |rows| && forall i :: 0 <= i < |draws| ==> 0 <= draws[i] < 121
    ensures |outs| == |rows|
    ensures forall i :: 0 <= i < |rows| ==> outs[i] == ReadRecord(width, rows[i], draws[i])
  {
    seq(|rows|, i requires 0 <= i < |rows| => ReadRecord(width, rows[i], draws[i]))
  }
}

=== FILE: gonum.dfy ===
/** The pieces of Go's integer semantics the simulator relies on: int64
    wrap-around, float-to-integer conversion, whole minutes of a duration, the
    `time` package's nanosecond units, and `strconv.Atoi` (base 10, 64-bit)
    together with the decimal formatting it inverts. */
module GoNum {

  const TwoTo63: int := 0x8000_0000_0000_0000
  const MaxInt64: int := TwoTo63 - 1
  const MinInt64: int := -TwoTo63
  const MaxUint64: int := 0xFFFF_FFFF_FFFF_FFFF

  /** `time.Second` and `time.Minute`, counted in nanoseconds like every
      `time.Duration`. */
  const Second: int := 1_000_000_000
  const Minute: int := 60 * Second

  /** `time.Time{}`, January 1 of year 1 UTC, in nanoseconds relative to the
      Unix epoch (the model's representation of instants). */
  const ZeroTime: int := -62_135_596_800 * Second

  predicate InInt64(x: int) {
    MinInt64 <= x <= MaxInt64
  }

  /** The int64 that two's-complement arithmetic leaves of the exact value `x`. */
  function Wrap64(x: int): (r: int)
    ensures InInt64(r)
    ensures (r - x) % (2 * TwoTo63) == 0
    ensures InInt64(x) ==> r == x
  {
    var m := 2 * TwoTo63;
    var k := (x + TwoTo63) / m;
    assert (x + TwoTo63) % m == x + TwoTo63 - k * m;
    assert InInt64(x) ==> k == 0;
    (x + TwoTo63) % m - TwoTo63
  }

  /** Go's conversion of a float to an integer type: truncation toward zero. */
  function Trunc(x: real): (r: int)
    ensures x >= 0.0 ==> r >= 0 && r as real <= x < r as real + 1.0
    ensures x < 0.0 ==> r <= 0 && r as real - 1.0 < x <= r as real
  {
    if x >= 0.0 then x.Floor else -((-x).Floor)
  }

  /** `int(d.Minutes())` for a `time.Duration` d: the whole minutes in d,
      truncated toward zero (Dafny's `/` is Euclidean, Go's truncates). */
  function WholeMinutes(d: int): (q: int)
    ensures d >= 0 ==> 0 <= q * Minute <= d < q * Minute + Minute
    ensures d < 0 ==> q * Minute - Minute < d <= q * Minute <= 0
  {
    if d >= 0 then d / Minute else -((-d) / Minute)
  }

  // ---------------------------------------------------------------------
  // Decimal digits

  predicate IsDigit(c: char) {
    '0' <= c <= '9'
  }

  predicate AllDigits(s: string) {
    forall i :: 0 <= i < |s| ==> IsDigit(s[i])
  }

  function DigitValue(c: char): (d: nat)
    requires IsDigit(c)
    ensures d <= 9
  {
    (c as int) - ('0' as int)
  }

  function DigitChar(d: nat): (c: char)
    requires d <= 9
    ensures IsDigit(c) && DigitValue(c) == d
  {
    (('0' as int) + d) as char
  }

  /** The value of the digits `s` read after the digits already worth `acc`. */
  function Horner(acc: nat, s: string): nat
    requires AllDigits(s)
    decreases |s|
  {
    if s == [] then acc else Horner(acc * 10 + DigitValue(s[0]), s[1..])
  }

  /** `fmt.Sprintf("%d", n)` / `strconv.Itoa(n)` for a non-negative `n`. */
  function DecimalString(n: nat): (s: string)
    ensures |s| >= 1 && AllDigits(s)
    decreases n
  {
    if n < 10 then [DigitChar(n)] else DecimalString(n / 10) + [DigitChar(n % 10)]
  }

  lemma {:induction false} HornerSnoc(acc: nat, s: string, c: char)
    requires AllDigits(s) && IsDigit(c)
    ensures AllDigits(s + [c])
    ensures Horner(acc, s + [c]) == Horner(acc, s) * 10 + DigitValue(c)
    decreases |s|
  {
    if s == [] {
      assert [c][1..] == [];
    } else {
      assert (s + [c])[1..] == s[1..] + [c];
      HornerSnoc(acc * 10 + DigitValue(s[0]), s[1..], c);
    }
  }

  lemma {:induction false} HornerAtLeast(acc: nat, s: string)
    requires AllDigits(s)
    ensures Horner(acc, s) >= acc
    ensures s != [] ==> Horner(acc, s) >= acc * 10 + DigitValue(s[0])
    decreases |s|
  {
    if s != [] {
      HornerAtLeast(acc * 10 + DigitValue(s[0]), s[1..]);
    }
  }

  /** Reading back the digits `DecimalString` writes gives the number. */
  lemma {:induction false} DecimalStringValue(n: nat)
    ensures Horner(0, DecimalString(n)) == n
    decreases n
  {
    if n < 10 {
      assert DecimalString(n)[1..] == [];
    } else {
      DecimalStringValue(n / 10);
      HornerSnoc(0, DecimalString(n / 10), DigitChar(n % 10));
    }
  }

  // ---------------------------------------------------------------------
  // strconv.Atoi

  /** The result of `strconv.Atoi`: the number, a syntax error (value 0), or
      a range error, for which Go still returns the clamped int64. */
  datatype AtoiResult = Parsed(n: int) | SyntaxError | RangeError(clamped: int)

  /** The three ways `strconv.ParseUint(s, 10, 64)` can end. */
  datatype UintScan = UintOk(u: nat) | UintSyntax | UintRange

  const UintCutoff: int := MaxUint64 / 10 + 1

  /** ParseUint's digit loop from the accumulated value `n`: it stops with a
      syntax error at the first non-digit and with a range error as soon as
      the accumulated value would leave uint64, whichever comes first. */
  function ScanUint(n: nat, s: string): UintScan
    decreases |s|
  {
    if s == [] then UintOk(n)
    else if !IsDigit(s[0]) then UintSyntax
    else if n >= UintCutoff then UintRange
    else if n * 10 + DigitValue(s[0]) > MaxUint64 then UintRange
    else ScanUint(n * 10 + DigitValue(s[0]), s[1..])
  }

  function ParseUint(s: string): UintScan {
    if s == [] then UintSyntax else ScanUint(0, s)
  }

  /** `strconv.Atoi(s)` on a 64-bit platform: an optional sign, then ParseUint
      of the rest, then the int64 range check. (Atoi's fast path for short
      inputs gives the same results, as short inputs cannot overflow.) */
  function Atoi(s: string): (r: AtoiResult)
    ensures r.Parsed? ==> InInt64(r.n)
    ensures r.RangeError? ==> r.clamped == MaxInt64 || r.clamped == MinInt64
  {
    if s == [] then SyntaxError
    else
      var neg := s[0] == '-';
      var digits := if s[0] == '-' || s[0] == '+' then s[1..] else s;
      match ParseUint(digits)
      case UintSyntax => SyntaxError
      case UintRange => RangeError(if neg then MinInt64 else MaxInt64)
      case UintOk(u) =>
        if !neg && u >= TwoTo63 then RangeError(MaxInt64)
        else if neg && u > TwoTo63 then RangeError(MinInt64)
        else Parsed(if neg then -(u as int) else u as int)
  }

  /** Where no overflow happens, ParseUint's scan computes the digits' value. */
  lemma {:induction false} ScanUintValue(acc: nat, s: string)
    requires AllDigits(s) && Horner(acc, s) <= MaxUint64
    ensures ScanUint(acc, s) == UintOk(Horner(acc, s))
    decreases |s|
  {
    if s != [] {
      HornerAtLeast(acc, s);
      HornerAtLeast(acc * 10 + DigitValue(s[0]), s[1..]);
      ScanUintValue(acc * 10 + DigitValue(s[0]), s[1..]);
    }
  }

  /** Atoi inverts decimal formatting on every non-negative int64. */
  lemma AtoiDecimalString(n: nat)
    requires n <= MaxInt64
    ensures Atoi(DecimalString(n)) == Parsed(n)
  {
    var s := DecimalString(n);
    DecimalStringValue(n);
    ScanUintValue(0, s);
    assert s[0] != '-' && s[0] != '+';
  }

  const TenTo19: int := 10_000_000_000_000_000_000

  ghost function Pow10(k: nat): (p: nat)
    ensures p >= 1
  {
    if k == 0 then 1 else 10 * Pow10(k - 1)
  }

  lemma {:induction false} Pow10Monotone(j: nat, k: nat)
    requires j <= k
    ensures Pow10(j) <= Pow10(k)
    decreases k
  {
    if j < k {
      Pow10Monotone(j, k - 1);
    }
  }

  lemma Pow10Is19()
    ensures Pow10(19) == TenTo19
  {
    assert Pow10(1) == 10;
    assert Pow10(2) == 100;
    assert Pow10(3) == 1000;
    assert Pow10(4) == 10000;
    assert Pow10(5) == 100000;
    assert Pow10(6) == 1000000;
    assert Pow10(7) == 10000000;
    assert Pow10(8) == 100000000;
    assert Pow10(9) == 1000000000;
    assert Pow10(10) == 10000000000;
    assert Pow10(11) == 100000000000;
    assert Pow10(12) == 1000000000000;
    assert Pow10(13) == 10000000000000;
    assert Pow10(14) == 100000000000000;
    assert Pow10(15) == 1000000000000000;
    assert Pow10(16) == 10000000000000000;
    assert Pow10(17) == 100000000000000000;
    assert Pow10(18) == 1000000000000000000;
    assert Pow10(19) == 10000000000000000000;
  }

  lemma MulMonotone(a: nat, b: nat, c: nat)
    requires b <= c
    ensures a * b <= a * c
  {
  }

  /** From an accumulated value that leaves room for every remaining
      character as a digit within 19 digits, ParseUint's scan cannot
      overflow before it meets the non-digit, so it ends in a syntax error. */
  lemma {:induction false} ScanUintMeetsNonDigit(n: nat, s: string)
    requires !AllDigits(s)
    requires (n + 1) * Pow10(|s|) <= TenTo19
    ensures ScanUint(n, s) == UintSyntax
    decreases |s|
  {
    if IsDigit(s[0]) {
      var d := DigitValue(s[0]);
      var p := Pow10(|s| - 1);
      var m := n + 1;
      assert Pow10(|s|) == 10 * p;
      assert m * (10 * p) == (10 * m) * p;
      MulMonotone(10 * m, 1, p);
      assert 10 * m <= TenTo19;
      assert n < UintCutoff && n * 10 + d <= MaxUint64;
      MulMonotone(p, n * 10 + d + 1, 10 * m);
      assert (n * 10 + d + 1) * p <= TenTo19;
      assert !AllDigits(s[1..]) by {
        var i :| 0 <= i < |s| && !IsDigit(s[i]);
        assert s[1..][i - 1] == s[i];
      }
      ScanUintMeetsNonDigit(n * 10 + d, s[1..]);
    }
  }

  /** After the optional sign, an empty rest, or a rest of at most 19
      characters holding a non-digit, is a syntax error: with so few digits
      the range check cannot fire first. */
  lemma AtoiRejectsNonDigits(s: string)
    ensures var rest := if s != [] && (s[0] == '-' || s[0] == '+') then s[1..] else s;
      (rest == [] || (|rest| <= 19 && !AllDigits(rest))) ==> Atoi(s) == SyntaxError
  {
    var rest := if s != [] && (s[0] == '-' || s[0] == '+') then s[1..] else s;
    if rest != [] && |rest| <= 19 && !AllDigits(rest) {
      Pow10Monotone(|rest|, 19);
      Pow10Is19();
      ScanUintMeetsNonDigit(0, rest);
    }
  }
}

=== FILE: lifecycle.dfy ===
/** How a user's session ends: the churn test of `NextEvent` and what
    becomes of the done session, either kept with its next event time
    zeroed or followed by the session `NextSession` opens. */
module Lifecycle {
  import opened Wrappers
  import opened GoNum
  import opened Weighted
  import opened StateGraph
  import opened Sessions

  /** `NextEvent`'s churn test: the draw falls below the attrition
      probability (zero when none is given), or the user is anonymous. */
  function Churns(attrition: Option<real>, draw: real, authStatus: string): (b: bool)
    ensures authStatus == "" ==> b
    ensures attrition.None? && draw >= 0.0 ==> (b <==> authStatus == "")
    ensures attrition.Some? && draw < attrition.value ==> b
  {
    draw < (if attrition.Some? then attrition.value else 0.0) || authStatus == ""
  }

  /** The state map `m` still holds the choosers `buckets` and the used set `used`. */
  ghost predicate Unmoved(m: AuthLevelStateMap, buckets: map<string, seq<Item<State>>>, used: set<string>)
    reads m
  {
    m.Buckets == buckets && m.Used == used
  }

  /** How `NextEvent` ends the done session `s`, whose data was `data`, the
      session counter at `id0` and the choosers at `buckets`/`used`: a
      churned user `Kept` it, any other `Continued`. */
  ghost predicate Ended(s: Session, data: SessionData, r: Outcome, current: Session,
                        id0: int, id: int, buckets: map<string, seq<Item<State>>>, used: set<string>,
                        attrition: Option<real>, churnDraw: real, sample: real, pick: StatePick, md: MovieDraw)
    reads s, s.config, s.stateMap, current
    requires MovieDrawFits(s.config.genreMap, md)
  {
    if data.currentState != null && Churns(attrition, churnDraw, data.currentState.authStatus) then
      Kept(s, data, r, current, id0, id, buckets, used)
    else
      Continued(s, data, r, current, id0, id, buckets, used, sample, pick, md)
  }

  /** The churned user keeps `s` with its next event time zeroed; the
      counter and the choosers do not move. */
  ghost predicate Kept(s: Session, data: SessionData, r: Outcome, current: Session,
                       id0: int, id: int, buckets: map<string, seq<Item<State>>>, used: set<string>)
    reads s, s.stateMap
  {
    r.Pass? && current == s && s.Snap() == data.(nextEventTime := ZeroTime)
    && id == id0 && Unmoved(s.stateMap, buckets, used)
  }

  /** `s` keeps `data` and is followed by the session `NextSession` opens,
      after the draw from its chooser and the next session ID, or by its
      panic, which takes no ID. */
  ghost predicate Continued(s: Session, data: SessionData, r: Outcome, current: Session,
                            id0: int, id: int, buckets: map<string, seq<Item<State>>>, used: set<string>,
                            sample: real, pick: StatePick, md: MovieDraw)
    reads s, s.config, s.stateMap, current
    requires MovieDrawFits(s.config.genreMap, md)
  {
    s.Snap() == data
    && Drew(buckets, used, s.stateMap.Buckets, s.stateMap.Used, BucketKey(s.auth, s.level), pick.swaps)
    && (r.Fail? <==> Refused(s.stateMap.Buckets, BucketKey(s.auth, s.level), pick.target, NextMovieOf(s.config.genreMap, md)))
    && (r.Fail? ==> current == s && id == id0)
    && (r.Pass? ==> id == Wrap64(id0 + 1)
                    && IsNew(current, id, NextStartTime(s.config.settings.sessionGap, data.nextEventTime, sample),
                             s.alpha, s.beta, s.stateMap, s.stateMap.Buckets, s.auth, s.level, pick.target, md,
                             s.config, s.config.genreMap))
  }
}

=== FILE: mapsum.dfy ===
/** The total probability mass of a transition table, and of a walk over its
    entries in some order. Go's map iteration order is unspecified, so every
    walk is over an arbitrary enumeration of the keys; these lemmas show the
    total does not depend on it. */
module MapSums {

  /** `ks` lists every element of `s` exactly once. */
  predicate IsEnumeration<K>(ks: seq<K>, s: set<K>) {
    (forall i :: 0 <= i < |ks| ==> ks[i] in s)
    && (forall k :: k in s ==> k in ks)
    && (forall i, j :: 0 <= i < j < |ks| ==> ks[i] != ks[j])
  }

  /** The sum of the values of `m`. */
  ghost function MapSum<K>(m: map<K, real>): real
    decreases |m|
  {
    if m == map[] then 0.0
    else
      var k :| k in m;
      m[k] + MapSum(m - {k})
  }

  /** Any key can be taken out first. */
  lemma {:induction false} MapSumRemove<K>(m: map<K, real>, k: K)
    requires k in m
    ensures MapSum(m) == m[k] + MapSum(m - {k})
    decreases |m|
  {
    var c :| c in m && MapSum(m) == m[c] + MapSum(m - {c});
    if c != k {
      var m1 := m - {c};
      var m2 := m - {k};
      MapSumRemove(m1, k);
      MapSumRemove(m2, c);
      assert m1 - {k} == m2 - {c};
    }
  }

  /** The sum of the values at the keys `ks`, in that order. */
  function SeqSum<K>(m: map<K, real>, ks: seq<K>): real
    requires forall i :: 0 <= i < |ks| ==> ks[i] in m
  {
    if ks == [] then 0.0 else m[ks[0]] + SeqSum(m, ks[1..])
  }

  /** Summing along any enumeration of the keys gives the table's mass. */
  lemma {:induction false} SeqSumIsMapSum<K>(m: map<K, real>, ks: seq<K>)
    requires IsEnumeration(ks, m.Keys)
    ensures SeqSum(m, ks) == MapSum(m)
    decreases |ks|
  {
    if ks == [] {
      assert m.Keys == {} by {
        forall k | k in m ensures false {
        }
      }
      assert m == map[];
    } else {
      var k := ks[0];
      var rest := m - {k};
      MapSumRemove(m, k);
      forall i | 0 <= i < |ks[1..]| ensures ks[1..][i] in rest {
        assert ks[1..][i] == ks[i + 1] != ks[0];
      }
      forall x | x in rest.Keys ensures x in ks[1..] {
        var i :| 0 <= i < |ks| && ks[i] == x;
        assert i != 0;
        assert ks[1..][i - 1] == x;
      }
      assert IsEnumeration(ks[1..], rest.Keys);
      SeqSumIsMapSum(rest, ks[1..]);
      SeqSumFrame(m, rest, ks[1..]);
    }
  }

  /** A walk over keys on which two tables agree has the same sum in both. */
  lemma {:induction false} SeqSumFrame<K>(m: map<K, real>, n: map<K, real>, ks: seq<K>)
    requires forall i :: 0 <= i < |ks| ==> ks[i] in m && ks[i] in n && m[ks[i]] == n[ks[i]]
    ensures SeqSum(m, ks) == SeqSum(n, ks)
    decreases |ks|
  {
    if ks != [] {
      SeqSumFrame(m, n, ks[1..]);
    }
  }

  predicate NonNegativeValues<K>(m: map<K, real>) {
    forall k :: k in m ==> m[k] >= 0.0
  }

  /** A table of non-negative values has non-negative mass, at least each of
      its values. */
  lemma {:induction false} MapSumNonNegative<K>(m: map<K, real>)
    requires NonNegativeValues(m)
    ensures MapSum(m) >= 0.0
    ensures forall k :: k in m ==> m[k] <= MapSum(m)
    decreases |m|
  {
    if m != map[] {
      var c :| c in m && MapSum(m) == m[c] + MapSum(m - {c});
      MapSumNonNegative(m - {c});
      forall k | k in m ensures m[k] <= MapSum(m) {
        if k != c {
          assert k in m - {c};
        }
      }
    }
  }

  /** Setting `t` to `p` replaces t's old value (if any) with `p` in the
      mass. */
  lemma MapSumUpdate<K>(m: map<K, real>, t: K, p: real)
    ensures MapSum(m[t := p]) == MapSum(m) - (if t in m then m[t] else 0.0) + p
  {
    var m' := m[t := p];
    MapSumRemove(m', t);
    assert m' - {t} == m - {t};
    if t in m {
      MapSumRemove(m, t);
    } else {
      assert m - {t} == m;
    }
  }

  /** Overwriting or adding an entry with a non-negative value keeps a table
      whose mass plus the new value is at most 1 within mass 1. */
  lemma TableBoundPreserved<K>(m: map<K, real>, t: K, p: real)
    requires NonNegativeValues(m) && p >= 0.0 && MapSum(m) + p <= 1.0
    ensures NonNegativeValues(m[t := p])
    ensures MapSum(m[t := p]) <= 1.0
  {
    MapSumUpdate(m, t, p);
    MapSumNonNegative(m);
  }
}

=== FILE: session.dfy ===
/** A user's session: the walk over the page graph from event to event, the
    advertising breaks inside it, and the timing of the next session. Every
    instant is a count of nanoseconds since the Unix epoch; the wall clock
    (`time.Now()`) and every random draw are parameters. */
module Sessions {
  import opened Wrappers
  import opened GoNum
  import opened MapSums
  import opened Weighted
  import opened StateGraph
  import Config

  // ---------------------------------------------------------------------
  // Identifiers

  /** A process-wide identifier counter (`sessionIDCounter`,
      `userIDCounter`): an int64 incremented under a lock. */
  class Counter {
    var value: int

    ghost predicate Valid()
      reads this
    {
      InInt64(value)
    }

    constructor ()
      ensures Valid() && value == 0
    {
      value := 0;
    }

    /** `NextSessionID` / `NextUserID`: increments the counter and returns
        the new value, so identifiers run 1, 2, 3, ... until the int64
        wraps. */
    method Next() returns (id: int)
      requires Valid()
      modifies this
      ensures Valid() && id == value
      ensures value == Wrap64(old(value) + 1)
      ensures old(value) < MaxInt64 ==> id == old(value) + 1
    {
      value := Wrap64(value + 1);
      id := value;
    }
  }

  // ---------------------------------------------------------------------
  // Session data

  /** An advertisement being played; `duration` is in nanoseconds. */
  datatype Ad = Ad(id: string, adType: string, duration: int, startTime: int)

  /** A piece of content with its mid-roll breakpoints (offsets from its
      start, in nanoseconds). */
  datatype Content = Content(id: string, kind: string, duration: int, breakpoints: seq<int>, startTime: int)

  /** Every advertisement lasts 30 seconds. */
  const AdDuration: int := 30 * Second

  /** `fmt.Sprintf("Ad-%d", n)` for the non-negative `Rng.Int()` draw `n`. */
  function AdId(n: nat): string {
    "Ad-" + DecimalString(n)
  }

  /** The part of a session an event changes. */
  datatype SessionData = SessionData(
    itemInSession: int,
    currentState: State?,
    previousState: State?,
    currentAd: Option<Ad>,
    currentMovie: Option<Config.Movie>,
    currentMovieEnd: int,
    nextEventTime: int,
    nextEventType: string,
    lastAdTime: int,
    finished: bool)

  /** The draws `Config.NextMovie` consumes: an enumeration of the genre
      index's keys (Go's map order) and the two `Intn` results. */
  datatype MovieDraw = MovieDraw(keys: seq<string>, genreDraw: int, movieDraw: int)

  predicate MovieDrawFits(gm: map<string, seq<Config.Movie>>, d: MovieDraw) {
    IsEnumeration(d.keys, gm.Keys)
    && (|d.keys| > 0 ==> 0 <= d.genreDraw < |d.keys|)
    && (0 <= d.genreDraw < |d.keys| && d.keys[d.genreDraw] in gm && gm[d.keys[d.genreDraw]] != []
        ==> 0 <= d.movieDraw < |gm[d.keys[d.genreDraw]]|)
  }

  function NextMovieOf(gm: map<string, seq<Config.Movie>>, d: MovieDraw): Result<Config.Movie>
    requires MovieDrawFits(gm, d)
  {
    Config.MovieFor(gm, d.keys, d.genreDraw, d.movieDraw)
  }

  /** The draws of one `GetRandomState`: the swaps of the chooser's sort on
      first use and the `Intn` target. */
  datatype StatePick = StatePick(swaps: seq<(nat, nat)>, target: int)

  /** A draw the chooser of `items` can take. */
  predicate PickFits(items: seq<Item<State>>, pick: StatePick) {
    ValidSwaps(|items|, pick.swaps)
    && (Sum(Weights(items)) > 0 ==> 0 <= pick.target < Sum(Weights(items)))
  }

  /** The draws one `IncrementEvent` consumes: the key order of the current
      state's table and the uniform draw of `GetNextState`, the exponential
      sample of the think time, the wall clock, the `Rng.Int()` numbering a
      new ad, the `rand.Float64()` of an impression and the draws of
      `NextMovie`. */
  datatype StepDraws = StepDraws(
    order: seq<State>,
    p: real,
    sample: real,
    now: int,
    adNumber: nat,
    impression: real,
    movie: MovieDraw)

  // ---------------------------------------------------------------------
  // One event

  predicate IsRedirect(status: int) {
    300 <= status <= 399
  }

  predicate IsAdPage(page: string) {
    page == "AdStart" || page == "AdImpression" || page == "AdEnd"
  }

  /** A move to `next` advances the walk: the session neither ends nor only
      drives an advertising break. */
  predicate Moves(next: Option<State>) {
    next.Some? && (IsRedirect(next.value.statusCode) || !IsAdPage(next.value.page))
  }

  /** `a` and `b` are at the same place in the walk and the same movie. */
  predicate KeepsPlace(a: SessionData, b: SessionData) {
    a.itemInSession == b.itemInSession && a.currentState == b.currentState
    && a.previousState == b.previousState && a.currentMovie == b.currentMovie
    && a.currentMovieEnd == b.currentMovieEnd && a.finished == b.finished
  }

  /** `startAd`: a 30-second standard ad starting now, its impression due
      when it ends. */
  function AdStarted(s: SessionData, now: int, adNumber: nat): (r: SessionData)
    ensures KeepsPlace(s, r) && r.lastAdTime == now
    ensures r.currentAd.Some? && r.currentAd.value.startTime == now
    ensures r.nextEventType == "AdImpression"
    ensures r.nextEventTime == r.currentAd.value.startTime + r.currentAd.value.duration
  {
    s.(currentAd := Some(Ad(AdId(adNumber), "Standard", AdDuration, now)),
       nextEventType := "AdImpression", nextEventTime := now + AdDuration, lastAdTime := now)
  }

  /** `scheduleNextAdImpression`: the next event five seconds from now; with
      a draw of 0.8 or more it ends the ad. */
  function ImpressionScheduled(s: SessionData, now: int, draw: real): (r: SessionData)
    ensures KeepsPlace(s, r) && r.currentAd == s.currentAd && r.lastAdTime == s.lastAdTime
    ensures r.nextEventTime == now + 5 * Second
    ensures r.nextEventType == (if draw < 0.8 then s.nextEventType else "AdEnd")
  {
    if draw < 0.8 then s.(nextEventTime := now + 5 * Second)
    else s.(nextEventTime := now + 5 * Second, nextEventType := "AdEnd")
  }

  /** `finishAdAndResumeContent`: no ad, and the next video a minute from
      now. */
  function AdFinished(s: SessionData, now: int): (r: SessionData)
    ensures KeepsPlace(s, r) && r.lastAdTime == s.lastAdTime
    ensures r.currentAd.None? && r.nextEventType == "NextVideo" && r.nextEventTime == now + Minute
  {
    s.(currentAd := None, nextEventType := "NextVideo", nextEventTime := now + Minute)
  }

  /** `startAdSequence`: an ad of the given type starting now, announced by
      an `AdStart` event due at once. */
  function AdSequenceStarted(s: SessionData, adType: string, now: int, adNumber: nat): (r: SessionData)
    ensures KeepsPlace(s, r) && r.lastAdTime == now
    ensures r.currentAd.Some? && r.currentAd.value.adType == adType && r.currentAd.value.startTime == now
    ensures r.nextEventType == "AdStart" && r.nextEventTime == now
  {
    s.(currentAd := Some(Ad(AdId(adNumber), adType, AdDuration, now)),
       nextEventType := "AdStart", nextEventTime := now, lastAdTime := now)
  }

  datatype Stepped = Stepped(data: SessionData, outcome: Outcome)

  /** `IncrementEvent` after the move to `next` (None when `GetNextState`
      found nothing): `movie` is what `NextMovie` would return. */
  function Advance(s: SessionData, next: Option<State>, d: StepDraws, movie: Result<Config.Movie>): Stepped
  {
    if next.None? then Stepped(s.(finished := true), Pass)
    else
      var st := next.value;
      if IsRedirect(st.statusCode) then
        Stepped(s.(nextEventTime := s.nextEventTime + Second, currentState := st,
                   itemInSession := s.itemInSession + 1), Pass)
      else if st.page == "NextVideo" then NextVideoStep(s, st, d, movie)
      else if st.page == "AdStart" then Stepped(AdStarted(s, d.now, d.adNumber), Pass)
      else if st.page == "AdImpression" then Stepped(ImpressionScheduled(s, d.now, d.impression), Pass)
      else if st.page == "AdEnd" then Stepped(AdFinished(s, d.now), Pass)
      else
        Stepped(s.(nextEventTime := s.nextEventTime + Trunc(d.sample), currentState := st,
                   itemInSession := s.itemInSession + 1), Pass)
  }

  /** The `NextVideo` case of `Advance`: the next event waits for the end
      of the current movie, or follows the think time after it; then the
      next movie is drawn. Without a current movie the runtime is read
      through nil. */
  function NextVideoStep(s: SessionData, st: State, d: StepDraws, movie: Result<Config.Movie>): (r: Stepped)
    ensures r.outcome.Fail? <==> s.currentMovie.None? || movie.Err?
    ensures r.outcome.Pass? ==>
      r.data.currentMovie == Some(movie.value) && r.data.currentMovieEnd == r.data.nextEventTime + movie.value.runtime
      && r.data.previousState == s.currentState && r.data.currentState == st
      && r.data.itemInSession == s.itemInSession + 1
    ensures r.outcome.Fail? ==> r.data == s.(nextEventTime := r.data.nextEventTime)
    ensures d.sample >= 0.0 ==> r.data.nextEventTime >= s.nextEventTime
  {
    if s.currentMovie.None? then
      Stepped(s.(nextEventTime := s.nextEventTime + Trunc(d.sample)), Fail("nil pointer dereference"))
    else
      var t := if s.nextEventTime < s.currentMovieEnd then s.currentMovieEnd else s.nextEventTime + Trunc(d.sample);
      match movie
      case Err(e) => Stepped(s.(nextEventTime := t), Fail(e))
      case Ok(m) =>
        Stepped(s.(nextEventTime := t, currentMovie := Some(m), currentMovieEnd := t + m.runtime,
                   previousState := s.currentState, currentState := st,
                   itemInSession := s.itemInSession + 1), Pass)
  }

  /** The `NextVideo` case as its "starting a new movie" branch evidently
      means it: without a current movie the next event follows the think
      time and the next movie is drawn, as when the current one has ended. */
  function NextVideoStepFixed(s: SessionData, st: State, d: StepDraws, movie: Result<Config.Movie>): (r: Stepped)
    ensures r.outcome.Fail? <==> movie.Err?
    ensures s.currentMovie.Some? ==> r == NextVideoStep(s, st, d, movie)
    ensures r.outcome.Pass? ==>
      r.data.currentMovie == Some(movie.value) && r.data.currentMovieEnd == r.data.nextEventTime + movie.value.runtime
      && r.data.previousState == s.currentState && r.data.currentState == st
    ensures s.currentMovie.None? ==> r.data.nextEventTime == s.nextEventTime + Trunc(d.sample)
  {
    var t := if s.currentMovie.Some? && s.nextEventTime < s.currentMovieEnd then s.currentMovieEnd
             else s.nextEventTime + Trunc(d.sample);
    match movie
    case Err(e) => Stepped(s.(nextEventTime := t), Fail(e))
    case Ok(m) =>
      Stepped(s.(nextEventTime := t, currentMovie := Some(m), currentMovieEnd := t + m.runtime,
                 previousState := s.currentState, currentState := st,
                 itemInSession := s.itemInSession + 1), Pass)
  }

  /** A session with no current movie that moves to `NextVideo` fails as
      written even when the catalogue has a movie to give, where the
      corrected step plays that movie. */
  lemma NextVideoWithoutMovieFails(s: SessionData, st: State, d: StepDraws, m: Config.Movie)
    requires s.currentMovie.None?
    ensures NextVideoStep(s, st, d, Ok(m)).outcome.Fail?
    ensures NextVideoStepFixed(s, st, d, Ok(m)).outcome.Pass?
    ensures NextVideoStepFixed(s, st, d, Ok(m)).data.currentMovie == Some(m)
  {
  }

  /** What one event does: it ends the session exactly when no state is
      drawn; only a `NextVideo` move can fail (no movie to follow, or no
      catalogue to draw from); a move advances the walk by one item, an ad
      event keeps the place; the previous state changes only on `NextVideo`,
      and a new movie's end is its runtime after the next event; with a
      non-negative think time, a move never goes back in time. */
  lemma AdvanceFacts(s: SessionData, next: Option<State>, d: StepDraws, movie: Result<Config.Movie>)
    ensures var r := Advance(s, next, d, movie);
      (r.data.finished <==> s.finished || next.None?)
      && (r.outcome.Fail? <==>
            Moves(next) && !IsRedirect(next.value.statusCode) && next.value.page == "NextVideo"
            && (s.currentMovie.None? || movie.Err?))
      && (r.outcome.Pass? && Moves(next) ==>
            r.data.currentState == next.value && r.data.itemInSession == s.itemInSession + 1)
      && (!Moves(next) || r.outcome.Fail? ==>
            r.data.currentState == s.currentState && r.data.itemInSession == s.itemInSession)
      && (r.data.previousState == s.previousState
          || (r.data.previousState == s.currentState && next.Some? && next.value.page == "NextVideo"))
      && (r.data.currentMovie == s.currentMovie
          || (movie.Ok? && r.data.currentMovie == Some(movie.value)
              && r.data.currentMovieEnd == r.data.nextEventTime + movie.value.runtime))
      && (next.Some? && !Moves(next) ==> KeepsPlace(s, r.data))
      && (d.sample >= 0.0 && Moves(next) ==> r.data.nextEventTime >= s.nextEventTime)
      && (r.data.currentState == s.currentState || (next.Some? && r.data.currentState == next.value))
  {
  }

  /** `IsDone`: finished, or nothing playing and the next event overdue. */
  predicate Done(s: SessionData, content: Option<Content>, now: int) {
    s.finished || (content.None? && s.currentAd.None? && now > s.nextEventTime)
  }

  // ---------------------------------------------------------------------
  // Clocks

  /** `time.Since(t)` at the instant `now`: the difference, saturated to the
      int64 range of a `time.Duration`. */
  function Since(now: int, t: int): (d: int)
    ensures InInt64(d)
    ensures InInt64(now - t) ==> d == now - t
    ensures now - t > MaxInt64 ==> d == MaxInt64
    ensures now - t < MinInt64 ==> d == MinInt64
  {
    if now - t > MaxInt64 then MaxInt64
    else if now - t < MinInt64 then MinInt64
    else now - t
  }

  /** The zero `time.Time` lies more than 292 years before any instant from
      1970 on, so the time since it saturates. */
  lemma SinceZeroTimeSaturates(now: int)
    requires now >= 0
    ensures Since(now, ZeroTime) == MaxInt64
  {
    assert now - ZeroTime >= 62_135_596_800 * Second > MaxInt64;
  }

  /** A fresh session has shown no ad: its last ad time is still the zero
      time, so from 1970 on it is past any pre-roll cooldown a `Duration`
      can hold. */
  lemma FreshSessionPassesCooldown(state: State, movie: Result<Config.Movie>, t: int, now: int, cooldown: int)
    requires now >= 0 && InInt64(cooldown)
    ensures Since(now, InitialData(state, movie, t).lastAdTime) >= cooldown
  {
    SinceZeroTimeSaturates(now);
  }

  /** A mid-roll breakpoint `bp` is due when the content has played past it,
      by less than the window (the difference wraps as a `Duration`). */
  predicate InWindow(bp: int, elapsed: int, window: int) {
    elapsed > bp && Wrap64(elapsed - bp) < window
  }

  predicate MidRollDue(bps: seq<int>, elapsed: int, window: int) {
    exists i :: 0 <= i < |bps| && InWindow(bps[i], elapsed, window)
  }

  /** For a breakpoint inside the content and an elapsed time that is a
      `Duration`, the window test is the plain interval test. */
  lemma InWindowExact(bp: int, elapsed: int, window: int)
    requires 0 <= bp && InInt64(elapsed)
    ensures InWindow(bp, elapsed, window) <==> bp < elapsed < bp + window
  {
    if elapsed > bp {
      assert InInt64(elapsed - bp);
    }
  }

  /** `PickNextSessionStartTime`: `last` advanced by the sample plus the
      session gap, truncated to whole seconds (the product with one second
      wraps as a `Duration`). */
  function NextStartTime(gap: real, last: int, sample: real): (t: int)
    ensures InInt64(t - last)
    ensures -1.0 < sample + gap < 1.0 ==> t == last
    ensures 1.0 <= sample + gap < 9_000_000_000.0 ==> t >= last + Second
  {
    var k := Trunc(sample + gap);
    assert 1.0 <= sample + gap < 9_000_000_000.0 ==> 1 <= k < 9_000_000_000 && InInt64(k * Second);
    last + Wrap64(k * Second)
  }

  /** Without overflow the next session starts the whole number of seconds
      of `sample + gap` after `last`, never before it. */
  lemma NextStartWholeSeconds(gap: real, last: int, sample: real)
    requires 0.0 <= sample + gap < 9_000_000_000.0
    ensures var t := NextStartTime(gap, last, sample);
      t >= last && (t - last) % Second == 0
      && ((t - last) / Second) as real <= sample + gap < ((t - last) / Second + 1) as real
  {
    var k := Trunc(sample + gap);
    assert 0 <= k < 9_000_000_000 by {
      assert (k as real) <= sample + gap < 9_000_000_000.0;
    }
    assert 0 <= k * Second <= 9_000_000_000 * Second;
    assert InInt64(k * Second);
    assert NextStartTime(gap, last, sample) - last == k * Second;
    assert (k * Second) / Second == k;
  }

  /** The first candidate after `threshold` reached from `candidate` by
      `NextStartTime` steps, one sample each; None if the samples run out
      first. */
  function FirstTimeStamp(gap: real, candidate: int, threshold: int, samples: seq<real>): (r: Option<int>)
    ensures r.Some? ==> r.value > threshold
    decreases |samples|
  {
    if samples == [] then None
    else
      var next := NextStartTime(gap, candidate, samples[0]);
      if next > threshold then Some(next) else FirstTimeStamp(gap, next, threshold, samples[1..])
  }

  /** Where `PickFirstTimeStamp` starts, two `beta`s of seconds before
      `start`, and the instant (one `beta` before `start`) it must pass. */
  function WarmUpStart(start: int, beta: real): int {
    start + Wrap64(-Trunc(2.0 * beta) * Second)
  }

  function WarmUpThreshold(start: int, beta: real): int {
    start + Wrap64(-Trunc(beta) * Second)
  }

  /** When every step is at least a second (and small enough not to wrap),
      enough samples always carry the candidate past the threshold. */
  lemma {:induction false} FirstTimeStampArrives(gap: real, candidate: int, threshold: int, samples: seq<real>)
    requires forall i :: 0 <= i < |samples| ==> 1.0 <= samples[i] + gap < 1000.0
    requires candidate <= threshold < candidate + |samples| * Second
    ensures FirstTimeStamp(gap, candidate, threshold, samples).Some?
    decreases |samples|
  {
    var next := NextStartTime(gap, candidate, samples[0]);
    NextStartWholeSeconds(gap, candidate, samples[0]);
    assert next >= candidate + Second by {
      assert (next - candidate) / Second >= 1 by {
        assert ((next - candidate) / Second + 1) as real > 1.0;
      }
    }
    if next <= threshold {
      FirstTimeStampArrives(gap, next, threshold, samples[1..]);
    }
  }

  /** When every step truncates to zero seconds, a candidate at or before
      the threshold never passes it, however many samples there are. */
  lemma {:induction false} FirstTimeStampStalls(gap: real, candidate: int, threshold: int, samples: seq<real>)
    requires forall i :: 0 <= i < |samples| ==> -1.0 < samples[i] + gap < 1.0
    requires candidate <= threshold
    ensures FirstTimeStamp(gap, candidate, threshold, samples).None?
    decreases |samples|
  {
    if samples != [] {
      assert Trunc(samples[0] + gap) == 0;
      assert NextStartTime(gap, candidate, samples[0]) == candidate;
      FirstTimeStampStalls(gap, candidate, threshold, samples[1..]);
    }
  }

  /** With `beta` 0 the warm-up starts at its threshold, `start`, and every
      exponential sample is 0 (`ExpFloat64() / (1 / 0)`); with a session gap
      under a second the Go loop then never ends: no finite run of samples
      arrives. */
  lemma {:induction false} FirstTimeStampNeverArrivesWithoutBeta(gap: real, start: int, samples: seq<real>)
    requires -1.0 < gap < 1.0
    requires forall i :: 0 <= i < |samples| ==> samples[i] == 0.0
    ensures WarmUpStart(start, 0.0) == start == WarmUpThreshold(start, 0.0)
    ensures FirstTimeStamp(gap, WarmUpStart(start, 0.0), WarmUpThreshold(start, 0.0), samples).None?
  {
    FirstTimeStampStalls(gap, start, start, samples);
  }

  /** `PickFirstTimeStamp`: steps a candidate from `WarmUpStart` until it
      passes `WarmUpThreshold`, one sample per step. */
  method PickFirstTimeStamp(gap: real, start: int, beta: real, samples: seq<real>) returns (r: Option<int>)
    ensures r == FirstTimeStamp(gap, WarmUpStart(start, beta), WarmUpThreshold(start, beta), samples)
    ensures r.Some? ==> r.value > WarmUpThreshold(start, beta)
  {
    var candidate := start + Wrap64(-Trunc(2.0 * beta) * Second);
    var k := 0;
    while k < |samples|
      invariant 0 <= k <= |samples|
      invariant FirstTimeStamp(gap, candidate, WarmUpThreshold(start, beta), samples[k..])
             == FirstTimeStamp(gap, WarmUpStart(start, beta), WarmUpThreshold(start, beta), samples)
    {
      assert samples[k..][1..] == samples[k + 1..];
      candidate := NextStartTime(gap, candidate, samples[k]);
      if candidate > start + Wrap64(-Trunc(beta) * Second) {
        return Some(candidate);
      }
      k := k + 1;
    }
    return None;
  }

  // ---------------------------------------------------------------------
  // Sessions

  class Session {
    const id: int
    const startTime: int
    const alpha: real
    const beta: real
    const auth: string
    const level: string
    const stateMap: AuthLevelStateMap
    const config: Config.Config
    var itemInSession: int
    var currentState: State?
    var previousState: State?
    const currentContent: Option<Content>
    var currentAd: Option<Ad>
    var currentMovie: Option<Config.Movie>
    var currentMovieEnd: int
    var nextEventTime: int
    var nextEventType: string
    var lastAdTime: int
    var finished: bool

    function Snap(): SessionData
      reads this
    {
      SessionData(itemInSession, currentState, previousState, currentAd, currentMovie,
                  currentMovieEnd, nextEventTime, nextEventType, lastAdTime, finished)
    }

    /** The movie being watched comes from the catalogue. */
    ghost predicate Valid()
      reads this, config
    {
      config.Valid() && (currentMovie.Some? ==> currentMovie.value in config.movies)
    }

    /** The session literal of `NewSession`; the fields it leaves out keep
        Go's zero values. */
    constructor (id: int, nextEventTime: int, alpha: real, beta: real, stateMap: AuthLevelStateMap,
                 auth: string, level: string, state: State, movie: Option<Config.Movie>, movieEnd: int,
                 config: Config.Config)
      ensures this.id == id && this.alpha == alpha && this.beta == beta
      ensures this.auth == auth && this.level == level && this.stateMap == stateMap && this.config == config
      ensures startTime == ZeroTime && currentContent.None?
      ensures Snap() == SessionData(0, state, null, None, movie, movieEnd, nextEventTime, "", ZeroTime, false)
    {
      this.id := id;
      startTime := ZeroTime;
      this.alpha := alpha;
      this.beta := beta;
      this.auth := auth;
      this.level := level;
      this.stateMap := stateMap;
      this.config := config;
      itemInSession := 0;
      currentState := state;
      previousState := null;
      currentContent := None;
      currentAd := None;
      currentMovie := movie;
      currentMovieEnd := movieEnd;
      this.nextEventTime := nextEventTime;
      nextEventType := "";
      lastAdTime := ZeroTime;
      finished := false;
    }

    /** `IncrementEvent`: draws the next state and applies `Advance`; a
        session without a current state fails (nil dereference). */
    method IncrementEvent(d: StepDraws) returns (r: Outcome)
      requires currentState != null ==> IsEnumeration(d.order, currentState.Combined().Keys)
      requires MovieDrawFits(config.genreMap, d.movie)
      modifies this
      ensures old(currentState) == null ==> r.Fail? && Snap() == old(Snap())
      ensures old(currentState) != null ==>
        var st := Advance(old(Snap()), Walk(old(currentState.Combined()), d.order, d.p), d,
                          NextMovieOf(config.genreMap, d.movie));
        Snap() == st.data && r == st.outcome
      ensures r.Pass? ==> currentState != null
      ensures old(Valid()) ==> Valid()
    {
      if currentState == null {
        return Fail("nil pointer dereference");
      }
      var next := currentState.GetNextState(d.order, d.p);
      ghost var before := Snap();
      r := Apply(if next == null then None else Some(next), d);
      AdvanceFacts(before, if next == null then None else Some(next), d, NextMovieOf(config.genreMap, d.movie));
    }

    /** The move of `IncrementEvent` to the drawn state. */
    method Apply(next: Option<State>, d: StepDraws) returns (r: Outcome)
      requires MovieDrawFits(config.genreMap, d.movie)
      modifies this
      ensures var st := Advance(old(Snap()), next, d, NextMovieOf(config.genreMap, d.movie));
        Snap() == st.data && r == st.outcome
    {
      r := Pass;
      if next.None? {
        finished := true;
      } else if IsRedirect(next.value.statusCode) {
        nextEventTime := nextEventTime + Second;
        currentState := next.value;
        itemInSession := itemInSession + 1;
      } else if next.value.page == "NextVideo" {
        r := PlayNextVideo(next.value, d);
      } else if next.value.page == "AdStart" {
        StartAd(d.now, d.adNumber);
      } else if next.value.page == "AdImpression" {
        ScheduleNextAdImpression(d.now, d.impression);
      } else if next.value.page == "AdEnd" {
        FinishAdAndResumeContent(d.now);
      } else {
        nextEventTime := nextEventTime + Trunc(d.sample);
        currentState := next.value;
        itemInSession := itemInSession + 1;
      }
    }

    /** The `NextVideo` case of `IncrementEvent`. */
    method PlayNextVideo(next: State, d: StepDraws) returns (r: Outcome)
      requires MovieDrawFits(config.genreMap, d.movie)
      modifies this
      ensures var st := NextVideoStep(old(Snap()), next, d, NextMovieOf(config.genreMap, d.movie));
        Snap() == st.data && r == st.outcome
    {
      var s := Snap();
      if s.currentMovie.None? {
        Store(s.(nextEventTime := s.nextEventTime + Trunc(d.sample)));
        return Fail("nil pointer dereference");
      }
      var t := if s.nextEventTime < s.currentMovieEnd then s.currentMovieEnd else s.nextEventTime + Trunc(d.sample);
      var m := config.NextMovie(d.movie.keys, d.movie.genreDraw, d.movie.movieDraw);
      if m.Err? {
        Store(s.(nextEventTime := t));
        return Fail(m.error);
      }
      Store(s.(nextEventTime := t, currentMovie := Some(m.value), currentMovieEnd := t + m.value.runtime,
               previousState := s.currentState, currentState := next, itemInSession := s.itemInSession + 1));
      return Pass;
    }

    method Store(data: SessionData)
      modifies this
      ensures Snap() == data
    {
      itemInSession, currentState, previousState, currentAd, currentMovie := data.itemInSession, data.currentState, data.previousState, data.currentAd, data.currentMovie;
      currentMovieEnd, nextEventTime, nextEventType, lastAdTime, finished := data.currentMovieEnd, data.nextEventTime, data.nextEventType, data.lastAdTime, data.finished;
    }

    method StartAd(now: int, adNumber: nat)
      modifies this
      ensures Snap() == AdStarted(old(Snap()), now, adNumber)
    {
      currentAd := Some(Ad(AdId(adNumber), "Standard", AdDuration, now));
      nextEventType := "AdImpression";
      nextEventTime := now + AdDuration;
      lastAdTime := now;
    }

    method ScheduleNextAdImpression(now: int, draw: real)
      modifies this
      ensures Snap() == ImpressionScheduled(old(Snap()), now, draw)
    {
      if draw < 0.8 {
        nextEventTime := now + 5 * Second;
      } else {
        nextEventTime := now + 5 * Second;
        nextEventType := "AdEnd";
      }
    }

    method FinishAdAndResumeContent(now: int)
      modifies this
      ensures Snap() == AdFinished(old(Snap()), now)
    {
      currentAd := None;
      nextEventType := "NextVideo";
      nextEventTime := now + Minute;
    }

    method StartAdSequence(adType: string, now: int, adNumber: nat)
      modifies this
      ensures Snap() == AdSequenceStarted(old(Snap()), adType, now, adNumber)
    {
      currentAd := Some(Ad(AdId(adNumber), adType, AdDuration, now));
      nextEventType := "AdStart";
      nextEventTime := now;
      lastAdTime := now;
    }

    /** `shouldInsertPreRollAd`: an ad is due once the cooldown has passed
        since the last one and the draw falls below the frequency; taking it
        restarts the cooldown. */
    method ShouldInsertPreRollAd(ads: Config.AdConfig, now: int, draw: real) returns (b: bool)
      modifies this
      ensures b <==> Since(now, old(lastAdTime)) >= ads.preRollCooldown && draw < ads.preRollFrequency
      ensures Snap() == if b then old(Snap()).(lastAdTime := now) else old(Snap())
    {
      if Since(now, lastAdTime) >= ads.preRollCooldown && draw < ads.preRollFrequency {
        lastAdTime := now;
        return true;
      }
      return false;
    }

    /** `shouldInsertMidRollAd`: whether some breakpoint of the current
        content is within the window behind the time played; without
        content it dereferences nil. */
    method ShouldInsertMidRollAd(ads: Config.AdConfig, now: int) returns (r: Result<bool>)
      ensures r.Err? <==> currentContent.None?
      ensures r.Ok? ==>
        (r.value <==> MidRollDue(currentContent.value.breakpoints,
                                 Since(now, currentContent.value.startTime), ads.midRollWindow))
    {
      if currentContent.None? {
        return Err("nil pointer dereference");
      }
      var c := currentContent.value;
      var elapsed := Since(now, c.startTime);
      var i := 0;
      while i < |c.breakpoints|
        invariant 0 <= i <= |c.breakpoints|
        invariant forall j :: 0 <= j < i ==> !InWindow(c.breakpoints[j], elapsed, ads.midRollWindow)
      {
        var bp := c.breakpoints[i];
        if elapsed > bp && Wrap64(elapsed - bp) < ads.midRollWindow {
          return Ok(true);
        }
        i := i + 1;
      }
      return Ok(false);
    }

    /** `IsDone` at the instant `now`. */
    function IsDone(now: int): (b: bool)
      reads this
      ensures finished ==> b
      ensures currentContent.Some? || currentAd.Some? ==> (b <==> finished)
      ensures !finished && now <= nextEventTime ==> !b
      ensures currentContent.None? && currentAd.None? && now > nextEventTime ==> b
    {
      Done(Snap(), currentContent, now)
    }

    method MarkAsFinished()
      modifies this
      ensures Snap() == old(Snap()).(finished := true)
      ensures IsDone(0)
    {
      finished := true;
    }

    /** `NextSession`: a new session of the same user, auth and level,
        starting `NextStartTime` after this one's next event. */
    method NextSession(ids: Counter, sample: real, pick: StatePick, md: MovieDraw) returns (r: Result<Session>)
      requires ids.Valid() && stateMap.Valid()
      requires BucketKey(auth, level) in stateMap.Buckets ==> PickFits(stateMap.Buckets[BucketKey(auth, level)], pick)
      requires MovieDrawFits(config.genreMap, md)
      modifies ids, stateMap, stateMap.Repr
      ensures ids.Valid() && stateMap.Valid() && stateMap.Repr == old(stateMap.Repr)
      ensures Drew(old(stateMap.Buckets), old(stateMap.Used), stateMap.Buckets, stateMap.Used, BucketKey(auth, level), pick.swaps)
      ensures r.Err? <==> Refused(stateMap.Buckets, BucketKey(auth, level), pick.target, NextMovieOf(config.genreMap, md))
      ensures r.Err? ==> ids.value == old(ids.value)
      ensures r.Ok? ==> fresh(r.value) && ids.value == Wrap64(old(ids.value) + 1)
      ensures r.Ok? ==>
        IsNew(r.value, ids.value, NextStartTime(config.settings.sessionGap, nextEventTime, sample),
              alpha, beta, stateMap, stateMap.Buckets, auth, level, pick.target, md, config, config.genreMap)
      ensures r.Ok? && config.Valid() ==> r.value.Valid()
    {
      var t := NextStartTime(config.settings.sessionGap, nextEventTime, sample);
      r := NewSession(ids, t, alpha, beta, stateMap, auth, level, pick, md, config);
    }
  }

  /** `GetRandomState` drew from the chooser of `key`: sorted it on first
      use and left every other chooser alone. */
  predicate Drew(buckets: map<string, seq<Item<State>>>, used: set<string>,
                 buckets': map<string, seq<Item<State>>>, used': set<string>, key: string, swaps: seq<(nat, nat)>)
  {
    buckets'.Keys == buckets.Keys
    && (forall k :: k in buckets && k != key ==> buckets'[k] == buckets[k])
    && (key !in buckets ==> used' == used)
    && (key in buckets ==>
          used' == used + {key}
          && (key in used ==> buckets'[key] == buckets[key])
          && (key !in used && ValidSwaps(|buckets[key]|, swaps) ==> buckets'[key] == ApplySwaps(buckets[key], swaps)))
  }

  /** The state the chooser's items give for the target. */
  function Picked(items: seq<Item<State>>, target: int): State
    requires items != []
  {
    items[Chosen(Weights(items), target)].value
  }

  /** The movie a session starting on `state` begins with. */
  function StartingMovie(state: State, movie: Result<Config.Movie>): Option<Config.Movie> {
    if state.page == "NextVideo" && movie.Ok? then Some(movie.value) else None
  }

  /** `NewSession` panics: no chooser for the key (nil state), a chooser of
      no weight (`Intn(0)`), or a first page `NextVideo` without a movie. */
  predicate Refused(buckets: map<string, seq<Item<State>>>, key: string, target: int, movie: Result<Config.Movie>) {
    key !in buckets || buckets[key] == [] || Sum(Weights(buckets[key])) <= 0
    || (Picked(buckets[key], target).page == "NextVideo" && movie.Err?)
  }

  /** The data of the session literal of `NewSession` on `state`, due at
      `t`, its first movie drawn as `movie`. */
  function InitialData(state: State, movie: Result<Config.Movie>, t: int): SessionData {
    var m := StartingMovie(state, movie);
    SessionData(0, state, null, None, m, if m.Some? then t + m.value.runtime else ZeroTime, t, "", ZeroTime, false)
  }

  /** `s` is the session literal of `NewSession` with data `data`. */
  ghost predicate Opened(s: Session, id: int, alpha: real, beta: real, stateMap: AuthLevelStateMap,
                         auth: string, level: string, cfg: Config.Config, data: SessionData)
    reads s
  {
    s.id == id && s.startTime == ZeroTime && s.alpha == alpha && s.beta == beta
    && s.auth == auth && s.level == level && s.stateMap == stateMap && s.config == cfg
    && s.currentContent.None? && s.Snap() == data
  }

  /** `s` is the session `NewSession` builds from these arguments. */
  ghost predicate IsNew(s: Session, id: int, t: int, alpha: real, beta: real, stateMap: AuthLevelStateMap,
                        buckets: map<string, seq<Item<State>>>, auth: string, level: string, target: int,
                        md: MovieDraw, cfg: Config.Config, gm: map<string, seq<Config.Movie>>)
    reads s
  {
    var key := BucketKey(auth, level);
    key in buckets && buckets[key] != [] && MovieDrawFits(gm, md)
    && Opened(s, id, alpha, beta, stateMap, auth, level, cfg, InitialData(Picked(buckets[key], target), NextMovieOf(gm, md), t))
  }

  /** `NewSession`: a session on a state drawn for the auth/level key, with
      a first movie when that state is `NextVideo`, numbered by the session
      counter. */
  method NewSession(ids: Counter, nextEventTime: int, alpha: real, beta: real, stateMap: AuthLevelStateMap,
                    auth: string, level: string, pick: StatePick, md: MovieDraw, cfg: Config.Config)
    returns (r: Result<Session>)
    requires ids.Valid() && stateMap.Valid()
    requires BucketKey(auth, level) in stateMap.Buckets ==> PickFits(stateMap.Buckets[BucketKey(auth, level)], pick)
    requires MovieDrawFits(cfg.genreMap, md)
    modifies ids, stateMap, stateMap.Repr
    ensures ids.Valid() && stateMap.Valid() && stateMap.Repr == old(stateMap.Repr)
    ensures Drew(old(stateMap.Buckets), old(stateMap.Used), stateMap.Buckets, stateMap.Used, BucketKey(auth, level), pick.swaps)
    ensures r.Err? <==> Refused(stateMap.Buckets, BucketKey(auth, level), pick.target, NextMovieOf(cfg.genreMap, md))
    ensures r.Err? ==> ids.value == old(ids.value)
    ensures r.Ok? ==> fresh(r.value) && ids.value == Wrap64(old(ids.value) + 1)
    ensures r.Ok? ==> IsNew(r.value, ids.value, nextEventTime, alpha, beta, stateMap, stateMap.Buckets, auth, level, pick.target, md, cfg, cfg.genreMap)
    ensures r.Ok? && cfg.Valid() ==> r.value.Valid()
  {
    var st := DrawState(stateMap, auth, level, pick);
    if st.Err? {
      return Err(st.error);
    }
    r := OpenOn(ids, st.value, nextEventTime, alpha, beta, stateMap, auth, level, md, cfg);
  }

  /** The first step of `NewSession`: the chooser's state for the key, or
      the panic of a missing chooser (nil state) or an empty one. */
  method DrawState(stateMap: AuthLevelStateMap, auth: string, level: string, pick: StatePick)
    returns (r: Result<State>)
    requires stateMap.Valid()
    requires BucketKey(auth, level) in stateMap.Buckets ==> PickFits(stateMap.Buckets[BucketKey(auth, level)], pick)
    modifies stateMap, stateMap.Repr
    ensures stateMap.Valid() && stateMap.Repr == old(stateMap.Repr)
    ensures Drew(old(stateMap.Buckets), old(stateMap.Used), stateMap.Buckets, stateMap.Used, BucketKey(auth, level), pick.swaps)
    ensures var key := BucketKey(auth, level);
      r.Err? <==> key !in stateMap.Buckets || stateMap.Buckets[key] == [] || Sum(Weights(stateMap.Buckets[key])) <= 0
    ensures r.Ok? ==> r.value == Picked(stateMap.Buckets[BucketKey(auth, level)], pick.target)
  {
    var key := BucketKey(auth, level);
    var st := stateMap.GetRandomState(auth, level, pick.swaps, pick.target);
    if key in stateMap.Buckets && stateMap.Buckets[key] == [] {
      assert Sum(Weights(stateMap.Buckets[key])) == 0;
    }
    if st.Err? {
      return Err(st.error);
    }
    if st.value == null {
      return Err("nil pointer dereference");
    }
    return Ok(st.value);
  }

  /** The rest of `NewSession`: the first movie when the state is
      `NextVideo`, then the session numbered by the counter. */
  method OpenOn(ids: Counter, state: State, nextEventTime: int, alpha: real, beta: real,
                stateMap: AuthLevelStateMap, auth: string, level: string, md: MovieDraw, cfg: Config.Config)
    returns (r: Result<Session>)
    requires ids.Valid() && MovieDrawFits(cfg.genreMap, md)
    modifies ids
    ensures ids.Valid()
    ensures r.Err? <==> state.page == "NextVideo" && NextMovieOf(cfg.genreMap, md).Err?
    ensures r.Err? ==> ids.value == old(ids.value)
    ensures r.Ok? ==> fresh(r.value) && ids.value == Wrap64(old(ids.value) + 1)
    ensures r.Ok? ==>
      Opened(r.value, ids.value, alpha, beta, stateMap, auth, level, cfg, InitialData(state, NextMovieOf(cfg.genreMap, md), nextEventTime))
    ensures r.Ok? && cfg.Valid() ==> r.value.Valid()
  {
    var movie: Option<Config.Movie> := None;
    var movieEnd := ZeroTime;
    if state.page == "NextVideo" {
      var m := cfg.NextMovie(md.keys, md.genreDraw, md.movieDraw);
      if m.Err? {
        return Err(m.error);
      }
      movie := Some(m.value);
      movieEnd := nextEventTime + m.value.runtime;
    }
    var id := ids.Next();
    var s := new Session(id, nextEventTime, alpha, beta, stateMap, auth, level, state, movie, movieEnd, cfg);
    return Ok(s);
  }
}

=== FILE: simulator.dfy ===
/** The simulator's selection helpers and the creation of its users:
    weighted picks over configured preferences and content types, the
    randomised genre preferences of a new user, the conversion of
    subscription chances to weights, and `initializeUsers`, which enqueues
    the configured number of users. Every `rand` call is an injected draw. */
module Simulator {
  import opened Wrappers
  import opened GoNum
  import opened Weighted
  import opened StateGraph
  import opened Sessions
  import opened Users
  import Config

  function PreferenceWeights(prefs: seq<Config.Preference>): (ws: seq<int>)
    ensures |ws| == |prefs| && forall i :: 0 <= i < |prefs| ==> ws[i] == prefs[i].weight
  {
    seq(|prefs|, i requires 0 <= i < |prefs| => prefs[i].weight)
  }

  function ContentWeights(cts: seq<Config.ContentType>): (ws: seq<int>)
    ensures |ws| == |cts| && forall i :: 0 <= i < |cts| ==> ws[i] == cts[i].weight
  {
    seq(|cts|, i requires 0 <= i < |cts| => cts[i].weight)
  }

  /** Weights whose total is positive belong to at least one entry. */
  lemma PositiveSumNonEmpty(ws: seq<int>)
    requires Sum(ws) > 0
    ensures ws != []
  {
  }

  // ---------------------------------------------------------------------
  // selectRandomPreference

  /** The preference `selectRandomPreference` returns for the draw: the first
      whose prefix weight exceeds the draw, or the first preference when no
      prefix does. */
  function Preferred(prefs: seq<Config.Preference>, draw: int): Config.Preference
    requires prefs != []
  {
    var i := FirstAbove(PreferenceWeights(prefs), draw);
    if i < |prefs| then prefs[i] else prefs[0]
  }

  /** With non-negative weights and a draw below their total, the fallback
      is never taken: the preference returned is the one whose share holds
      the draw, it has positive weight, and it is the one `RandomThing`'s
      binary search chooses for the same weights and draw. */
  lemma PreferredSelects(prefs: seq<Config.Preference>, draw: int)
    requires NonNegative(PreferenceWeights(prefs)) && 0 <= draw < Sum(PreferenceWeights(prefs))
    ensures prefs != []
    ensures var ws := PreferenceWeights(prefs);
      var i := FirstAbove(ws, draw);
      i < |prefs| && i == Chosen(ws, draw) && Preferred(prefs, draw) == prefs[i]
      && prefs[i].weight > 0 && Cum(ws, i) - ws[i] <= draw < Cum(ws, i)
  {
    var ws := PreferenceWeights(prefs);
    PositiveSumNonEmpty(ws);
    FirstAboveSelects(ws, draw);
    ChosenSelects(ws, draw);
  }

  /** `selectRandomPreference`: totals the weights, draws below the total
      (`rand.Intn` panics on a total that is not positive) and scans,
      subtracting each weight the draw is not below. */
  method SelectRandomPreference(prefs: seq<Config.Preference>, draw: int) returns (r: Result<Config.Preference>)
    requires Sum(PreferenceWeights(prefs)) > 0 ==> 0 <= draw < Sum(PreferenceWeights(prefs))
    ensures r.Err? <==> Sum(PreferenceWeights(prefs)) <= 0
    ensures r.Ok? ==> prefs != [] && r.value == Preferred(prefs, draw)
  {
    var ws := PreferenceWeights(prefs);
    var total := TotalWeight(ws);
    if total <= 0 {
      return Err("invalid argument to Intn");
    }
    PositiveSumNonEmpty(ws);
    var rest := draw;
    for i := 0 to |prefs|
      invariant i + FirstAbove(ws[i..], rest) == FirstAbove(ws, draw)
    {
      assert ws[i..][1..] == ws[i + 1..];
      if rest < prefs[i].weight {
        return Ok(prefs[i]);
      }
      rest := rest - prefs[i].weight;
    }
    return Ok(prefs[0]);
  }

  // ---------------------------------------------------------------------
  // pickContentType

  /** The content type `pickContentType` returns for the draw: the first
      whose running total exceeds the draw, or "audio" when none does. */
  function ContentPicked(cts: seq<Config.ContentType>, draw: int): string {
    var i := FirstAbove(ContentWeights(cts), draw);
    if i < |cts| then cts[i].kind else "audio"
  }

  /** With non-negative weights and a draw below their total the "audio"
      default is unreachable: the type returned is that of the entry whose
      share holds the draw, which has positive weight. */
  lemma ContentPickedSelects(cts: seq<Config.ContentType>, draw: int)
    requires NonNegative(ContentWeights(cts)) && 0 <= draw < Sum(ContentWeights(cts))
    ensures var ws := ContentWeights(cts);
      var i := FirstAbove(ws, draw);
      i < |cts| && ContentPicked(cts, draw) == cts[i].kind
      && cts[i].weight > 0 && Cum(ws, i) - ws[i] <= draw < Cum(ws, i)
  {
    FirstAboveSelects(ContentWeights(cts), draw);
  }

  /** `pickContentType`: totals the weights, draws below the total and
      returns the first type whose running sum exceeds the draw. */
  method PickContentType(cts: seq<Config.ContentType>, draw: int) returns (r: Result<string>)
    requires Sum(ContentWeights(cts)) > 0 ==> 0 <= draw < Sum(ContentWeights(cts))
    ensures r.Err? <==> Sum(ContentWeights(cts)) <= 0
    ensures r.Ok? ==> r.value == ContentPicked(cts, draw)
  {
    var ws := ContentWeights(cts);
    var total := TotalWeight(ws);
    if total <= 0 {
      return Err("invalid argument to Intn");
    }
    var sum := 0;
    for i := 0 to |cts|
      invariant sum == Sum(ws[..i])
      invariant i + FirstAbove(ws[i..], draw - sum) == FirstAbove(ws, draw)
    {
      assert ws[i..][1..] == ws[i + 1..];
      assert ws[..i + 1] == ws[..i] + [ws[i]];
      SumSnoc(ws[..i], ws[i]);
      sum := sum + cts[i].weight;
      if draw < sum {
        return Ok(cts[i].kind);
      }
    }
    return Ok("audio");
  }

  // ---------------------------------------------------------------------
  // selectRandomPreferences

  /** The name `selectRandomPreferences` stores for one draw: that of the
      first item whose prefix weight exceeds it, or the empty string the
      slice was made with when none does. */
  function SelectedName(items: seq<Config.Preference>, draw: int): string {
    var i := FirstAbove(PreferenceWeights(items), draw);
    if i < |items| then items[i].name else ""
  }

  /** With non-negative weights every stored name is that of an item of
      positive weight, the one whose share holds the draw. */
  lemma SelectedNameSelects(items: seq<Config.Preference>, draw: int)
    requires NonNegative(PreferenceWeights(items)) && 0 <= draw < Sum(PreferenceWeights(items))
    ensures var i := FirstAbove(PreferenceWeights(items), draw);
      i < |items| && SelectedName(items, draw) == items[i].name && items[i].weight > 0
      && SelectedName(items, draw) == Preferred(items, draw).name
  {
    PreferredSelects(items, draw);
  }

  /** `selectRandomPreferences`: `count` names, each chosen by its own draw.
      A negative count makes `make` panic; a positive count over a total
      that is not positive makes `rand.Intn` panic. */
  method SelectRandomPreferences(items: seq<Config.Preference>, count: int, draws: seq<int>)
    returns (r: Result<seq<string>>)
    requires count >= 0 ==> |draws| == count
    requires Sum(PreferenceWeights(items)) > 0 ==>
      forall j :: 0 <= j < |draws| ==> 0 <= draws[j] < Sum(PreferenceWeights(items))
    ensures r.Err? <==> count < 0 || (count > 0 && Sum(PreferenceWeights(items)) <= 0)
    ensures r.Ok? ==> |r.value| == count && forall j :: 0 <= j < count ==> r.value[j] == SelectedName(items, draws[j])
  {
    if count < 0 {
      return Err("makeslice: len out of range");
    }
    var selected := new string[count](_ => "");
    for i := 0 to count
      invariant forall j :: 0 <= j < i ==> selected[j] == SelectedName(items, draws[j])
      invariant forall j :: i <= j < count ==> selected[j] == ""
      invariant i > 0 ==> Sum(PreferenceWeights(items)) > 0
    {
      var ws := PreferenceWeights(items);
      var total := TotalWeight(ws);
      if total <= 0 {
        return Err("invalid argument to Intn");
      }
      var rest := draws[i];
      var k := 0;
      while k < |items|
        invariant 0 <= k <= |items|
        invariant k + FirstAbove(ws[k..], rest) == FirstAbove(ws, draws[i])
        invariant forall j :: 0 <= j < i ==> selected[j] == SelectedName(items, draws[j])
        invariant forall j :: i <= j < count ==> selected[j] == ""
      {
        assert ws[k..][1..] == ws[k + 1..];
        if rest < items[k].weight {
          selected[i] := items[k].name;
          break;
        }
        rest := rest - items[k].weight;
        k := k + 1;
      }
    }
    return Ok(selected[..]);
  }

  // ---------------------------------------------------------------------
  // generateRandomGenrePreferences

  /** The map the genre loop builds: each configured genre's weight times
      its factor `draw + 1` (`rand.Intn(10) + 1`), a later genre of the same
      name overwriting an earlier one. */
  function GenreWeights(genres: seq<Config.Preference>, draws: seq<int>): map<string, int>
    requires |draws| == |genres|
    decreases |genres|
  {
    if genres == [] then map[]
    else
      var n := |genres| - 1;
      GenreWeights(genres[..n], draws[..n])[genres[n].name := genres[n].weight * (draws[n] + 1)]
  }

  /** The keys are exactly the configured genre names. */
  lemma {:induction false} GenreWeightsKeys(genres: seq<Config.Preference>, draws: seq<int>, k: string)
    requires |draws| == |genres|
    ensures k in GenreWeights(genres, draws) <==> exists i :: 0 <= i < |genres| && genres[i].name == k
    decreases |genres|
  {
    if genres != [] {
      var n := |genres| - 1;
      GenreWeightsKeys(genres[..n], draws[..n], k);
      if k in GenreWeights(genres[..n], draws[..n]) {
        var i :| 0 <= i < n && genres[..n][i].name == k;
        assert genres[i].name == k;
      }
      if exists i :: 0 <= i < |genres| && genres[i].name == k {
        var i :| 0 <= i < |genres| && genres[i].name == k;
        if i < n {
          assert genres[..n][i].name == k;
        }
      }
    }
  }

  /** The value of a name comes from its last occurrence. */
  lemma {:induction false} GenreWeightsLastWins(genres: seq<Config.Preference>, draws: seq<int>, i: nat)
    requires |draws| == |genres| && i < |genres|
    requires forall j :: i < j < |genres| ==> genres[j].name != genres[i].name
    ensures genres[i].name in GenreWeights(genres, draws)
    ensures GenreWeights(genres, draws)[genres[i].name] == genres[i].weight * (draws[i] + 1)
    decreases |genres|
  {
    var n := |genres| - 1;
    if i < n {
      GenreWeightsLastWins(genres[..n], draws[..n], i);
    }
  }

  /** With factors drawn by `rand.Intn(10)`, every value is the weight of a
      configured genre of that name times a factor between 1 and 10. */
  lemma GenreWeightsFactor(genres: seq<Config.Preference>, draws: seq<int>, k: string)
    requires |draws| == |genres| && forall j :: 0 <= j < |draws| ==> 0 <= draws[j] < 10
    requires k in GenreWeights(genres, draws)
    ensures exists i :: 0 <= i < |genres| && genres[i].name == k && 1 <= draws[i] + 1 <= 10
                        && GenreWeights(genres, draws)[k] == genres[i].weight * (draws[i] + 1)
  {
    GenreWeightsKeys(genres, draws, k);
    var i :| 0 <= i < |genres| && genres[i].name == k;
    while exists j :: i < j < |genres| && genres[j].name == k
      invariant 0 <= i < |genres| && genres[i].name == k
      decreases |genres| - i
    {
      var j :| i < j < |genres| && genres[j].name == k;
      i := j;
    }
    GenreWeightsLastWins(genres, draws, i);
  }

  /** `generateRandomGenrePreferences`: one factor per configured genre, in
      configuration order. */
  method GenerateRandomGenrePreferences(genres: seq<Config.Preference>, draws: seq<int>)
    returns (m: map<string, int>)
    requires |draws| == |genres|
    ensures m == GenreWeights(genres, draws)
  {
    m := map[];
    for i := 0 to |genres|
      invariant m == GenreWeights(genres[..i], draws[..i])
    {
      assert genres[..i + 1][..i] == genres[..i] && draws[..i + 1][..i] == draws[..i];
      m := m[genres[i].name := genres[i].weight * (draws[i] + 1)];
    }
    assert genres[..|genres|] == genres && draws[..|draws|] == draws;
  }

  // ---------------------------------------------------------------------
  // convertToPreferences and weightedRandomSubscriptionType

  /** The preferences `convertToPreferences` makes: one per chance, in order,
      named by its type and weighted by the chance times 100 truncated. */
  function Converted(chances: seq<Config.SubscriptionChance>): (ps: seq<Config.Preference>)
    ensures |ps| == |chances|
    ensures forall i :: 0 <= i < |chances| ==> ps[i].name == chances[i].kind
  {
    seq(|chances|, i requires 0 <= i < |chances| => Config.Preference(chances[i].kind, Trunc(chances[i].chance * 100.0)))
  }

  function ChanceSum(chances: seq<Config.SubscriptionChance>): real {
    if chances == [] then 0.0 else chances[0].chance + ChanceSum(chances[1..])
  }

  /** The conversion keeps the length and the order, and each weight is the
      percentage rounded toward zero: within one below it for a
      non-negative chance, and between 0 and 100 for a chance in [0, 1]. */
  lemma ConvertedEntries(chances: seq<Config.SubscriptionChance>)
    ensures |Converted(chances)| == |chances|
    ensures forall i :: 0 <= i < |chances| ==>
      var p := Converted(chances)[i];
      p.name == chances[i].kind
      && (chances[i].chance >= 0.0 ==> p.weight as real <= chances[i].chance * 100.0 < p.weight as real + 1.0)
      && (0.0 <= chances[i].chance <= 1.0 ==> 0 <= p.weight <= 100)
  {
  }

  /** Over non-negative chances the truncation loses less than one per
      entry: the total weight lies in (100 * total - n, 100 * total]. */
  lemma {:induction false} ConvertedTotal(chances: seq<Config.SubscriptionChance>)
    requires forall i :: 0 <= i < |chances| ==> chances[i].chance >= 0.0
    ensures var total := Sum(PreferenceWeights(Converted(chances))) as real;
      100.0 * ChanceSum(chances) - |chances| as real < total + 1.0
      && total <= 100.0 * ChanceSum(chances)
    decreases |chances|
  {
    if chances != [] {
      var ws := PreferenceWeights(Converted(chances));
      ConvertedTotal(chances[1..]);
      assert PreferenceWeights(Converted(chances[1..])) == ws[1..];
      ConvertedEntries(chances);
    }
  }

  /** `convertToPreferences`: the slice made to the chances' length and
      filled in order. */
  method ConvertToPreferences(chances: seq<Config.SubscriptionChance>) returns (prefs: seq<Config.Preference>)
    ensures prefs == Converted(chances)
  {
    var a := new Config.Preference[|chances|](_ => Config.Preference("", 0));
    for i := 0 to |chances|
      invariant forall j :: 0 <= j < i ==> a[j] == Converted(chances)[j]
    {
      a[i] := Config.Preference(chances[i].kind, Trunc(chances[i].chance * 100.0));
    }
    prefs := a[..];
  }

  /** `weightedRandomSubscriptionType`: a weighted pick over the converted
      chances. */
  method WeightedRandomSubscriptionType(chances: seq<Config.SubscriptionChance>, draw: int) returns (r: Result<string>)
    requires var ws := PreferenceWeights(Converted(chances)); Sum(ws) > 0 ==> 0 <= draw < Sum(ws)
    ensures r.Err? <==> Sum(PreferenceWeights(Converted(chances))) <= 0
    ensures r.Ok? ==> Converted(chances) != [] && r.value == Preferred(Converted(chances), draw).name
  {
    var prefs := ConvertToPreferences(chances);
    var chosen := SelectRandomPreference(prefs, draw);
    if chosen.Err? {
      return Err(chosen.error);
    }
    return Ok(chosen.value.name);
  }

  // ---------------------------------------------------------------------
  // initializeUsers

  /** The draws that create one user, in the order `initializeUsers` takes
      them: the level, the auth level, the genre factors, the two normal
      samples of `randomLogNormal`, and what `NewUser` draws. */
  datatype Newcomer = Newcomer(level: int, auth: int, factors: seq<int>, alphaNormal: real, betaNormal: real,
                               user: UserDraws)

  /** `randomLogNormal(mean, 0.5)` on the normal sample `z`. */
  function LogNormal(mean: real, z: real): (r: real)
    ensures (r > mean <==> z > 0.0) && (r < mean <==> z < 0.0)
    ensures r < 0.0 <==> z < -2.0 * mean
  {
    z * 0.5 + mean
  }

  /** Draws that `initializeUsers` can take for one user under these
      settings and genre index. */
  predicate NewcomerFits(st: Config.Settings, gm: map<string, seq<Config.Movie>>, d: Newcomer) {
    var lw := PreferenceWeights(st.levels);
    var aw := PreferenceWeights(st.authLevels);
    (Sum(lw) > 0 ==> 0 <= d.level < Sum(lw))
    && (Sum(aw) > 0 ==> 0 <= d.auth < Sum(aw))
    && |d.factors| == |st.genres| && (forall j :: 0 <= j < |d.factors| ==> 0 <= d.factors[j] < 10)
    && |d.user.nows| == |st.newSessionPages| && MovieDrawFits(gm, d.user.movie)
    && (st.levels != [] && st.authLevels != [] ==>
          PickFitsPages(st.newSessionPages, BucketKey(Preferred(st.authLevels, d.auth).name,
                                                      Preferred(st.levels, d.level).name), d.user.pick))
  }

  /** `u` is user number `i` as `initializeUsers` creates it from `d`. */
  ghost predicate Created(u: User, st: Config.Settings, i: int, d: Newcomer)
    reads u
  {
    st.levels != [] && st.authLevels != []
    && u.startTime == st.startTime + Config.MinutesDuration(i)
    && u.initialLevel == Preferred(st.levels, d.level).name
    && u.auth == Preferred(st.authLevels, d.auth).name
    && |d.factors| == |st.genres| && u.genrePreferences == GenreWeights(st.genres, d.factors)
    && u.alpha == LogNormal(st.alpha, d.alphaNormal) && u.beta == LogNormal(st.beta, d.betaNormal)
  }

  /** `Simulator`: the configuration and the queue of users. */
  class Simulator {
    const config: Config.Config
    const userQueue: UserQueue

    /** `NewSimulator`: an empty user queue. */
    constructor (cfg: Config.Config)
      ensures config == cfg && fresh(userQueue) && fresh(userQueue.queue) && userQueue.queue.items == []
    {
      config := cfg;
      userQueue := new UserQueue();
    }

    /** One pass of the `initializeUsers` loop: user `i`'s level and auth
        level, genre preferences, start time `i` minutes after the
        configured start, and the user `NewUser` makes of them. */
    method CreateUser(userIds: Counter, sessionIds: Counter, i: int, d: Newcomer) returns (r: Result<User>)
      requires userIds.Valid() && sessionIds.Valid() && userIds != sessionIds
      requires NewcomerFits(config.settings, config.genreMap, d)
      modifies userIds, sessionIds
      ensures userIds.Valid() && sessionIds.Valid()
      ensures Sum(PreferenceWeights(config.settings.levels)) <= 0 || Sum(PreferenceWeights(config.settings.authLevels)) <= 0
        ==> r.Err?
      ensures r.Ok? ==> fresh(r.value) && Created(r.value, config.settings, i, d)
    {
      var st := config.settings;
      var level := SelectRandomPreference(st.levels, d.level);
      if level.Err? {
        return Err(level.error);
      }
      var auth := SelectRandomPreference(st.authLevels, d.auth);
      if auth.Err? {
        return Err(auth.error);
      }
      var genres := GenerateRandomGenrePreferences(st.genres, d.factors);
      var startTime := st.startTime + Config.MinutesDuration(i);
      var u := NewUser(userIds, sessionIds, LogNormal(st.alpha, d.alphaNormal), LogNormal(st.beta, d.betaNormal),
                       startTime, auth.value.name, level.value.name, config, genres, d.user);
      if u.Err? {
        return Err(u.error);
      }
      return Ok(u.value);
    }

    /** `initializeUsers`: users 0 to `NUsers - 1`, enqueued in that order.
        A panic while creating one stops the loop with the earlier users
        already enqueued. */
    method InitializeUsers(userIds: Counter, sessionIds: Counter, draws: seq<Newcomer>) returns (r: Outcome)
      requires userIds.Valid() && sessionIds.Valid() && userIds != sessionIds
      requires |draws| >= config.settings.nUsers
      requires forall j :: 0 <= j < |draws| ==> NewcomerFits(config.settings, config.genreMap, draws[j])
      modifies userQueue.queue, userIds, sessionIds
      ensures userIds.Valid() && sessionIds.Valid()
      ensures old(userQueue.queue.items) <= userQueue.queue.items
      ensures var added := userQueue.queue.items[|old(userQueue.queue.items)|..];
        |added| <= |draws|
        && (forall j :: 0 <= j < |added| ==> fresh(added[j]) && Created(added[j], config.settings, j, draws[j]))
        && (r.Pass? ==> |added| == if config.settings.nUsers < 0 then 0 else config.settings.nUsers)
        && (r.Fail? ==> |added| < config.settings.nUsers)
      ensures config.settings.nUsers > 0
        && (Sum(PreferenceWeights(config.settings.levels)) <= 0 || Sum(PreferenceWeights(config.settings.authLevels)) <= 0)
        ==> r.Fail? && userQueue.queue.items == old(userQueue.queue.items)
    {
      ghost var before := userQueue.queue.items;
      ghost var added: seq<User> := [];
      var i := 0;
      while i < config.settings.nUsers
        invariant 0 <= i <= (if config.settings.nUsers < 0 then 0 else config.settings.nUsers) && i <= |draws|
        invariant Sum(PreferenceWeights(config.settings.levels)) <= 0 || Sum(PreferenceWeights(config.settings.authLevels)) <= 0
          ==> i == 0
        invariant userIds.Valid() && sessionIds.Valid()
        invariant userQueue.queue.items == before + added && |added| == i
        invariant forall j :: 0 <= j < i ==> fresh(added[j]) && Created(added[j], config.settings, j, draws[j])
        decreases config.settings.nUsers - i
      {
        var u := CreateUser(userIds, sessionIds, i, draws[i]);
        if u.Err? {
          assert userQueue.queue.items[|before|..] == added;
          return Fail(u.error);
        }
        userQueue.Enqueue(u.value);
        added := added + [u.value];
        i := i + 1;
      }
      assert userQueue.queue.items[|before|..] == added;
      return Pass;
    }
  }
}

=== FILE: state.dfy ===
/** The page graph a session walks: states with three transition tables
    (lateral, upgrade, downgrade), the choice of the next state by a walk over
    the combined table, the per-auth/level chooser of initial states, and the
    construction of all of these from the configuration. */
module StateGraph {
  import opened Wrappers
  import opened MapSums
  import opened Weighted
  import Config

  datatype Kind = Lateral | Upgrade | Downgrade

  /** The value of `m` at `s`, or Go's zero value when `s` is missing. */
  function Get<K>(m: map<K, real>, s: K): real {
    if s in m then m[s] else 0.0
  }

  /** The entry-wise sum of two tables, as `combined[state] += prob` over
      each entry of `b` builds it from `a`. */
  function Merge<K>(a: map<K, real>, b: map<K, real>): (c: map<K, real>)
    ensures c.Keys == a.Keys + b.Keys
  {
    map s | s in a.Keys + b.Keys :: Get(a, s) + Get(b, s)
  }

  // ---------------------------------------------------------------------
  // The walk over the combined table

  /** The walk of `GetNextState` over the keys in `order`, having already
      accumulated `total`: the first key at which the running total exceeds
      `p`, or none. */
  function WalkFrom<K>(m: map<K, real>, order: seq<K>, p: real, total: real): (r: Option<K>)
    requires forall i :: 0 <= i < |order| ==> order[i] in m
    ensures r.Some? ==> r.value in order && r.value in m
    decreases |order|
  {
    if order == [] then None
    else if p < total + m[order[0]] then Some(order[0])
    else WalkFrom(m, order[1..], p, total + m[order[0]])
  }

  function Walk<K>(m: map<K, real>, order: seq<K>, p: real): (r: Option<K>)
    requires forall i :: 0 <= i < |order| ==> order[i] in m
    ensures r.Some? ==> r.value in order && r.value in m
    ensures order == [] ==> r.None?
    ensures order != [] && p < m[order[0]] ==> r == Some(order[0])
  {
    WalkFrom(m, order, p, 0.0)
  }

  lemma {:induction false} WalkFromEnds<K>(m: map<K, real>, order: seq<K>, p: real, total: real)
    requires forall i :: 0 <= i < |order| ==> order[i] in m
    requires NonNegativeValues(m) && p >= total
    ensures WalkFrom(m, order, p, total) == None <==> p >= total + SeqSum(m, order)
    decreases |order|
  {
    if order != [] {
      var k := order[0];
      if p < total + m[k] {
        SeqSumNonNegative(m, order[1..]);
      } else {
        WalkFromEnds(m, order[1..], p, total + m[k]);
      }
    }
  }

  lemma {:induction false} SeqSumNonNegative<K>(m: map<K, real>, ks: seq<K>)
    requires forall i :: 0 <= i < |ks| ==> ks[i] in m
    requires NonNegativeValues(m)
    ensures SeqSum(m, ks) >= 0.0
    decreases |ks|
  {
    if ks != [] {
      SeqSumNonNegative(m, ks[1..]);
    }
  }

  /** With non-negative probabilities and a draw p >= 0, the walk finds
      nothing exactly when p is at least the table's whole mass, whatever the
      order of the walk. */
  lemma WalkEndsIffBeyondMass<K>(m: map<K, real>, order: seq<K>, p: real)
    requires IsEnumeration(order, m.Keys) && NonNegativeValues(m) && p >= 0.0
    ensures Walk(m, order, p) == None <==> p >= MapSum(m)
  {
    WalkFromEnds(m, order, p, 0.0);
    SeqSumIsMapSum(m, order);
  }

  lemma {:induction false} WalkFromPositive<K>(m: map<K, real>, order: seq<K>, p: real, total: real)
    requires forall i :: 0 <= i < |order| ==> order[i] in m
    requires p >= total
    ensures WalkFrom(m, order, p, total).Some? ==>
      WalkFrom(m, order, p, total).value in order && m[WalkFrom(m, order, p, total).value] > 0.0
    decreases |order|
  {
    if order != [] && p >= total + m[order[0]] {
      WalkFromPositive(m, order[1..], p, total + m[order[0]]);
    }
  }

  /** For a draw p >= 0 the walk never stops at a key of probability 0 (or
      less), whatever the order of the walk. */
  lemma WalkNeverPicksZero<K>(m: map<K, real>, order: seq<K>, p: real)
    requires forall i :: 0 <= i < |order| ==> order[i] in m
    requires p >= 0.0
    ensures Walk(m, order, p).Some? ==> Walk(m, order, p).value in order && m[Walk(m, order, p).value] > 0.0
  {
    WalkFromPositive(m, order, p, 0.0);
  }

  // ---------------------------------------------------------------------
  // States

  /** A page of the graph with its outgoing transition tables. */
  class State {
    const page: string
    const statusCode: int
    const httpMethod: string
    const userLevel: string
    const authStatus: string
    const eventTime: int
    var laterals: map<State, real>
    var upgrades: map<State, real>
    var downgrades: map<State, real>

    /** `NewState`: the given identity and three empty tables. */
    constructor (page: string, statusCode: int, httpMethod: string, userLevel: string, authStatus: string, eventTime: int)
      ensures this.page == page && this.statusCode == statusCode && this.httpMethod == httpMethod
      ensures this.userLevel == userLevel && this.authStatus == authStatus && this.eventTime == eventTime
      ensures laterals == map[] && upgrades == map[] && downgrades == map[]
    {
      this.page := page;
      this.statusCode := statusCode;
      this.httpMethod := httpMethod;
      this.userLevel := userLevel;
      this.authStatus := authStatus;
      this.eventTime := eventTime;
      laterals, upgrades, downgrades := map[], map[], map[];
    }

    function Table(kind: Kind): map<State, real>
      reads this
    {
      match kind
      case Lateral => laterals
      case Upgrade => upgrades
      case Downgrade => downgrades
    }

    /** The three tables merged one after another: their entry-wise sum. */
    function Combined(): (c: map<State, real>)
      reads this
      ensures c.Keys == laterals.Keys + upgrades.Keys + downgrades.Keys
      ensures forall s :: s in c ==> c[s] == Get(laterals, s) + Get(upgrades, s) + Get(downgrades, s)
    {
      MergeSums(laterals, upgrades, downgrades);
      Merge(Merge(Merge(map[], laterals), upgrades), downgrades)
    }

    /** `addTransition`: sums one table (in map order), refuses the entry when
        the sum plus `p` would exceed 1, and otherwise sets (or overwrites)
        the entry for `target`. The other two tables are untouched. */
    method AddTransition(kind: Kind, target: State, p: real) returns (r: Outcome)
      modifies this
      ensures r.Fail? <==> MapSum(old(Table(kind))) + p > 1.0
      ensures Table(kind) == if r.Pass? then old(Table(kind))[target := p] else old(Table(kind))
      ensures forall k :: k != kind ==> Table(k) == old(Table(k))
    {
      var table: map<State, real> := Table(kind);
      var total := Mass(table);
      if total + p > 1.0 {
        return Fail("total transition probability would exceed 100%");
      }
      if kind == Lateral {
        laterals := table[target := p];
      } else if kind == Upgrade {
        upgrades := table[target := p];
      } else {
        downgrades := table[target := p];
      }
      return Pass;
    }

    method AddLateralTransition(target: State, p: real) returns (r: Outcome)
      modifies this
      ensures r.Fail? <==> MapSum(old(laterals)) + p > 1.0
      ensures laterals == if r.Pass? then old(laterals)[target := p] else old(laterals)
      ensures upgrades == old(upgrades) && downgrades == old(downgrades)
    {
      r := AddTransition(Lateral, target, p);
      assert Table(Upgrade) == old(Table(Upgrade)) && Table(Downgrade) == old(Table(Downgrade));
    }

    method AddUpgradeTransition(target: State, p: real) returns (r: Outcome)
      modifies this
      ensures r.Fail? <==> MapSum(old(upgrades)) + p > 1.0
      ensures upgrades == if r.Pass? then old(upgrades)[target := p] else old(upgrades)
      ensures laterals == old(laterals) && downgrades == old(downgrades)
    {
      r := AddTransition(Upgrade, target, p);
      assert Table(Lateral) == old(Table(Lateral)) && Table(Downgrade) == old(Table(Downgrade));
    }

    method AddDowngradeTransition(target: State, p: real) returns (r: Outcome)
      modifies this
      ensures r.Fail? <==> MapSum(old(downgrades)) + p > 1.0
      ensures downgrades == if r.Pass? then old(downgrades)[target := p] else old(downgrades)
      ensures laterals == old(laterals) && upgrades == old(upgrades)
    {
      r := AddTransition(Downgrade, target, p);
      assert Table(Lateral) == old(Table(Lateral)) && Table(Upgrade) == old(Table(Upgrade));
    }

    /** `GetNextState`: merges the three tables, then walks the combined
        entries in map order (`order`) and returns the first whose running
        total exceeds the draw `p`, or null. */
    method GetNextState(order: seq<State>, p: real) returns (next: State?)
      requires IsEnumeration(order, Combined().Keys)
      ensures next == null <==> Walk(Combined(), order, p) == None
      ensures next != null ==> Walk(Combined(), order, p) == Some(next)
    {
      var combined := AddAll(map[], laterals);
      combined := AddAll(combined, upgrades);
      combined := AddAll(combined, downgrades);
      var w := WalkTable(combined, order, p);
      next := if w.Some? then w.value else null;
    }
  }

  /** The sum of a table's values, in map order. */
  method Mass<K>(table: map<K, real>) returns (total: real)
    ensures total == MapSum(table)
  {
    total := 0.0;
    var rest := table;
    while rest != map[]
      invariant total + MapSum(rest) == MapSum(table)
      decreases |rest|
    {
      var s :| s in rest;
      MapSumRemove(rest, s);
      total := total + rest[s];
      rest := rest - {s};
    }
  }

  /** The walk of `GetNextState` over `m` in the order `order`. */
  method WalkTable<K>(m: map<K, real>, order: seq<K>, p: real) returns (w: Option<K>)
    requires forall j :: 0 <= j < |order| ==> order[j] in m
    ensures w == Walk(m, order, p)
  {
    var total := 0.0;
    var i := 0;
    while i < |order|
      invariant 0 <= i <= |order|
      invariant WalkFrom(m, order[i..], p, total) == Walk(m, order, p)
    {
      assert order[i..][1..] == order[i + 1..];
      total := total + m[order[i]];
      if p < total {
        return Some(order[i]);
      }
      i := i + 1;
    }
    return None;
  }

  /** Merging three tables one after another gives their entry-wise sum. */
  lemma MergeSums<K>(l: map<K, real>, u: map<K, real>, d: map<K, real>)
    ensures Merge(Merge(Merge(map[], l), u), d).Keys == l.Keys + u.Keys + d.Keys
    ensures forall s :: s in Merge(Merge(Merge(map[], l), u), d) ==>
      Merge(Merge(Merge(map[], l), u), d)[s] == Get(l, s) + Get(u, s) + Get(d, s)
  {
    var m1 := Merge(map[], l);
    assert forall s :: Get(m1, s) == Get(l, s);
    var m2 := Merge(m1, u);
    assert forall s :: Get(m2, s) == Get(l, s) + Get(u, s);
  }

  /** A table with the keys of both and the sums of their values is their
      merge. */
  lemma MergeOf<K>(a: map<K, real>, b: map<K, real>, r: map<K, real>)
    requires r.Keys == a.Keys + b.Keys
    requires forall s :: s in r ==> r[s] == Get(a, s) + Get(b, s)
    ensures r == Merge(a, b)
  {
  }

  /** `for s, prob := range b { acc[s] += prob }`, in map order. */
  method AddAll<K>(acc: map<K, real>, b: map<K, real>) returns (r: map<K, real>)
    ensures r == Merge(acc, b)
  {
    r := acc;
    var todo := b.Keys;
    while todo != {}
      invariant todo <= b.Keys
      invariant forall x :: x in r <==> x in acc || (x in b && x !in todo)
      invariant forall x :: x in r ==> r[x] == Get(acc, x) + (if x in todo then 0.0 else Get(b, x))
      decreases |todo|
    {
      var s :| s in todo;
      ghost var r0, todo0 := r, todo;
      r := r[s := Get(r, s) + b[s]];
      todo := todo - {s};
      forall x | x in r ensures r[x] == Get(acc, x) + (if x in todo then 0.0 else Get(b, x)) {
        if x != s {
          assert r[x] == r0[x];
          assert (x in todo) == (x in todo0);
        }
      }
    }
    MergeOf(acc, b, r);
  }

  // ---------------------------------------------------------------------
  // State machine

  /** `StateMachine`: the states added, the current state and the chooser of
      initial states. */
  class StateMachine {
    var states: seq<State>
    var currentState: State?
    const stateGenerator: Generator<State>

    constructor ()
      ensures states == [] && currentState == null
      ensures fresh(stateGenerator) && stateGenerator.Valid()
      ensures stateGenerator.items == [] && !stateGenerator.ready
    {
      states := [];
      currentState := null;
      stateGenerator := new Generator<State>();
    }

    /** `AddState`: records the state, then adds it to the chooser (which
        panics once used; the state has been recorded by then). */
    method AddState(state: State, weight: int) returns (r: Outcome)
      requires stateGenerator.Valid()
      modifies this, stateGenerator
      ensures stateGenerator.Valid() && currentState == old(currentState)
      ensures states == old(states) + [state]
      ensures r.Pass? <==> !old(stateGenerator.ready)
      ensures stateGenerator.items
        == if r.Pass? then old(stateGenerator.items) + [Item(state, weight)] else old(stateGenerator.items)
    {
      states := states + [state];
      r := stateGenerator.Add(state, weight);
    }

    /** `UpdateState`: moves to the next state the current one chooses, and
        stays when there is no current state or the walk finds none. */
    method UpdateState(order: seq<State>, p: real)
      requires currentState != null ==> IsEnumeration(order, currentState.Combined().Keys)
      modifies this
      ensures states == old(states)
      ensures old(currentState) == null ==> currentState == null
      ensures old(currentState) != null ==>
        var w := Walk(old(currentState.Combined()), order, p);
        currentState == if w.Some? then w.value else old(currentState)
    {
      if currentState != null {
        var next := currentState.GetNextState(order, p);
        if next != null {
          currentState := next;
        }
      }
    }
  }

  // ---------------------------------------------------------------------
  // Initial states per auth status and level

  /** The generator key of an auth status and a level. */
  function BucketKey(auth: string, level: string): string {
    auth + "|" + level
  }

  /** `AuthLevelStateMap`: one chooser per auth/level key. `Buckets` and
      `Used` are the items of each chooser and the keys whose chooser has
      been used. */
  class AuthLevelStateMap {
    var generators: map<string, Generator<State>>
    ghost var Buckets: map<string, seq<Item<State>>>
    ghost var Used: set<string>
    ghost var Repr: set<Generator<State>>

    ghost predicate Valid()
      reads this, Repr
    {
      generators.Keys == Buckets.Keys && Used <= Buckets.Keys
      && (forall k :: k in generators ==>
            generators[k] in Repr && generators[k].Valid()
            && generators[k].items == Buckets[k] && (generators[k].ready <==> k in Used))
      && (forall k1, k2 :: k1 in generators && k2 in generators && k1 != k2 ==> generators[k1] != generators[k2])
    }

    constructor ()
      ensures Valid() && Buckets == map[] && Used == {} && Repr == {}
    {
      generators := map[];
      Buckets := map[];
      Used := {};
      Repr := {};
    }

    /** The items of the chooser for `key`, none when there is none. */
    ghost function BucketOf(key: string): seq<Item<State>>
      reads this
    {
      if key in Buckets then Buckets[key] else []
    }

    /** `Add`: creates the chooser for the key on first use and adds the
        state to it; adding to a chooser already used panics. */
    method Add(auth: string, level: string, state: State, weight: int) returns (r: Outcome)
      requires Valid()
      modifies this, Repr
      ensures Valid() && fresh(Repr - old(Repr)) && Used == old(Used)
      ensures r.Pass? <==> BucketKey(auth, level) !in old(Used)
      ensures Buckets.Keys == old(Buckets.Keys) + {BucketKey(auth, level)}
      ensures Buckets[BucketKey(auth, level)] == old(BucketOf(BucketKey(auth, level))) + if r.Pass? then [Item(state, weight)] else []
      ensures forall k :: k in old(Buckets) && k != BucketKey(auth, level) ==> Buckets[k] == old(Buckets)[k]
    {
      var key := BucketKey(auth, level);
      if key !in generators {
        AddGenerator(key);
      }
      r := AddTo(key, state, weight);
    }

    /** A new, empty chooser for `key`. */
    method AddGenerator(key: string)
      requires Valid() && key !in Buckets
      modifies this
      ensures Valid() && fresh(Repr - old(Repr)) && Used == old(Used)
      ensures Buckets.Keys == old(Buckets.Keys) + {key} && Buckets[key] == []
      ensures forall k :: k in old(Buckets) ==> Buckets[k] == old(Buckets)[k]
    {
      var g := new Generator<State>();
      Install(key, g);
    }

    /** Files the empty chooser `g` under `key`. */
    method Install(key: string, g: Generator<State>)
      requires Valid() && key !in Buckets && g !in Repr
      requires g.Valid() && g.items == [] && !g.ready
      modifies this
      ensures Valid() && Repr == old(Repr) + {g} && Used == old(Used)
      ensures Buckets.Keys == old(Buckets.Keys) + {key} && Buckets[key] == []
      ensures forall k :: k in old(Buckets) ==> Buckets[k] == old(Buckets)[k]
    {
      ghost var before := generators;
      generators := generators[key := g];
      Buckets := Buckets[key := []];
      Repr := Repr + {g};
      forall k | k in generators
        ensures generators[k] in Repr && generators[k].Valid()
        ensures generators[k].items == Buckets[k] && (generators[k].ready <==> k in Used)
      {
        if k != key {
          assert generators[k] == before[k];
        }
      }
      forall k1, k2 | k1 in generators && k2 in generators && k1 != k2 ensures generators[k1] != generators[k2] {
        if k1 != key && k2 != key {
          assert generators[k1] == before[k1] && generators[k2] == before[k2];
        }
      }
    }

    /** The chooser of `key` with the state added. */
    method AddTo(key: string, state: State, weight: int) returns (r: Outcome)
      requires Valid() && key in Buckets
      modifies Repr, this
      ensures Valid() && Repr == old(Repr) && Used == old(Used)
      ensures r.Pass? <==> key !in Used
      ensures Buckets.Keys == old(Buckets.Keys)
      ensures Buckets[key] == old(Buckets)[key] + if r.Pass? then [Item(state, weight)] else []
      ensures forall k :: k in old(Buckets) && k != key ==> Buckets[k] == old(Buckets)[k]
    {
      var g := generators[key];
      r := g.Add(state, weight);
      Buckets := Buckets[key := g.items];
      forall k | k in generators
        ensures generators[k] in Repr && generators[k].Valid()
        ensures generators[k].items == Buckets[k] && (generators[k].ready <==> k in Used)
      {
        if k != key {
          assert generators[k] != g;
        }
      }
    }

    /** `GetRandomState`: the chooser's pick for the key (with the swaps of
        its first-use sort and the draw), or null for a key never added. */
    method GetRandomState(auth: string, level: string, swaps: seq<(nat, nat)>, target: int) returns (r: Result<State?>)
      requires Valid()
      requires BucketKey(auth, level) in Buckets ==>
        ValidSwaps(|Buckets[BucketKey(auth, level)]|, swaps)
        && (Sum(Weights(Buckets[BucketKey(auth, level)])) > 0 ==> 0 <= target < Sum(Weights(Buckets[BucketKey(auth, level)])))
      modifies this, Repr
      ensures Valid() && Repr == old(Repr) && Buckets.Keys == old(Buckets.Keys)
      ensures forall k :: k in old(Buckets) && k != BucketKey(auth, level) ==> Buckets[k] == old(Buckets)[k]
      ensures BucketKey(auth, level) !in Buckets ==> r == Ok(null) && Used == old(Used)
      ensures BucketKey(auth, level) in Buckets ==>
        var key := BucketKey(auth, level);
        var items := Buckets[key];
        Used == old(Used) + {key}
        && items == (if key in old(Used) then old(Buckets)[key] else ApplySwaps(old(Buckets)[key], swaps))
        && (r.Err? <==> Sum(Weights(items)) <= 0)
        && (r.Ok? ==> r.value == items[Chosen(Weights(items), target)].value)
    {
      var key := BucketKey(auth, level);
      if key !in generators {
        return Ok(null);
      }
      var g := generators[key];
      var pick := g.RandomThing(swaps, target);
      Buckets := Buckets[key := g.items];
      Used := Used + {key};
      forall k | k in generators
        ensures generators[k] in Repr && generators[k].Valid()
        ensures generators[k].items == Buckets[k] && (generators[k].ready <==> k in Used)
      {
        if k != key {
          assert generators[k] != g;
        }
      }
      if pick.Err? {
        return Err(pick.error);
      }
      return Ok(pick.value);
    }
  }

  // ---------------------------------------------------------------------
  // Building the graph from the configuration

  /** The items the first `n` pages put in the chooser of `key`, in order. */
  function Bucket(pages: seq<Config.SessionPage>, states: seq<State>, key: string, n: nat): (b: seq<Item<State>>)
    requires n <= |pages| && n <= |states|
    ensures |b| <= n
  {
    if n == 0 then []
    else
      Bucket(pages, states, key, n - 1)
        + (if BucketKey(pages[n - 1].auth, pages[n - 1].level) == key then [Item(states[n - 1], pages[n - 1].weight)] else [])
  }

  /** A bucket depends only on the first `n` states. */
  lemma {:induction false} BucketFrame(pages: seq<Config.SessionPage>, states: seq<State>, more: seq<State>, key: string, n: nat)
    requires n <= |pages| && n <= |states|
    ensures Bucket(pages, states, key, n) == Bucket(pages, states + more, key, n)
  {
    if n > 0 {
      BucketFrame(pages, states, more, key, n - 1);
    }
  }

  /** A key gets no items exactly when none of the first `n` pages has it. */
  lemma {:induction false} BucketEmpty(pages: seq<Config.SessionPage>, states: seq<State>, key: string, n: nat)
    requires n <= |pages| && n <= |states|
    ensures Bucket(pages, states, key, n) == [] <==> forall i :: 0 <= i < n ==> BucketKey(pages[i].auth, pages[i].level) != key
  {
    if n > 0 {
      BucketEmpty(pages, states, key, n - 1);
    }
  }

  /** The page-name lookup the first `n` pages build: a later page with the
      same name replaces the earlier one. */
  function Lookup(pages: seq<Config.SessionPage>, states: seq<State>, n: nat): (m: map<string, State>)
    requires n <= |pages| && n <= |states|
  {
    if n == 0 then map[] else Lookup(pages, states, n - 1)[pages[n - 1].page := states[n - 1]]
  }

  lemma {:induction false} LookupFrame(pages: seq<Config.SessionPage>, states: seq<State>, more: seq<State>, n: nat)
    requires n <= |pages| && n <= |states|
    ensures Lookup(pages, states, n) == Lookup(pages, states + more, n)
  {
    if n > 0 {
      LookupFrame(pages, states, more, n - 1);
    }
  }

  /** The lookup knows exactly the pages' names, and only their states. */
  lemma {:induction false} LookupKeys(pages: seq<Config.SessionPage>, states: seq<State>, n: nat, name: string)
    requires n <= |pages| && n <= |states|
    ensures name in Lookup(pages, states, n) <==> exists i :: 0 <= i < n && pages[i].page == name
    ensures name in Lookup(pages, states, n) ==> Lookup(pages, states, n)[name] in states[..n]
  {
    if n > 0 {
      LookupKeys(pages, states, n - 1, name);
      if name != pages[n - 1].page && name in Lookup(pages, states, n) {
        assert states[..n - 1] <= states[..n];
      }
    }
  }

  /** A later page with the same name wins: the lookup maps each name to the
      state of the last page with that name. */
  lemma {:induction false} LookupLastWins(pages: seq<Config.SessionPage>, states: seq<State>, n: nat, i: nat)
    requires n <= |pages| && n <= |states| && i < n
    requires forall j :: i < j < n ==> pages[j].page != pages[i].page
    ensures pages[i].page in Lookup(pages, states, n)
    ensures Lookup(pages, states, n)[pages[i].page] == states[i]
  {
    if i < n - 1 {
      LookupLastWins(pages, states, n - 1, i);
    }
  }

  /** Every state's lateral table. */
  ghost function Laterals(states: seq<State>): (t: map<State, map<State, real>>)
    reads set s | s in states
    ensures t.Keys == set s | s in states
  {
    map s | s in states :: s.laterals
  }

  /** The lateral tables after one configured transition: it is added to its
      source's table unless that would take the table's mass above 1, and
      skipped when its source or destination page is unknown. */
  ghost function Step(tables: map<State, map<State, real>>, lookup: map<string, State>, t: Config.Transition)
    : (r: map<State, map<State, real>>)
    ensures r.Keys == tables.Keys
  {
    if t.source.page in lookup && t.dest.page in lookup && lookup[t.source.page] in tables then
      var src: State := lookup[t.source.page];
      var table: map<State, real> := tables[src];
      if MapSum(table) + t.p > 1.0 then tables else tables[src := table[lookup[t.dest.page] := t.p]]
    else tables
  }

  /** The lateral tables after the transitions, in order. */
  ghost function ApplyTransitions(tables: map<State, map<State, real>>, lookup: map<string, State>, ts: seq<Config.Transition>)
    : (r: map<State, map<State, real>>)
    ensures r.Keys == tables.Keys
    decreases |ts|
  {
    if ts == [] then tables else ApplyTransitions(Step(tables, lookup, ts[0]), lookup, ts[1..])
  }

  ghost predicate WithinMass(tables: map<State, map<State, real>>) {
    forall s :: s in tables ==> NonNegativeValues(tables[s]) && MapSum(tables[s]) <= 1.0
  }

  /** A transition with a non-negative probability keeps every table within
      mass 1. */
  lemma StepWithinMass(tables: map<State, map<State, real>>, lookup: map<string, State>, t: Config.Transition)
    requires WithinMass(tables) && t.p >= 0.0
    ensures WithinMass(Step(tables, lookup, t))
  {
    if t.source.page in lookup && t.dest.page in lookup && lookup[t.source.page] in tables {
      var src: State := lookup[t.source.page];
      var table: map<State, real> := tables[src];
      if MapSum(table) + t.p <= 1.0 {
        var updated: map<State, real> := table[lookup[t.dest.page] := t.p];
        TableBoundPreserved<State>(table, lookup[t.dest.page], t.p);
        var next: map<State, map<State, real>> := tables[src := updated];
        assert Step(tables, lookup, t) == next;
        forall x | x in next ensures NonNegativeValues(next[x]) && MapSum(next[x]) <= 1.0 {
          if x != src {
            assert next[x] == tables[x];
          } else {
            assert next[x] == updated;
          }
        }
      }
    }
  }

  /** With non-negative transition probabilities every table keeps mass at
      most 1, whichever transitions are refused. */
  lemma {:induction false} ApplyTransitionsWithinMass(tables: map<State, map<State, real>>, lookup: map<string, State>, ts: seq<Config.Transition>)
    requires WithinMass(tables)
    requires forall i :: 0 <= i < |ts| ==> ts[i].p >= 0.0
    ensures WithinMass(ApplyTransitions(tables, lookup, ts))
    decreases |ts|
  {
    if ts != [] {
      StepWithinMass(tables, lookup, ts[0]);
      ApplyTransitionsWithinMass(Step(tables, lookup, ts[0]), lookup, ts[1..]);
    }
  }

  /** Every state with an empty table. */
  ghost function EmptyTables(states: seq<State>): (t: map<State, map<State, real>>)
    ensures t.Keys == set s | s in states
    ensures forall s :: s in t ==> t[s] == map[]
  {
    map s | s in states :: map[]
  }

  /** Tables that start empty stay within mass 1 whatever transitions are
      applied with non-negative probabilities. */
  lemma InitialTablesWithinMass(states: seq<State>, lookup: map<string, State>, ts: seq<Config.Transition>)
    requires forall i :: 0 <= i < |ts| ==> ts[i].p >= 0.0
    ensures WithinMass(ApplyTransitions(EmptyTables(states), lookup, ts))
  {
    var empty := EmptyTables(states);
    forall s | s in empty ensures NonNegativeValues(empty[s]) && MapSum(empty[s]) <= 1.0 {
      assert empty[s] == map[];
    }
    ApplyTransitionsWithinMass(empty, lookup, ts);
  }

  /** `s` has the identity `NewState` gives the state of `page` created at
      `now`. */
  predicate MadeFor(s: State, page: Config.SessionPage, now: int) {
    s.page == page.page && s.statusCode == page.status && s.httpMethod == page.httpMethod
    && s.userLevel == page.level && s.authStatus == page.auth && s.eventTime == now
  }

  /** `s` has no transitions of any kind. */
  predicate Blank(s: State)
    reads s
  {
    |s.laterals| == 0 && |s.upgrades| == 0 && |s.downgrades| == 0
  }

  /** What the first `n` pages have built: a state per page with the page's
      identity, each registered under its auth/level key with its weight,
      none drawn from yet, and the page-name lookup. */
  ghost predicate Built(buckets: map<string, seq<Item<State>>>, used: set<string>, pages: seq<Config.SessionPage>,
                        nows: seq<int>, states: seq<State>, lookup: map<string, State>, n: nat)
  {
    n <= |pages| && |nows| == |pages| && |states| == n
    && (forall i :: 0 <= i < n ==> MadeFor(states[i], pages[i], nows[i]))
    && used == {}
    && (forall key :: key in buckets ==> buckets[key] == Bucket(pages, states, key, n) && buckets[key] != [])
    && (forall key :: key !in buckets ==> Bucket(pages, states, key, n) == [])
    && lookup == Lookup(pages, states, n)
  }

  /** Registering the state of page `n` extends what the first `n` pages
      built to what the first `n + 1` build. */
  lemma BuiltStep(buckets: map<string, seq<Item<State>>>, buckets': map<string, seq<Item<State>>>,
                  pages: seq<Config.SessionPage>, nows: seq<int>, states: seq<State>, state: State,
                  lookup: map<string, State>, n: nat)
    requires Built(buckets, {}, pages, nows, states, lookup, n) && n < |pages|
    requires MadeFor(state, pages[n], nows[n])
    requires buckets'.Keys == buckets.Keys + {BucketKey(pages[n].auth, pages[n].level)}
    requires var key := BucketKey(pages[n].auth, pages[n].level);
      buckets'[key] == (if key in buckets then buckets[key] else []) + [Item(state, pages[n].weight)]
    requires forall k :: k in buckets && k != BucketKey(pages[n].auth, pages[n].level) ==> buckets'[k] == buckets[k]
    ensures Built(buckets', {}, pages, nows, states + [state], lookup[pages[n].page := state], n + 1)
  {
    BucketsStep(buckets, buckets', pages, states, state, n);
    LookupStep(pages, states, state, n);
    MadeForStep(pages, nows, states, state, n);
  }

  lemma LookupStep(pages: seq<Config.SessionPage>, states: seq<State>, state: State, n: nat)
    requires n < |pages| && |states| == n
    ensures Lookup(pages, states + [state], n + 1) == Lookup(pages, states, n)[pages[n].page := state]
  {
    LookupFrame(pages, states, [state], n);
  }

  lemma MadeForStep(pages: seq<Config.SessionPage>, nows: seq<int>, states: seq<State>, state: State, n: nat)
    requires n < |pages| && |nows| == |pages| && |states| == n
    requires forall i :: 0 <= i < n ==> MadeFor(states[i], pages[i], nows[i])
    requires MadeFor(state, pages[n], nows[n])
    ensures forall i :: 0 <= i < n + 1 ==> MadeFor((states + [state])[i], pages[i], nows[i])
  {
    var states' := states + [state];
    forall i | 0 <= i < n + 1 ensures MadeFor(states'[i], pages[i], nows[i]) {
      if i < n {
        assert states'[i] == states[i];
      }
    }
  }

  /** The buckets after registering the state of page `n`. */
  lemma BucketsStep(buckets: map<string, seq<Item<State>>>, buckets': map<string, seq<Item<State>>>,
                    pages: seq<Config.SessionPage>, states: seq<State>, state: State, n: nat)
    requires n < |pages| && |states| == n
    requires forall key :: key in buckets ==> buckets[key] == Bucket(pages, states, key, n) && buckets[key] != []
    requires forall key :: key !in buckets ==> Bucket(pages, states, key, n) == []
    requires buckets'.Keys == buckets.Keys + {BucketKey(pages[n].auth, pages[n].level)}
    requires var key := BucketKey(pages[n].auth, pages[n].level);
      buckets'[key] == (if key in buckets then buckets[key] else []) + [Item(state, pages[n].weight)]
    requires forall k :: k in buckets && k != BucketKey(pages[n].auth, pages[n].level) ==> buckets'[k] == buckets[k]
    ensures forall key :: key in buckets' ==> buckets'[key] == Bucket(pages, states + [state], key, n + 1) && buckets'[key] != []
    ensures forall key :: key !in buckets' ==> Bucket(pages, states + [state], key, n + 1) == []
  {
    forall x ensures x in buckets' ==> buckets'[x] == Bucket(pages, states + [state], x, n + 1) && buckets'[x] != []
      ensures x !in buckets' ==> Bucket(pages, states + [state], x, n + 1) == []
    {
      BucketFrame(pages, states, [state], x, n);
    }
  }

  /** The body of the first loop of `InitializeStatesWithAuthLevel`: a new
      state for the page, added to the chooser of its auth/level key. */
  method AddPageState(alm: AuthLevelStateMap, page: Config.SessionPage, now: int, ghost states: seq<State>)
    returns (state: State)
    requires alm.Valid() && BucketKey(page.auth, page.level) !in alm.Used
    requires forall i :: 0 <= i < |states| ==> Blank(states[i])
    modifies alm, alm.Repr
    ensures fresh(state) && MadeFor(state, page, now) && Blank(state)
    ensures forall i :: 0 <= i < |states| ==> Blank(states[i])
    ensures alm.Valid() && fresh(alm.Repr - old(alm.Repr)) && alm.Used == old(alm.Used)
    ensures alm.Buckets.Keys == old(alm.Buckets.Keys) + {BucketKey(page.auth, page.level)}
    ensures alm.Buckets[BucketKey(page.auth, page.level)] == old(alm.BucketOf(BucketKey(page.auth, page.level))) + [Item(state, page.weight)]
    ensures forall k :: k in old(alm.Buckets) && k != BucketKey(page.auth, page.level) ==> alm.Buckets[k] == old(alm.Buckets)[k]
  {
    state := new State(page.page, page.status, page.httpMethod, page.level, page.auth, now);
    var r := alm.Add(page.auth, page.level, state, page.weight);
  }

  /** One turn of the first loop of `InitializeStatesWithAuthLevel`: the
      state of page `n`, added to its auth/level chooser and to the lookup. */
  method RegisterPage(alm: AuthLevelStateMap, pages: seq<Config.SessionPage>, nows: seq<int>,
                      states: seq<State>, lookup: map<string, State>, n: nat)
    returns (state: State, lookup': map<string, State>)
    requires alm.Valid() && Built(alm.Buckets, alm.Used, pages, nows, states, lookup, n) && n < |pages|
    requires forall i :: 0 <= i < |states| ==> Blank(states[i])
    modifies alm, alm.Repr
    ensures fresh(state) && fresh(alm.Repr - old(alm.Repr)) && alm.Valid()
    ensures forall i :: 0 <= i < |states| ==> Blank(states[i])
    ensures Blank(state)
    ensures Built(alm.Buckets, alm.Used, pages, nows, states + [state], lookup', n + 1)
  {
    ghost var buckets := alm.Buckets;
    state := AddPageState(alm, pages[n], nows[n], states);
    BuiltStep(buckets, alm.Buckets, pages, nows, states, state, lookup, n);
    lookup' := lookup[pages[n].page := state];
  }

  /** The first loop of `InitializeStatesWithAuthLevel`: a fresh state per
      page, registered under its auth/level key with its weight, and the
      page-name lookup. */
  method RegisterPages(pages: seq<Config.SessionPage>, nows: seq<int>)
    returns (alm: AuthLevelStateMap, states: seq<State>, lookup: map<string, State>)
    requires |nows| == |pages|
    ensures fresh(alm) && fresh(alm.Repr) && alm.Valid()
    ensures Built(alm.Buckets, alm.Used, pages, nows, states, lookup, |pages|)
    ensures forall i :: 0 <= i < |states| ==> fresh(states[i]) && Blank(states[i])
  {
    alm := new AuthLevelStateMap();
    states := [];
    lookup := map[];
    var k := 0;
    while k < |pages|
      invariant k <= |pages|
      invariant fresh(alm) && fresh(alm.Repr) && alm.Valid()
      invariant Built(alm.Buckets, alm.Used, pages, nows, states, lookup, k)
      invariant forall i :: 0 <= i < |states| ==> fresh(states[i]) && Blank(states[i])
    {
      var state;
      state, lookup := RegisterPage(alm, pages, nows, states, lookup, k);
      states := states + [state];
      k := k + 1;
    }
  }


  /** The second loop of `InitializeStatesWithAuthLevel`: each transition
      whose pages are both known is added as a lateral transition of its
      source; a refused one changes nothing. */
  method AddConfiguredTransitions(states: seq<State>, lookup: map<string, State>, transitions: seq<Config.Transition>)
    requires forall name :: name in lookup ==> lookup[name] in states
    modifies set s | s in states
    ensures Laterals(states) == ApplyTransitions(old(Laterals(states)), lookup, transitions)
    ensures forall s :: s in states ==> s.upgrades == old(s.upgrades) && s.downgrades == old(s.downgrades)
  {
    for t := 0 to |transitions|
      invariant ApplyTransitions(Laterals(states), lookup, transitions[t..])
        == ApplyTransitions(old(Laterals(states)), lookup, transitions)
      invariant forall s :: s in states ==> s.upgrades == old(s.upgrades) && s.downgrades == old(s.downgrades)
    {
      assert transitions[t..][1..] == transitions[t + 1..];
      AddConfiguredTransition(states, lookup, transitions[t]);
    }
    assert transitions[|transitions|..] == [];
  }

  /** One turn of the second loop of `InitializeStatesWithAuthLevel`: the
      transition is added to its source page's state when both pages are
      known; a refusal is only logged. */
  method AddConfiguredTransition(states: seq<State>, lookup: map<string, State>, trans: Config.Transition)
    requires forall name :: name in lookup ==> lookup[name] in states
    modifies set s | s in states
    ensures Laterals(states) == Step(old(Laterals(states)), lookup, trans)
    ensures forall s :: s in states ==> s.upgrades == old(s.upgrades) && s.downgrades == old(s.downgrades)
  {
    ghost var before := Laterals(states);
    if trans.source.page in lookup && trans.dest.page in lookup {
      var source: State := lookup[trans.source.page];
      var dest: State := lookup[trans.dest.page];
      var r := source.AddLateralTransition(dest, trans.p);
      ghost var step := Step(before, lookup, trans);
      forall s | s in states ensures s.laterals == step[s] {
        if s != source {
          assert s.laterals == before[s];
        }
      }
    }
  }

  /** `InitializeStatesWithAuthLevel`: a state per new-session page (created
      at the instant in `nows`), registered under its auth/level key with its
      weight, then every configured transition between known pages added as
      a lateral transition (refused ones are only logged). */
  method InitializeStatesWithAuthLevel(pages: seq<Config.SessionPage>, transitions: seq<Config.Transition>, nows: seq<int>)
    returns (alm: AuthLevelStateMap, ghost states: seq<State>)
    requires |nows| == |pages|
    ensures fresh(alm) && fresh(alm.Repr) && alm.Valid() && |states| == |pages|
    ensures forall i :: 0 <= i < |pages| ==> fresh(states[i]) && MadeFor(states[i], pages[i], nows[i])
    ensures forall i :: 0 <= i < |pages| ==> |states[i].upgrades| == 0 && |states[i].downgrades| == 0
    ensures forall key :: key in alm.Buckets <==> exists i :: 0 <= i < |pages| && BucketKey(pages[i].auth, pages[i].level) == key
    ensures alm.Used == {}
    ensures forall key :: key in alm.Buckets ==> alm.Buckets[key] == Bucket(pages, states, key, |pages|)
    ensures Laterals(states) == ApplyTransitions(EmptyTables(states), Lookup(pages, states, |pages|), transitions)
  {
    var created, lookup;
    alm, created, lookup := RegisterPages(pages, nows);
    states := created;
    forall key ensures key in alm.Buckets <==> exists i :: 0 <= i < |pages| && BucketKey(pages[i].auth, pages[i].level) == key {
      BucketEmpty(pages, created, key, |pages|);
    }
    forall name | name in lookup ensures lookup[name] in created {
      LookupKeys(pages, created, |pages|, name);
      assert created[..|pages|] == created;
    }
    BlankLaterals(created);
    AddConfiguredTransitions(created, lookup, transitions);
  }

  /** States without transitions have empty lateral tables. */
  lemma BlankLaterals(states: seq<State>)
    requires forall i :: 0 <= i < |states| ==> Blank(states[i])
    ensures Laterals(states) == EmptyTables(states)
  {
    forall s | s in states ensures s.laterals == map[] {
      assert Blank(s);
    }
  }
}

=== FILE: text.dfy ===
/** The functions of Go's `strings` package the catalogue parsers use:
    `strings.Fields`, `strings.Split`, `strings.Join` and
    `strings.Replace(s, old, "", -1)` for a one-character `old`. Strings are
    sequences of Unicode code points. */
module Text {

  /** `unicode.IsSpace`: the Latin-1 spaces and the other White_Space code
      points. */
  predicate IsSpace(c: char) {
    var n := c as int;
    n == 0x09 || n == 0x0A || n == 0x0B || n == 0x0C || n == 0x0D || n == 0x20
    || n == 0x85 || n == 0xA0 || n == 0x1680 || (0x2000 <= n <= 0x200A)
    || n == 0x2028 || n == 0x2029 || n == 0x202F || n == 0x205F || n == 0x3000
  }

  predicate NoSpace(s: string) {
    forall i :: 0 <= i < |s| ==> !IsSpace(s[i])
  }

  /** `s` without its leading white space. */
  function TrimLeft(s: string): (t: string)
    ensures |t| <= |s| && t == s[|s| - |t|..]
    ensures t == [] || !IsSpace(t[0])
    ensures forall i :: 0 <= i < |s| - |t| ==> IsSpace(s[i])
    decreases |s|
  {
    if s != [] && IsSpace(s[0]) then TrimLeft(s[1..]) else s
  }

  /** The longest prefix of `s` without white space. */
  function Word(s: string): (w: string)
    ensures |w| <= |s| && w == s[..|w|] && NoSpace(w)
    ensures |w| < |s| ==> IsSpace(s[|w|])
    decreases |s|
  {
    if s == [] || IsSpace(s[0]) then [] else [s[0]] + Word(s[1..])
  }

  /** `strings.Fields(s)`: the maximal runs of non-space characters, in order. */
  function Fields(s: string): (fs: seq<string>)
    ensures forall i :: 0 <= i < |fs| ==> fs[i] != [] && NoSpace(fs[i])
    decreases |s|
  {
    var t := TrimLeft(s);
    if t == [] then []
    else
      var w := Word(t);
      [w] + Fields(t[|w|..])
  }

  /** Two words separated by one space are two fields. */
  lemma FieldsOfTwoWords(a: string, b: string, s: string)
    requires a != [] && NoSpace(a) && b != [] && NoSpace(b)
    requires s == a + " " + b
    ensures Fields(s) == [a, b]
  {
    FieldsOfSpacedWords(a, b);
  }

  lemma FieldsOfSpacedWords(a: string, b: string)
    requires a != [] && NoSpace(a) && b != [] && NoSpace(b)
    ensures Fields(a + " " + b) == [a, b]
  {
    var rest := [' '] + b;
    assert Fields(rest) == [b] by {
      FieldsOfLastWord(b);
      FieldsAfterSpace(b);
    }
    assert Fields(a + rest) == [a] + Fields(rest) by {
      FieldsOfWord(a, rest);
    }
    assert a + " " + b == a + rest;
  }

  lemma FieldsOfLastWord(w: string)
    requires w != [] && NoSpace(w)
    ensures Fields(w) == [w]
  {
    FieldsOfWord(w, []);
    assert w + [] == w;
  }

  lemma FieldsAfterSpace(s: string)
    ensures Fields([' '] + s) == Fields(s)
  {
    var rest := [' '] + s;
    assert rest[1..] == s;
    assert TrimLeft(rest) == TrimLeft(s);
  }

  /** A word followed by text that starts with a space (or nothing) is the
      first field. */
  lemma FieldsOfWord(w: string, rest: string)
    requires w != [] && NoSpace(w) && (rest == [] || IsSpace(rest[0]))
    ensures Fields(w + rest) == [w] + Fields(rest)
  {
    var s := w + rest;
    assert s[0] == w[0];
    assert TrimLeft(s) == s;
    WordOf(w, rest);
    assert s[|w|..] == rest;
  }

  lemma {:induction false} WordOf(w: string, rest: string)
    requires NoSpace(w) && (rest == [] || IsSpace(rest[0]))
    ensures Word(w + rest) == w
    decreases |w|
  {
    if w != [] {
      assert (w + rest)[1..] == w[1..] + rest;
      WordOf(w[1..], rest);
    } else {
      assert w + rest == rest;
    }
  }

  // ---------------------------------------------------------------------
  // Split and Join

  /** The separator `sep` occurs in `s` at position `j`. */
  predicate OccursAt(s: string, sep: string, j: int) {
    0 <= j && j + |sep| <= |s| && s[j..j + |sep|] == sep
  }

  ghost predicate Contains(s: string, sep: string) {
    exists j :: OccursAt(s, sep, j)
  }

  /** The first position at or after `k` where `sep` occurs in `s`, or -1. */
  function IndexFrom(s: string, sep: string, k: nat): (i: int)
    requires |sep| > 0
    ensures i == -1 || (k <= i && OccursAt(s, sep, i))
    ensures forall j :: k <= j && (i == -1 || j < i) ==> !OccursAt(s, sep, j)
    decreases |s| - k
  {
    if k + |sep| > |s| then -1
    else if s[k..k + |sep|] == sep then k
    else IndexFrom(s, sep, k + 1)
  }

  /** `strings.Split(s, sep)` for a non-empty separator: the pieces between
      the non-overlapping occurrences of `sep`, found from the left. */
  function Split(s: string, sep: string): (parts: seq<string>)
    requires |sep| > 0
    ensures |parts| >= 1
    decreases |s|
  {
    var i := IndexFrom(s, sep, 0);
    if i < 0 then [s] else [s[..i]] + Split(s[i + |sep|..], sep)
  }

  /** No piece but the last contains the separator, and a string without the
      separator is its own only piece. */
  lemma {:induction false} SplitPieces(s: string, sep: string)
    requires |sep| > 0
    ensures forall i :: 0 <= i < |Split(s, sep)| - 1 ==> !Contains(Split(s, sep)[i], sep)
    ensures !Contains(s, sep) ==> Split(s, sep) == [s]
    decreases |s|
  {
    var i := IndexFrom(s, sep, 0);
    if i >= 0 {
      var head := s[..i];
      assert !Contains(head, sep) by {
        forall j | OccursAt(head, sep, j) ensures false {
          assert s[j..j + |sep|] == head[j..j + |sep|];
          assert OccursAt(s, sep, j);
        }
      }
      SplitPieces(s[i + |sep|..], sep);
    }
  }

  /** `strings.Join(parts, sep)`. */
  function Join(parts: seq<string>, sep: string): string {
    if parts == [] then []
    else if |parts| == 1 then parts[0]
    else parts[0] + sep + Join(parts[1..], sep)
  }

  /** Splitting and joining again gives back the input. */
  lemma {:induction false} JoinSplit(s: string, sep: string)
    requires |sep| > 0
    ensures Join(Split(s, sep), sep) == s
    decreases |s|
  {
    var i := IndexFrom(s, sep, 0);
    if i >= 0 {
      var rest := s[i + |sep|..];
      var tail := Split(rest, sep);
      JoinSplit(rest, sep);
      var parts := [s[..i]] + tail;
      assert Split(s, sep) == parts;
      assert parts[1..] == tail;
      assert Join(parts, sep) == s[..i] + sep + Join(tail, sep);
      assert s == s[..i] + sep + rest;
    }
  }

  /** When no piece contains the separator's first character, joining and
      splitting again gives back the pieces. */
  lemma {:induction false} SplitJoin(parts: seq<string>, sep: string)
    requires |sep| >= 1 && |parts| >= 1
    requires forall i :: 0 <= i < |parts| ==> sep[0] !in parts[i]
    ensures Split(Join(parts, sep), sep) == parts
    decreases |parts|
  {
    if |parts| == 1 {
      NoOccurrence(parts[0], sep);
    } else {
      var rest := Join(parts[1..], sep);
      assert Join(parts, sep) == parts[0] + sep + rest;
      FirstOccurrence(parts[0], sep, rest);
      SplitJoin(parts[1..], sep);
      assert parts == [parts[0]] + parts[1..];
    }
  }

  lemma NoOccurrence(s: string, sep: string)
    requires |sep| >= 1 && sep[0] !in s
    ensures Split(s, sep) == [s]
  {
    forall j | 0 <= j && j + |sep| <= |s| ensures !OccursAt(s, sep, j) {
      assert s[j..j + |sep|][0] == s[j] != sep[0];
    }
  }

  lemma FirstOccurrence(a: string, sep: string, rest: string)
    requires |sep| >= 1 && sep[0] !in a
    ensures Split(a + sep + rest, sep) == [a] + Split(rest, sep)
  {
    var s := a + sep + rest;
    var n := |a|;
    forall j | 0 <= j < n && j + |sep| <= |s| ensures !OccursAt(s, sep, j) {
      assert s[j..j + |sep|][0] == s[j] == a[j] != sep[0];
    }
    assert s[n..n + |sep|] == sep;
    assert OccursAt(s, sep, n);
    assert IndexFrom(s, sep, 0) == n;
    assert s[..n] == a;
    assert s[n + |sep|..] == rest;
  }

  // ---------------------------------------------------------------------
  // Replace

  /** `strings.Replace(s, [c], "", -1)`: `s` with every `c` removed. */
  function RemoveAll(s: string, c: char): (t: string)
    ensures c !in t
    ensures |t| <= |s|
    ensures c !in s ==> t == s
  {
    if s == [] then []
    else (if s[0] == c then [] else [s[0]]) + RemoveAll(s[1..], c)
  }

  /** Removing characters introduces no white space. */
  lemma {:induction false} RemoveAllNoSpace(s: string, c: char)
    requires NoSpace(s)
    ensures NoSpace(RemoveAll(s, c))
    decreases |s|
  {
    if s != [] {
      RemoveAllNoSpace(s[1..], c);
    }
  }
}

=== FILE: user.dfy ===
/** A simulated user: the queue of users waiting for their next event, the
    user record with its current session, the move from event to event
    (ending a session by churn or by starting the next one), the routing of
    the current page to an event topic, the genre preferences, and the
    weighted choice of a video. */
module Users {
  import opened Wrappers
  import opened GoNum
  import opened MapSums
  import opened Weighted
  import opened StateGraph
  import opened Sessions
  import opened Lifecycle
  import Config

  // ---------------------------------------------------------------------
  // Queues

  /** What a `Dequeue` of `q` returns and leaves: the front element and the
      rest, or nothing and `q` itself when it is empty. */
  function Pop<T>(q: seq<T>): (r: (Option<T>, seq<T>))
    ensures r.0.None? <==> q == []
    ensures r.0.None? ==> r.1 == q
    ensures r.0.Some? ==> q == [r.0.value] + r.1
  {
    if q == [] then (None, q) else (Some(q[0]), q[1..])
  }

  /** Everything successive `Dequeue`s hand out until the queue is empty. */
  function Drain<T>(q: seq<T>): seq<T>
    decreases |q|
  {
    var (front, rest) := Pop(q);
    if front.None? then [] else [front.value] + Drain(rest)
  }

  /** First in, first out: the elements come out in the order they are
      stored, which is the order `Enqueue` appended them. */
  lemma {:induction false} DrainInOrder<T>(q: seq<T>)
    ensures Drain(q) == q
    decreases |q|
  {
    if q != [] {
      DrainInOrder(q[1..]);
    }
  }

  /** An element enqueued behind `q` comes out after every element of `q`. */
  lemma EnqueuedComesLast<T>(q: seq<T>, x: T)
    ensures Drain(q + [x]) == Drain(q) + [x]
  {
    DrainInOrder(q + [x]);
    DrainInOrder(q);
  }

  /** `SliceQueue`: a queue held in a slice. */
  class SliceQueue<T> {
    var items: seq<T>

    constructor ()
      ensures items == []
    {
      items := [];
    }

    /** `Enqueue`: appends at the back. */
    method Enqueue(item: T)
      modifies this
      ensures items == old(items) + [item]
    {
      items := items + [item];
    }

    /** `Dequeue`: removes and returns the front, or reports an empty queue
        and leaves it alone. */
    method Dequeue() returns (r: Option<T>)
      modifies this
      ensures (r, items) == Pop(old(items))
    {
      if |items| == 0 {
        return None;
      }
      r := Some(items[0]);
      items := items[1..];
    }
  }

  /** `UserQueue`: the users waiting for their next event, over a
      `SliceQueue`. */
  class UserQueue {
    const queue: SliceQueue<User>

    constructor ()
      ensures fresh(queue) && queue.items == []
    {
      queue := new SliceQueue<User>();
    }

    method Enqueue(user: User)
      modifies queue
      ensures queue.items == old(queue.items) + [user]
    {
      queue.Enqueue(user);
    }

    /** `Dequeue`: the front user, which fails exactly when no user waits. */
    method Dequeue() returns (r: Option<User>)
      modifies queue
      ensures (r, queue.items) == Pop(old(queue.items))
      ensures r.None? <==> old(queue.items) == []
    {
      r := queue.Dequeue();
    }
  }

  // ---------------------------------------------------------------------
  // Events

  /** The envelope every event carries. `timestamp` is in Unix seconds. */
  datatype PageView = PageView(
    timestamp: int,
    sessionId: int,
    page: string,
    auth: string,
    httpMethod: string,
    status: int,
    userId: int,
    itemInSession: int,
    subscriptionType: string)

  /** The event variants; the durations are as `Serialize` fills them in:
      whole minutes for a video, nanoseconds for an advertisement. */
  datatype Event =
    | AuthEvent(base: PageView, success: bool)
    | WatchEvent(base: PageView, videoId: string, videoTitle: string, duration: int)
    | ListenEvent(base: PageView, songId: string, audioTitle: string, artistName: string, duration: int)
    | AdEvent(base: PageView, adId: string, adType: string, duration: int)
    | StatusChangeEvent(base: PageView, oldStatus: string, newStatus: string)
    | PageViewEvent(base: PageView)

  /** An event and the topic it is published on. */
  datatype EventMessage = EventMessage(topic: string, event: Event)

  predicate IsAuthPage(page: string) {
    page == "Login" || page == "Logout" || page == "Register"
  }

  predicate IsSubscriptionPage(page: string) {
    page == "Submit Upgrade" || page == "Submit Downgrade" || page == "Cancel Subscription"
  }

  /** A page with a topic of its own. */
  predicate HasOwnTopic(page: string) {
    IsAuthPage(page) || page == "NextVideo" || page == "NextSong" || IsAdPage(page)
  }

  // ---------------------------------------------------------------------
  // Genre preferences

  function IntGet(m: map<string, int>, k: string): int {
    if k in m then m[k] else 0
  }

  /** The preferences after one more for each genre of `gs`, in order. */
  function Adjusted(m: map<string, int>, gs: seq<string>): map<string, int>
    decreases |gs|
  {
    if gs == [] then m else Adjusted(m[gs[0] := IntGet(m, gs[0]) + 1], gs[1..])
  }

  /** Each genre gains one per occurrence in `gs`; a new genre starts from
      nothing; no genre is removed and genres not in `gs` keep their weight. */
  lemma {:induction false} AdjustedCounts(m: map<string, int>, gs: seq<string>, g: string)
    ensures g in Adjusted(m, gs) <==> g in m || g in gs
    ensures IntGet(Adjusted(m, gs), g) == IntGet(m, g) + Config.Count(gs, g)
    decreases |gs|
  {
    if gs != [] {
      AdjustedCounts(m[gs[0] := IntGet(m, gs[0]) + 1], gs[1..], g);
      assert g in gs <==> g == gs[0] || g in gs[1..];
    }
  }

  // ---------------------------------------------------------------------
  // Users

  class User {
    const id: int
    const alpha: real
    const beta: real
    const startTime: int
    const auth: string
    const initialLevel: string
    const subscriptionType: string
    const config: Config.Config
    var genrePreferences: map<string, int>
    var currentSession: Session

    /** The user literal of `NewUser`; the subscription type keeps its zero
        value. */
    constructor (id: int, alpha: real, beta: real, startTime: int, auth: string, level: string,
                 session: Session, genres: map<string, int>, config: Config.Config)
      ensures this.id == id && this.alpha == alpha && this.beta == beta && this.startTime == startTime
      ensures this.auth == auth && initialLevel == level && subscriptionType == "" && this.config == config
      ensures genrePreferences == genres && currentSession == session
    {
      this.id := id;
      this.alpha := alpha;
      this.beta := beta;
      this.startTime := startTime;
      this.auth := auth;
      initialLevel := level;
      subscriptionType := "";
      this.config := config;
      genrePreferences := genres;
      currentSession := session;
    }

    /** `NextEvent`: one event of the current session; when that leaves the
        session done at `d.now`, `ChurnOrContinue`. The preferences and the
        state map stay; the counter and the choosers move only when a next
        session is opened. */
    method NextEvent(sessionIds: Counter, attrition: Option<real>, churnDraw: real, d: StepDraws,
                     sample: real, pick: StatePick, md: MovieDraw) returns (r: Outcome)
      requires currentSession.currentState != null ==>
        IsEnumeration(d.order, currentSession.currentState.Combined().Keys)
      requires MovieDrawFits(currentSession.config.genreMap, d.movie)
      requires MovieDrawFits(currentSession.config.genreMap, md)
      requires sessionIds.Valid() && currentSession.stateMap.Valid()
      requires var key := BucketKey(currentSession.auth, currentSession.level);
        key in currentSession.stateMap.Buckets ==> PickFits(currentSession.stateMap.Buckets[key], pick)
      modifies this, currentSession, sessionIds, currentSession.stateMap, currentSession.stateMap.Repr
      ensures sessionIds.Valid() && genrePreferences == old(genrePreferences)
      ensures currentSession.stateMap == old(currentSession.stateMap) && currentSession.stateMap.Valid()
      ensures old(currentSession.currentState) == null ==>
        r.Fail? && currentSession == old(currentSession) && currentSession.Snap() == old(currentSession.Snap())
        && sessionIds.value == old(sessionIds.value) && Unmoved(currentSession.stateMap, old(currentSession.stateMap.Buckets), old(currentSession.stateMap.Used))
      ensures old(currentSession.currentState) != null ==>
        var s := old(currentSession);
        var st := Advance(old(s.Snap()), Walk(old(s.currentState.Combined()), d.order, d.p), d,
                          NextMovieOf(s.config.genreMap, d.movie));
        if st.outcome.Fail? || !Done(st.data, s.currentContent, d.now) then
          r == st.outcome && currentSession == s && s.Snap() == st.data
          && sessionIds.value == old(sessionIds.value) && Unmoved(s.stateMap, old(s.stateMap.Buckets), old(s.stateMap.Used))
        else
          Ended(s, st.data, r, currentSession, old(sessionIds.value), sessionIds.value,
                old(s.stateMap.Buckets), old(s.stateMap.Used), attrition, churnDraw, sample, pick, md)
    {
      var s := currentSession;
      ghost var id0, buckets, used := sessionIds.value, s.stateMap.Buckets, s.stateMap.Used;
      r := s.IncrementEvent(d);
      assert sessionIds.value == id0 && Unmoved(s.stateMap, buckets, used);
      if r.Fail? || !Done(s.Snap(), s.currentContent, d.now) {
        return;
      }
      r := ChurnOrContinue(sessionIds, attrition, churnDraw, sample, pick, md);
    }

    /** The end of a session in `NextEvent`: a churned user keeps the
        session with its next event time zeroed; any other moves on to
        `NextSession`. */
    method ChurnOrContinue(sessionIds: Counter, attrition: Option<real>, churnDraw: real,
                           sample: real, pick: StatePick, md: MovieDraw) returns (r: Outcome)
      requires currentSession.currentState != null
      requires MovieDrawFits(currentSession.config.genreMap, md)
      requires sessionIds.Valid() && currentSession.stateMap.Valid()
      requires var key := BucketKey(currentSession.auth, currentSession.level);
        key in currentSession.stateMap.Buckets ==> PickFits(currentSession.stateMap.Buckets[key], pick)
      modifies this, currentSession, sessionIds, currentSession.stateMap, currentSession.stateMap.Repr
      ensures sessionIds.Valid() && genrePreferences == old(genrePreferences)
      ensures currentSession.stateMap == old(currentSession.stateMap) && currentSession.stateMap.Valid()
      ensures Ended(old(currentSession), old(currentSession.Snap()), r, currentSession,
                    old(sessionIds.value), sessionIds.value,
                    old(currentSession.stateMap.Buckets), old(currentSession.stateMap.Used),
                    attrition, churnDraw, sample, pick, md)
    {
      var s := currentSession;
      var probability := if attrition.Some? then attrition.value else 0.0;
      if churnDraw < probability || s.currentState.authStatus == "" {
        s.nextEventTime := ZeroTime;
        return Pass;
      }
      r := OpenNext(sessionIds, sample, pick, md);
    }

    /** The `NextSession` path of `ChurnOrContinue`. */
    method OpenNext(sessionIds: Counter, sample: real, pick: StatePick, md: MovieDraw) returns (r: Outcome)
      requires MovieDrawFits(currentSession.config.genreMap, md)
      requires sessionIds.Valid() && currentSession.stateMap.Valid()
      requires var key := BucketKey(currentSession.auth, currentSession.level);
        key in currentSession.stateMap.Buckets ==> PickFits(currentSession.stateMap.Buckets[key], pick)
      modifies this, sessionIds, currentSession.stateMap, currentSession.stateMap.Repr
      ensures sessionIds.Valid() && genrePreferences == old(genrePreferences)
      ensures currentSession.stateMap == old(currentSession.stateMap) && currentSession.stateMap.Valid()
      ensures Continued(old(currentSession), old(currentSession.Snap()), r, currentSession,
                        old(sessionIds.value), sessionIds.value,
                        old(currentSession.stateMap.Buckets), old(currentSession.stateMap.Used), sample, pick, md)
    {
      var s := currentSession;
      ghost var data := s.Snap();
      var next := s.NextSession(sessionIds, sample, pick, md);
      assert s.Snap() == data;
      if next.Err? {
        return Fail(next.error);
      }
      currentSession := next.value;
      r := Pass;
    }

    /** `Serialize`: the event of the current page and its topic. A missing
        current state, a `NextVideo` page without a movie, and an
        advertising page without an advertisement all end in a nil
        dereference. */
    function Serialize(now: int): (r: Result<EventMessage>)
      reads this, currentSession
      ensures var st := currentSession.currentState;
        r.Err? <==> st == null
                    || (st.page == "NextVideo" && currentSession.currentMovie.None?)
                    || (IsAdPage(st.page) && currentSession.currentAd.None?)
      ensures r.Ok? ==>
        var st := currentSession.currentState;
        var e := r.value.event;
        st != null
        && e.base.page == st.page && e.base.auth == st.authStatus && e.base.httpMethod == st.httpMethod
        && e.base.timestamp * Second <= now < (e.base.timestamp + 1) * Second
        && e.base.status == st.statusCode && e.base.sessionId == currentSession.id
        && e.base.itemInSession == currentSession.itemInSession && e.base.userId == id
        && e.base.subscriptionType == subscriptionType
        && (r.value.topic == "auth_events" <==> IsAuthPage(st.page))
        && (r.value.topic == "watch_events" <==> st.page == "NextVideo")
        && (r.value.topic == "listen_events" <==> st.page == "NextSong")
        && (r.value.topic == "ad_events" <==> IsAdPage(st.page))
        && (r.value.topic == "page_views_events" <==> !HasOwnTopic(st.page))
        && (e.AuthEvent? <==> IsAuthPage(st.page))
        && (e.StatusChangeEvent? <==> IsSubscriptionPage(st.page))
        && (e.PageViewEvent? <==> !HasOwnTopic(st.page) && !IsSubscriptionPage(st.page))
      ensures r.Ok? && r.value.event.AuthEvent? ==>
        (r.value.event.success <==> currentSession.currentState.authStatus == "Logged In")
      ensures r.Ok? && r.value.event.StatusChangeEvent? ==>
        r.value.event.oldStatus == r.value.event.newStatus == subscriptionType
      ensures r.Ok? && currentSession.currentState.page == "NextVideo" ==>
        var m := currentSession.currentMovie.value;
        r.value.event.WatchEvent?
        && r.value.event.videoId == m.movieId && r.value.event.videoTitle == m.name
        && r.value.event.duration == WholeMinutes(m.runtime)
      ensures r.Ok? && IsAdPage(currentSession.currentState.page) ==>
        var ad := currentSession.currentAd.value;
        r.value.event.AdEvent? && r.value.event.adId == ad.id && r.value.event.adType == ad.adType && r.value.event.duration == ad.duration
    {
      var st := currentSession.currentState;
      if st == null then Err("nil pointer dereference")
      else
        var base := PageView(now / Second, currentSession.id, st.page, st.authStatus, st.httpMethod,
                             st.statusCode, id, currentSession.itemInSession, subscriptionType);
        if st.page == "Login" || st.page == "Logout" || st.page == "Register" then
          Ok(EventMessage("auth_events", AuthEvent(base, st.authStatus == "Logged In")))
        else if st.page == "NextVideo" then
          match currentSession.currentMovie
          case None => Err("nil pointer dereference")
          case Some(m) => Ok(EventMessage("watch_events", WatchEvent(base, m.movieId, m.name, WholeMinutes(m.runtime))))
        else if st.page == "NextSong" then
          Ok(EventMessage("listen_events", ListenEvent(base, "someSongID", "Some Song Title", "Some Artist", 180)))
        else if st.page == "AdStart" || st.page == "AdImpression" || st.page == "AdEnd" then
          match currentSession.currentAd
          case None => Err("nil pointer dereference")
          case Some(ad) => Ok(EventMessage("ad_events", AdEvent(base, ad.id, ad.adType, ad.duration)))
        else if st.page == "Submit Upgrade" || st.page == "Submit Downgrade" || st.page == "Cancel Subscription" then
          Ok(EventMessage("page_views_events", StatusChangeEvent(base, subscriptionType, subscriptionType)))
        else
          Ok(EventMessage("page_views_events", PageViewEvent(base)))
    }

    /** `AdjustGenrePreferences`: one more for each genre the video lists. */
    method AdjustGenrePreferences(video: Config.Video)
      modifies this
      ensures genrePreferences == Adjusted(old(genrePreferences), video.genres)
      ensures forall g :: g in genrePreferences <==> g in old(genrePreferences) || g in video.genres
      ensures forall g :: IntGet(genrePreferences, g) == IntGet(old(genrePreferences), g) + Config.Count(video.genres, g)
    {
      ghost var before := genrePreferences;
      for i := 0 to |video.genres|
        invariant Adjusted(genrePreferences, video.genres[i..]) == Adjusted(before, video.genres)
      {
        var genre := video.genres[i];
        assert video.genres[i..][1..] == video.genres[i + 1..];
        if genre in genrePreferences {
          genrePreferences := genrePreferences[genre := genrePreferences[genre] + 1];
        } else {
          genrePreferences := genrePreferences[genre := 1];
        }
      }
      assert video.genres[|video.genres|..] == [];
      forall g {
        AdjustedCounts(before, video.genres, g);
      }
    }
  }

  // ---------------------------------------------------------------------
  // Creating a user

  /** The weights the first `n` new-session pages give the chooser of
      `key`, in page order. */
  function PageWeights(pages: seq<Config.SessionPage>, key: string, n: nat): (ws: seq<int>)
    requires n <= |pages|
    ensures |ws| <= n
  {
    if n == 0 then []
    else
      PageWeights(pages, key, n - 1)
        + (if BucketKey(pages[n - 1].auth, pages[n - 1].level) == key then [pages[n - 1].weight] else [])
  }

  /** A chooser built from the pages carries the pages' weights. */
  lemma {:induction false} BucketWeights(pages: seq<Config.SessionPage>, states: seq<State>, key: string, n: nat)
    requires n <= |pages| && n <= |states|
    ensures Weights(Bucket(pages, states, key, n)) == PageWeights(pages, key, n)
  {
    if n > 0 {
      BucketWeights(pages, states, key, n - 1);
      var b := Bucket(pages, states, key, n - 1);
      var extra := if BucketKey(pages[n - 1].auth, pages[n - 1].level) == key then [Item(states[n - 1], pages[n - 1].weight)] else [];
      assert Weights(b + extra) == Weights(b) + Weights(extra);
    }
  }

  /** Every item of a chooser built from the pages is the state of a page
      with that key, with the page's weight. */
  lemma {:induction false} BucketMember(pages: seq<Config.SessionPage>, states: seq<State>, key: string, n: nat, it: Item<State>)
    requires n <= |pages| && n <= |states|
    requires it in Bucket(pages, states, key, n)
    ensures exists i :: 0 <= i < n && BucketKey(pages[i].auth, pages[i].level) == key && it == Item(states[i], pages[i].weight)
  {
    var b := Bucket(pages, states, key, n - 1);
    if it in b {
      BucketMember(pages, states, key, n - 1, it);
    } else {
      assert BucketKey(pages[n - 1].auth, pages[n - 1].level) == key && it == Item(states[n - 1], pages[n - 1].weight);
    }
  }

  /** A draw the chooser of `key` built from the pages can take. */
  predicate PickFitsPages(pages: seq<Config.SessionPage>, key: string, pick: StatePick) {
    var ws := PageWeights(pages, key, |pages|);
    ValidSwaps(|ws|, pick.swaps) && (Sum(ws) > 0 ==> 0 <= pick.target < Sum(ws))
  }

  /** `s` is the state of one of the pages configured for `key`, created at
      that page's instant. */
  predicate StartsOn(s: State, pages: seq<Config.SessionPage>, nows: seq<int>, key: string)
    requires |nows| == |pages|
  {
    exists i :: 0 <= i < |pages| && BucketKey(pages[i].auth, pages[i].level) == key && MadeFor(s, pages[i], nows[i])
  }

  /** The draws `NewUser` consumes: the exponential samples of the warm-up
      loop, the creation instants of the page states, and the draws of the
      first session's state and movie. */
  datatype UserDraws = UserDraws(samples: seq<real>, nows: seq<int>, pick: StatePick, movie: MovieDraw)

  /** The first session's start, when the samples reach it. */
  function FirstArrival(cfg: Config.Settings, startTime: int, beta: real, samples: seq<real>): Option<int> {
    FirstTimeStamp(cfg.sessionGap, WarmUpStart(startTime, beta), WarmUpThreshold(startTime, beta), samples)
  }

  /** `s` is a first session as `NewUser` opens it: due at `t`, on the state
      of a page configured for its auth and level, with a movie exactly
      when that page is `NextVideo`. */
  ghost predicate Begun(s: Session, t: int, alpha: real, beta: real, auth: string, level: string,
                        cfg: Config.Config, nows: seq<int>, movie: Result<Config.Movie>)
    reads s
    requires |nows| == |cfg.settings.newSessionPages|
  {
    s.alpha == alpha && s.beta == beta && s.auth == auth && s.level == level && s.config == cfg
    && s.startTime == ZeroTime && s.currentContent.None?
    && s.currentState != null && StartsOn(s.currentState, cfg.settings.newSessionPages, nows, BucketKey(auth, level))
    && s.Snap() == InitialData(s.currentState, movie, t)
  }

  /** The state a draw picks from a freshly built chooser is the state of a
      page configured for the key. */
  lemma PickedStartsOn(pages: seq<Config.SessionPage>, nows: seq<int>, states: seq<State>, key: string,
                       drawn: seq<Item<State>>, swaps: seq<(nat, nat)>, target: int)
    requires |nows| == |pages| && |states| == |pages|
    requires forall i :: 0 <= i < |pages| ==> MadeFor(states[i], pages[i], nows[i])
    requires ValidSwaps(|Bucket(pages, states, key, |pages|)|, swaps)
    requires drawn == ApplySwaps(Bucket(pages, states, key, |pages|), swaps) && drawn != []
    ensures StartsOn(Picked(drawn, target), pages, nows, key)
  {
    var bucket := Bucket(pages, states, key, |pages|);
    var it := drawn[Chosen(Weights(drawn), target)];
    assert it in multiset(drawn);
    ApplySwapsKeeps(bucket, swaps);
    assert it in bucket;
    BucketMember(pages, states, key, |pages|, it);
  }

  /** What `InitializeStatesWithAuthLevel` gives the chooser of `key`: the
      pages' weights, so a draw that fits the pages fits the chooser. */
  lemma FreshChooser(pages: seq<Config.SessionPage>, states: seq<State>, buckets: map<string, seq<Item<State>>>,
                     key: string, pick: StatePick)
    requires |states| == |pages|
    requires forall k :: k in buckets <==> exists i :: 0 <= i < |pages| && BucketKey(pages[i].auth, pages[i].level) == k
    requires forall k :: k in buckets ==> buckets[k] == Bucket(pages, states, k, |pages|)
    requires PickFitsPages(pages, key, pick)
    ensures key in buckets ==> PickFits(buckets[key], pick) && Sum(Weights(buckets[key])) == Sum(PageWeights(pages, key, |pages|))
    ensures key !in buckets ==> Sum(PageWeights(pages, key, |pages|)) == 0
  {
    BucketWeights(pages, states, key, |pages|);
    if key !in buckets {
      BucketEmpty(pages, states, key, |pages|);
    }
  }

  /** `InitializeStatesWithAuthLevel` as `NewUser` uses it: a fresh page
      graph whose chooser for `key` holds the states of the pages of that
      key, with their weights, none drawn from yet. */
  method BuildGraph(pages: seq<Config.SessionPage>, transitions: seq<Config.Transition>, nows: seq<int>,
                    key: string, pick: StatePick)
    returns (alm: AuthLevelStateMap, ghost states: seq<State>)
    requires |nows| == |pages| && PickFitsPages(pages, key, pick)
    ensures fresh(alm) && fresh(alm.Repr) && alm.Valid() && alm.Used == {}
    ensures |states| == |pages| && forall i :: 0 <= i < |pages| ==> MadeFor(states[i], pages[i], nows[i])
    ensures key in alm.Buckets ==>
      alm.Buckets[key] == Bucket(pages, states, key, |pages|)
      && PickFits(alm.Buckets[key], pick) && Sum(Weights(alm.Buckets[key])) == Sum(PageWeights(pages, key, |pages|))
    ensures key !in alm.Buckets ==> Sum(PageWeights(pages, key, |pages|)) == 0
  {
    alm, states := InitializeStatesWithAuthLevel(pages, transitions, nows);
    FreshChooser(pages, states, alm.Buckets, key, pick);
  }

  /** `InitializeStatesWithAuthLevel` and `NewSession` of `NewUser`: a
      fresh page graph and the first session on it. */
  method OpenFirstSession(sessionIds: Counter, t: int, alpha: real, beta: real, auth: string, level: string,
                          cfg: Config.Config, d: UserDraws)
    returns (r: Result<Session>)
    requires sessionIds.Valid() && |d.nows| == |cfg.settings.newSessionPages|
    requires PickFitsPages(cfg.settings.newSessionPages, BucketKey(auth, level), d.pick)
    requires MovieDrawFits(cfg.genreMap, d.movie)
    modifies sessionIds
    ensures sessionIds.Valid()
    ensures var ws := PageWeights(cfg.settings.newSessionPages, BucketKey(auth, level), |cfg.settings.newSessionPages|);
      (Sum(ws) <= 0 ==> r.Err?) && (Sum(ws) > 0 && NextMovieOf(cfg.genreMap, d.movie).Ok? ==> r.Ok?)
    ensures r.Err? ==> sessionIds.value == old(sessionIds.value)
    ensures r.Ok? ==> fresh(r.value) && r.value.id == sessionIds.value == Wrap64(old(sessionIds.value) + 1)
    ensures r.Ok? ==> fresh(r.value.stateMap) && fresh(r.value.stateMap.Repr) && r.value.stateMap.Valid()
    ensures r.Ok? ==> Begun(r.value, t, alpha, beta, auth, level, cfg, d.nows, NextMovieOf(cfg.genreMap, d.movie))
    ensures r.Ok? && cfg.Valid() ==> r.value.Valid()
  {
    var pages := cfg.settings.newSessionPages;
    var key := BucketKey(auth, level);
    var alm, states := BuildGraph(pages, cfg.settings.transitions, d.nows, key, d.pick);
    ghost var buckets := alm.Buckets;
    r := NewSession(sessionIds, t, alpha, beta, alm, auth, level, d.pick, d.movie, cfg);
    if key in buckets {
      ApplySwapsKeeps(buckets[key], d.pick.swaps);
    }
    if r.Ok? {
      PickedStartsOn(pages, d.nows, states, key, alm.Buckets[key], d.pick.swaps, d.pick.target);
    }
  }

  /** `NewUser`: the first session's start from the warm-up loop, a fresh
      page graph, the first session on it, and the user numbered by the
      user counter. */
  method NewUser(userIds: Counter, sessionIds: Counter, alpha: real, beta: real, startTime: int,
                 auth: string, level: string, cfg: Config.Config, genres: map<string, int>, d: UserDraws)
    returns (r: Result<User>)
    requires userIds.Valid() && sessionIds.Valid() && userIds != sessionIds
    requires |d.nows| == |cfg.settings.newSessionPages|
    requires PickFitsPages(cfg.settings.newSessionPages, BucketKey(auth, level), d.pick)
    requires MovieDrawFits(cfg.genreMap, d.movie)
    modifies userIds, sessionIds
    ensures userIds.Valid() && sessionIds.Valid()
    ensures r.Err? ==> userIds.value == old(userIds.value)
    ensures FirstArrival(cfg.settings, startTime, beta, d.samples).None? ==> r.Err?
    ensures var ws := PageWeights(cfg.settings.newSessionPages, BucketKey(auth, level), |cfg.settings.newSessionPages|);
      FirstArrival(cfg.settings, startTime, beta, d.samples).Some? ==>
        (Sum(ws) <= 0 ==> r.Err?) && (Sum(ws) > 0 && NextMovieOf(cfg.genreMap, d.movie).Ok? ==> r.Ok?)
    ensures r.Ok? ==> fresh(r.value) && r.value.id == userIds.value == Wrap64(old(userIds.value) + 1)
    ensures r.Ok? ==>
      r.value.alpha == alpha && r.value.beta == beta && r.value.startTime == startTime && r.value.auth == auth
      && r.value.initialLevel == level && r.value.subscriptionType == "" && r.value.config == cfg
      && r.value.genrePreferences == genres
    ensures r.Ok? ==>
      var s := r.value.currentSession;
      fresh(s) && s.id == sessionIds.value == Wrap64(old(sessionIds.value) + 1)
      && fresh(s.stateMap) && s.stateMap.Valid()
      && Begun(s, FirstArrival(cfg.settings, startTime, beta, d.samples).value, alpha, beta, auth, level, cfg, d.nows,
               NextMovieOf(cfg.genreMap, d.movie))
  {
    var t := PickFirstTimeStamp(cfg.settings.sessionGap, startTime, beta, d.samples);
    if t.None? {
      return Err("warm-up samples exhausted");
    }
    var s := OpenFirstSession(sessionIds, t.value, alpha, beta, auth, level, cfg, d);
    if s.Err? {
      return Err(s.error);
    }
    var id := userIds.Next();
    var u := new User(id, alpha, beta, startTime, auth, level, s.value, genres, cfg);
    return Ok(u);
  }

  // ---------------------------------------------------------------------
  // weightedRandomSelect

  /** The index `weightedRandomSelect` stops at for the draw: the first whose
      cumulative weight reaches the draw (at least, rather than above). */
  function ReachedIndex(ws: seq<int>, draw: int): (i: nat)
    ensures i <= |ws|
  {
    FirstAbove(ws, draw - 1)
  }

  /** The stopping rule as written: every earlier cumulative weight is below
      the draw, the one at the index reaches it, and for a draw below the
      total some index is reached. */
  lemma ReachedIndexIsFirst(ws: seq<int>, draw: int)
    ensures forall j :: 0 <= j < ReachedIndex(ws, draw) ==> Cum(ws, j) < draw
    ensures ReachedIndex(ws, draw) < |ws| ==> Cum(ws, ReachedIndex(ws, draw)) >= draw
    ensures 0 <= draw < Sum(ws) ==> ReachedIndex(ws, draw) < |ws|
  {
    FirstAboveIsFirst(ws, draw - 1);
    var i := ReachedIndex(ws, draw);
    if 0 <= draw < Sum(ws) && i == |ws| {
      assert ws != [];
      CumLast(ws);
      assert false;
    }
  }

  /** The weights [0, 1] have total 1, so the only draw is 0, and the rule
      as written returns the video of weight 0 for it; the prefix rule of
      the other choosers returns the video of weight 1. */
  lemma ReachedIndexPicksZeroWeight()
    ensures Sum([0, 1]) == 1
    ensures ReachedIndex([0, 1], 0) == 0 && [0, 1][ReachedIndex([0, 1], 0)] == 0
    ensures FirstAbove([0, 1], 0) == 1
  {
    assert [0, 1][1..] == [1];
    assert [1][1..] == [];
  }

  /** The weights [1, 1] have total 2, so the draws are 0 and 1; the rule as
      written stops at index 0 for both and never returns the second video,
      where the prefix rule returns each for one draw. */
  lemma ReachedIndexNeverPicksLast()
    ensures Sum([1, 1]) == 2
    ensures ReachedIndex([1, 1], 0) == 0 && ReachedIndex([1, 1], 1) == 0
    ensures FirstAbove([1, 1], 0) == 0 && FirstAbove([1, 1], 1) == 1
  {
    assert [1, 1][1..] == [1];
    assert [1][1..] == [];
  }

  /** `weightedRandomSelect` as written: totals the weights, draws below the
      total (`Intn` panics on a total that is not positive), subtracts the
      weights in order and returns the video at which the draw is no longer
      positive; nil when none is reached. */
  method WeightedRandomSelect(videos: seq<Config.Video>, weights: seq<int>, draw: int)
    returns (r: Result<Option<Config.Video>>)
    requires Sum(weights) > 0 ==> 0 <= draw < Sum(weights)
    ensures r.Err? <==> Sum(weights) <= 0 || |videos| <= ReachedIndex(weights, draw) < |weights|
    ensures r.Ok? ==> r.value == if ReachedIndex(weights, draw) < |weights| then Some(videos[ReachedIndex(weights, draw)]) else None
  {
    var total := TotalWeight(weights);
    if total <= 0 {
      return Err("invalid argument to Intn");
    }
    var rest := draw;
    var i := 0;
    while i < |weights|
      invariant 0 <= i <= |weights|
      invariant i + FirstAbove(weights[i..], rest - 1) == ReachedIndex(weights, draw)
    {
      assert weights[i..][1..] == weights[i + 1..];
      rest := rest - weights[i];
      if rest <= 0 {
        if i >= |videos| {
          return Err("index out of range");
        }
        return Ok(Some(videos[i]));
      }
      i := i + 1;
    }
    return Ok(None);
  }

  /** `weightedRandomSelect` with the prefix rule of the other choosers:
      the video whose share of the total contains the draw. */
  method WeightedRandomSelectFixed(videos: seq<Config.Video>, weights: seq<int>, draw: int)
    returns (r: Result<Option<Config.Video>>)
    requires Sum(weights) > 0 ==> 0 <= draw < Sum(weights)
    ensures r.Err? <==> Sum(weights) <= 0 || |videos| <= FirstAbove(weights, draw) < |weights|
    ensures r.Ok? ==> r.value == if FirstAbove(weights, draw) < |weights| then Some(videos[FirstAbove(weights, draw)]) else None
    ensures r.Ok? && NonNegative(weights) ==>
      var i := FirstAbove(weights, draw);
      i < |weights| && weights[i] > 0 && Cum(weights, i) - weights[i] <= draw < Cum(weights, i)
  {
    var total := TotalWeight(weights);
    if total <= 0 {
      return Err("invalid argument to Intn");
    }
    if NonNegative(weights) {
      FirstAboveSelects(weights, draw);
    }
    var rest := draw;
    var i := 0;
    while i < |weights|
      invariant 0 <= i <= |weights|
      invariant i + FirstAbove(weights[i..], rest) == FirstAbove(weights, draw)
    {
      assert weights[i..][1..] == weights[i + 1..];
      if rest < weights[i] {
        if i >= |videos| {
          return Err("index out of range");
        }
        return Ok(Some(videos[i]));
      }
      rest := rest - weights[i];
      i := i + 1;
    }
    return Ok(None);
  }
}

=== FILE: weighted.dfy ===
/** The weighted random chooser: items with integer weights, a target drawn
    uniformly below the total weight, and the first item whose cumulative
    weight exceeds the target. The binary search of `sort.Search` and the
    linear scan used elsewhere in the simulator both compute that item. */
module Weighted {
  import opened Wrappers

  datatype Item<T> = Item(value: T, weight: int)

  function Weights<T>(items: seq<Item<T>>): (ws: seq<int>)
    ensures |ws| == |items| && forall i :: 0 <= i < |items| ==> ws[i] == items[i].weight
  {
    seq(|items|, i requires 0 <= i < |items| => items[i].weight)
  }

  function Sum(ws: seq<int>): int {
    if ws == [] then 0 else ws[0] + Sum(ws[1..])
  }

  predicate NonNegative(ws: seq<int>) {
    forall i :: 0 <= i < |ws| ==> ws[i] >= 0
  }

  lemma {:induction false} SumSnoc(ws: seq<int>, x: int)
    ensures Sum(ws + [x]) == Sum(ws) + x
    decreases |ws|
  {
    if ws == [] {
      assert [x][1..] == [];
    } else {
      assert (ws + [x])[1..] == ws[1..] + [x];
      SumSnoc(ws[1..], x);
    }
  }

  /** Replacing one weight changes the sum by the difference. */
  lemma {:induction false} SumUpdate(ws: seq<int>, i: nat, x: int)
    requires i < |ws|
    ensures Sum(ws[i := x]) == Sum(ws) - ws[i] + x
    decreases |ws|
  {
    if i > 0 {
      assert ws[i := x][1..] == ws[1..][i - 1 := x];
      SumUpdate(ws[1..], i - 1, x);
    }
  }

  /** A sum of non-negative weights is non-negative and bounds every
      weight. */
  lemma {:induction false} SumNonNegative(ws: seq<int>)
    requires NonNegative(ws)
    ensures Sum(ws) >= 0
    ensures forall i :: 0 <= i < |ws| ==> ws[i] <= Sum(ws)
    decreases |ws|
  {
    if ws != [] {
      SumNonNegative(ws[1..]);
      forall i | 1 <= i < |ws| ensures ws[i] <= Sum(ws) {
        assert ws[i] == ws[1..][i - 1];
      }
    }
  }

  /** The cumulative weight of the items up to and including `i`. */
  function Cum(ws: seq<int>, i: nat): int
    requires i < |ws|
  {
    Sum(ws[..i + 1])
  }

  lemma CumFirst(ws: seq<int>)
    requires |ws| > 0
    ensures Cum(ws, 0) == ws[0]
  {
    var one := ws[..1];
    assert one == [ws[0]] && one[1..] == [];
    assert Sum(one) == ws[0] + Sum([]);
  }

  lemma CumNext(ws: seq<int>, i: nat)
    requires i + 1 < |ws|
    ensures Cum(ws, i + 1) == Cum(ws, i) + ws[i + 1]
  {
    assert ws[..i + 2] == ws[..i + 1] + [ws[i + 1]];
    SumSnoc(ws[..i + 1], ws[i + 1]);
  }

  lemma CumLast(ws: seq<int>)
    requires |ws| > 0
    ensures Cum(ws, |ws| - 1) == Sum(ws)
  {
    assert ws[..|ws|] == ws;
  }

  /** Cumulative weights of the tail are the cumulative weights of the whole
      less the first weight. */
  lemma {:induction false} CumTail(ws: seq<int>, i: nat)
    requires i + 1 < |ws|
    ensures Cum(ws, i + 1) == ws[0] + Cum(ws[1..], i)
  {
    assert ws[..i + 2][1..] == ws[1..][..i + 1];
  }

  /** With non-negative weights cumulative weights never decrease. */
  lemma {:induction false} CumMonotone(ws: seq<int>, i: nat, j: nat)
    requires NonNegative(ws) && i <= j < |ws|
    ensures Cum(ws, i) <= Cum(ws, j)
    decreases j - i
  {
    if i < j {
      CumMonotone(ws, i, j - 1);
      CumNext(ws, j - 1);
    }
  }

  /** The linear scan: the first index whose weight exceeds what is left of
      the target after subtracting the weights before it, or |ws| if none. */
  function FirstAbove(ws: seq<int>, t: int): (i: nat)
    ensures i <= |ws|
    decreases |ws|
  {
    if ws == [] then 0
    else if t < ws[0] then 0
    else 1 + FirstAbove(ws[1..], t - ws[0])
  }

  /** The scan finds the first index whose cumulative weight exceeds the
      target: every earlier cumulative weight is at most the target. */
  lemma {:induction false} FirstAboveIsFirst(ws: seq<int>, t: int)
    ensures forall j :: 0 <= j < FirstAbove(ws, t) ==> Cum(ws, j) <= t
    ensures FirstAbove(ws, t) < |ws| ==> Cum(ws, FirstAbove(ws, t)) > t
    decreases |ws|
  {
    if ws != [] {
      CumFirst(ws);
      if t >= ws[0] {
        var i := FirstAbove(ws, t);
        FirstAboveIsFirst(ws[1..], t - ws[0]);
        forall j | 0 <= j < i ensures Cum(ws, j) <= t {
          if j > 0 {
            CumTail(ws, j - 1);
          }
        }
        if i < |ws| {
          CumTail(ws, i - 1);
        }
      }
    }
  }

  /** For a target drawn below a total of non-negative weights, the scan
      finds an item, the item has a positive weight, and the target lies in
      that item's share [Cum - weight, Cum) of the total: each item is found
      for exactly `weight` targets. */
  lemma FirstAboveSelects(ws: seq<int>, t: int)
    requires NonNegative(ws) && 0 <= t < Sum(ws)
    ensures FirstAbove(ws, t) < |ws|
    ensures ws[FirstAbove(ws, t)] > 0
    ensures Cum(ws, FirstAbove(ws, t)) - ws[FirstAbove(ws, t)] <= t < Cum(ws, FirstAbove(ws, t))
  {
    var i := FirstAbove(ws, t);
    FirstAboveIsFirst(ws, t);
    if i == |ws| {
      CumLast(ws);
      assert false;
    }
    if i == 0 {
      CumFirst(ws);
    } else {
      CumNext(ws, i - 1);
    }
  }

  /** Any index whose share contains the target is the one the scan finds. */
  lemma SharesAreDisjoint(ws: seq<int>, t: int, k: nat)
    requires NonNegative(ws) && k < |ws|
    requires Cum(ws, k) - ws[k] <= t < Cum(ws, k)
    ensures FirstAbove(ws, t) == k
  {
    var i := FirstAbove(ws, t);
    FirstAboveIsFirst(ws, t);
    if i < k {
      CumMonotone(ws, i, k - 1);
      CumNext(ws, k - 1);
      assert false;
    } else if i > k {
      assert false;
    }
  }

  /** The loop that totals the weights before a draw (`totalWeight +=
      weight` over every entry). */
  method TotalWeight(ws: seq<int>) returns (total: int)
    ensures total == Sum(ws)
  {
    total := 0;
    for i := 0 to |ws|
      invariant total == Sum(ws[..i])
    {
      assert ws[..i + 1] == ws[..i] + [ws[i]];
      SumSnoc(ws[..i], ws[i]);
      total := total + ws[i];
    }
    assert ws[..|ws|] == ws;
  }

  // ---------------------------------------------------------------------
  // sort.Search

  /** `sort.Search(n, f)` with f(h) = Cum(ws, h) > t on the half-open range
      [i, j): the midpoint rounds down, a false f moves the low end past the
      midpoint and a true f moves the high end to it. */
  function BinarySearch(ws: seq<int>, t: int, i: nat, j: nat): (r: nat)
    requires i <= j <= |ws|
    ensures i <= r <= j
    decreases j - i
  {
    if i >= j then i
    else
      var h := (i + j) / 2;
      if !(Cum(ws, h) > t) then BinarySearch(ws, t, h + 1, j) else BinarySearch(ws, t, i, h)
  }

  /** Whatever the weights, the search ends between an index whose test is
      false and one whose test is true (or the ends of the range), as
      `sort.Search` promises. */
  lemma {:induction false} BinarySearchBoundary(ws: seq<int>, t: int, i: nat, j: nat)
    requires i <= j <= |ws|
    requires i > 0 ==> Cum(ws, i - 1) <= t
    requires j < |ws| ==> Cum(ws, j) > t
    ensures BinarySearch(ws, t, i, j) > 0 ==> Cum(ws, BinarySearch(ws, t, i, j) - 1) <= t
    ensures BinarySearch(ws, t, i, j) < |ws| ==> Cum(ws, BinarySearch(ws, t, i, j)) > t
    decreases j - i
  {
    if i < j {
      var h := (i + j) / 2;
      if !(Cum(ws, h) > t) {
        BinarySearchBoundary(ws, t, h + 1, j);
      } else {
        BinarySearchBoundary(ws, t, i, h);
      }
    }
  }

  /** With non-negative weights the test is monotone, so the binary search
      finds the same index as the linear scan. */
  lemma BinarySearchIsFirstAbove(ws: seq<int>, t: int)
    requires NonNegative(ws)
    ensures BinarySearch(ws, t, 0, |ws|) == FirstAbove(ws, t)
  {
    var b := BinarySearch(ws, t, 0, |ws|);
    var f := FirstAbove(ws, t);
    BinarySearchBoundary(ws, t, 0, |ws|);
    FirstAboveIsFirst(ws, t);
    if b < f {
      assert false;
    } else if f < b {
      CumMonotone(ws, f, b - 1);
      assert false;
    }
  }

  /** The cumulative weight the search's predicate recomputes on each call. */
  method CumulativeWeight<T>(items: seq<Item<T>>, i: nat) returns (c: int)
    requires i < |items|
    ensures c == Cum(Weights(items), i)
  {
    ghost var ws := Weights(items);
    c := 0;
    var j := 0;
    while j <= i
      invariant 0 <= j <= i + 1
      invariant c == Sum(ws[..j])
    {
      assert ws[..j + 1] == ws[..j] + [ws[j]];
      SumSnoc(ws[..j], ws[j]);
      c := c + items[j].weight;
      j := j + 1;
    }
  }

  /** `sort.Search(len(items), f)` as the loop the library runs. */
  method SearchIndex<T>(items: seq<Item<T>>, target: int) returns (r: nat)
    ensures r == BinarySearch(Weights(items), target, 0, |items|)
    ensures r <= |items|
    ensures r > 0 ==> Cum(Weights(items), r - 1) <= target
    ensures r < |items| ==> Cum(Weights(items), r) > target
  {
    ghost var ws := Weights(items);
    var i, j := 0, |items|;
    BinarySearchBoundary(ws, target, 0, |items|);
    while i < j
      invariant 0 <= i <= j <= |items|
      invariant BinarySearch(ws, target, i, j) == BinarySearch(ws, target, 0, |items|)
      decreases j - i
    {
      var h := (i + j) / 2;
      var c := CumulativeWeight(items, h);
      if !(c > target) {
        i := h + 1;
      } else {
        j := h;
      }
    }
    r := i;
  }

  // ---------------------------------------------------------------------
  // The generator

  /** The sequence after `sort.Slice` exchanged the positions in `swaps`, in
      order (the sort moves elements only by swapping them). */
  function ApplySwaps<T>(s: seq<T>, swaps: seq<(nat, nat)>): (r: seq<T>)
    requires forall k :: 0 <= k < |swaps| ==> swaps[k].0 < |s| && swaps[k].1 < |s|
    ensures |r| == |s|
    decreases |swaps|
  {
    if swaps == [] then s
    else
      var (i, j) := swaps[0];
      ApplySwaps(s[i := s[j]][j := s[i]], swaps[1..])
  }

  predicate ValidSwaps(n: nat, swaps: seq<(nat, nat)>) {
    forall k :: 0 <= k < |swaps| ==> swaps[k].0 < n && swaps[k].1 < n
  }

  /** Swapping keeps the items and their total weight. */
  lemma {:induction false} ApplySwapsKeeps<T>(s: seq<Item<T>>, swaps: seq<(nat, nat)>)
    requires ValidSwaps(|s|, swaps)
    ensures multiset(ApplySwaps(s, swaps)) == multiset(s)
    ensures Sum(Weights(ApplySwaps(s, swaps))) == Sum(Weights(s))
    decreases |swaps|
  {
    if swaps != [] {
      var (i, j) := swaps[0];
      var s' := s[i := s[j]][j := s[i]];
      SwapKeeps(s, i, j);
      ApplySwapsKeeps(s', swaps[1..]);
    }
  }

  lemma SwapKeeps<T>(s: seq<Item<T>>, i: nat, j: nat)
    requires i < |s| && j < |s|
    ensures multiset(s[i := s[j]][j := s[i]]) == multiset(s)
    ensures Sum(Weights(s[i := s[j]][j := s[i]])) == Sum(Weights(s))
  {
    var ws := Weights(s);
    assert Weights(s[i := s[j]]) == ws[i := ws[j]];
    assert Weights(s[i := s[j]][j := s[i]]) == ws[i := ws[j]][j := ws[i]];
    SumUpdate(ws, i, ws[j]);
    SumUpdate(ws[i := ws[j]], j, ws[i]);
  }

  /** `WeightedRandomThingGenerator`: items added in order, then prepared
      (sorted) on first use, after which adding panics. */
  class Generator<T> {
    var items: seq<Item<T>>
    var ready: bool
    var totalWeight: int

    ghost predicate Valid()
      reads this
    {
      totalWeight == Sum(Weights(items))
    }

    /** `NewWeightedRandomThingGenerator`: no items, not prepared. */
    constructor ()
      ensures Valid() && items == [] && !ready && totalWeight == 0
    {
      items := [];
      ready := false;
      totalWeight := 0;
    }

    /** `Add`: appends the item and its weight, or panics once the generator
        has been used. */
    method Add(value: T, weight: int) returns (r: Outcome)
      requires Valid()
      modifies this
      ensures Valid() && ready == old(ready)
      ensures r.Pass? <==> !old(ready)
      ensures items == if old(ready) then old(items) else old(items) + [Item(value, weight)]
    {
      if ready {
        return Fail("WeightedRandomThingGenerator: cannot add after use");
      }
      assert Weights(items + [Item(value, weight)]) == Weights(items) + [weight];
      SumSnoc(Weights(items), weight);
      items := items + [Item(value, weight)];
      totalWeight := totalWeight + weight;
      return Pass;
    }

    /** `prepare`: `sort.Slice` reorders the items by the swaps it made, and
        the generator becomes ready. */
    method Prepare(swaps: seq<(nat, nat)>)
      requires Valid() && ValidSwaps(|items|, swaps)
      modifies this
      ensures Valid() && ready
      ensures items == ApplySwaps(old(items), swaps)
      ensures multiset(items) == multiset(old(items)) && totalWeight == old(totalWeight)
    {
      ghost var before := items;
      ApplySwapsKeeps(items, swaps);
      var k := 0;
      while k < |swaps|
        invariant 0 <= k <= |swaps|
        invariant |items| == |before| && totalWeight == old(totalWeight)
        invariant ApplySwaps(items, swaps[k..]) == ApplySwaps(before, swaps)
      {
        assert swaps[k..][1..] == swaps[k + 1..];
        var (i, j) := swaps[k];
        items := items[i := items[j]][j := items[i]];
        k := k + 1;
      }
      assert swaps[k..] == [];
      assert items == ApplySwaps(before, swaps);
      ready := true;
    }

    /** `RandomThing`: prepares the generator on first use (with the sort's
        swaps), then finds the first item whose cumulative weight exceeds the
        target drawn by `Intn(totalWeight)`, falling back to the last item.
        A total weight that is not positive makes `Intn` panic. */
    method RandomThing(swaps: seq<(nat, nat)>, target: int) returns (r: Result<T>)
      requires Valid() && ValidSwaps(|items|, swaps)
      requires totalWeight > 0 ==> 0 <= target < totalWeight
      modifies this
      ensures Valid() && ready && totalWeight == old(totalWeight)
      ensures items == if old(ready) then old(items) else ApplySwaps(old(items), swaps)
      ensures r.Err? <==> totalWeight <= 0
      ensures r.Ok? ==> r.value == items[Chosen(Weights(items), target)].value
    {
      if !ready {
        Prepare(swaps);
      }
      if totalWeight <= 0 {
        return Err("invalid argument to Intn");
      }
      if items == [] {
        assert false;
      }
      var i := SearchIndex(items, target);
      if i >= |items| {
        return Ok(items[|items| - 1].value);
      }
      return Ok(items[i].value);
    }
  }

  /** The index `RandomThing` returns: the search result, or the last index
      when the search finds nothing. */
  function Chosen(ws: seq<int>, t: int): (i: nat)
    requires |ws| > 0
    ensures i < |ws|
  {
    var b := BinarySearch(ws, t, 0, |ws|);
    if b >= |ws| then |ws| - 1 else b
  }

  /** With non-negative weights and a target below their total, the chosen
      item is the one whose share of the total contains the target, and it
      has positive weight; the fallback is never taken. */
  lemma ChosenSelects(ws: seq<int>, t: int)
    requires |ws| > 0 && NonNegative(ws) && 0 <= t < Sum(ws)
    ensures Chosen(ws, t) == FirstAbove(ws, t)
    ensures ws[Chosen(ws, t)] > 0
    ensures Cum(ws, Chosen(ws, t)) - ws[Chosen(ws, t)] <= t < Cum(ws, Chosen(ws, t))
  {
    BinarySearchIsFirstAbove(ws, t);
    FirstAboveSelects(ws, t);
  }
}

=== FILE: wrappers.dfy ===
/** Failure-carrying values shared by every module of the model. A Go
    `panic` and a returned `error` are both modelled as `Err`/`Fail` with a
    short description of the cause. */
module Wrappers {

  /** A nullable pointer or an optional value. */
  datatype Option<+T> = None | Some(value: T)

  /** A value, or the error (or panic) that prevents it. */
  datatype Result<+T> = Ok(value: T) | Err(error: string)

  /** Success of an operation that produces no value, or its failure. */
  datatype Outcome = Pass | Fail(error: string)
}
